=== FILE: README.md ===
# Robot head controller: a Dafny model

This project models the control core of a voice-assistant robot head. A speech
client streams reply audio. The server turns that audio into a mouth-opening
percentage and drives a jaw servo from it, either directly or through a
legacy pulse table. A camera loop finds the closest face and points the eye
servos at it, blinking now and then. A browser control panel feeds commands
through a queue, and the server executes them against its settings, the jaw
and the eyes.

The model is pure: every operation is a function or a method over immutable
datatypes. Hardware, time and randomness are inputs:

- the moment a servo write raises is a `BusFault`;
- clock readings are `real` arguments;
- random draws are reals in [0, 1), compared against the blink probability.

Modules follow the program's files:

| module | models |
|---|---|
| `Common`, `Dict`, `Json` | options, clamping, decimal text, insertion-ordered string dicts, JSON values |
| `AudioMouth` | `src/audio_mouth_controller.py`: envelope tracker, visemes, band adjustment |
| `Eyes` | `src/eye_controller.py`: value mapping, servo writes, centring, blink, gaze |
| `Rig` | `src/servo_config.py`: the three servo rigs and the catalog lookup |
| `FaceTracking` | `src/face_tracker.py`: face choice and loss timing |
| `Platform` | `src/platform_config.py`: board detection and per-board camera settings |
| `Bus` | the servo-write sequence with the first failing write |
| `Jaw` | the jaw arbitration of `src/voice_assistant_server.py` |
| `Settings` | the defaults and the settings file merge |
| `Visualizer` | `src/mouth_visualizer.py`: UI state, events, control queue |
| `Server` | the server's global state, audio callback, speech-end monitor, session start and stop |
| `FaceLoop` | the face-tracking loop, its start and stop, and the virtual gaze |
| `Commands` | `process_control_commands`: parsing and executing queued control commands |

## Model

| member | source | states |
|---|---|---|
| AudioMouth.ServerParams | src/voice_assistant_server.py:62-68 | the server's tracker parameters are valid (non-empty window, ordered thresholds, curve into [0,1]) and close faster than they open |
| AudioMouth.Push | src/audio_mouth_controller.py:41 | appending to the bounded window keeps the newest samples: the result is the suffix of old window plus sample, one longer until the window is full |
| AudioMouth.LoudTarget | src/audio_mouth_controller.py:80-87 | a target from a loud chunk is a percentage in [0,100], and any amplitude at or above the upper threshold gives the full curve value |
| AudioMouth.Ease | src/audio_mouth_controller.py:92-100 | easing toward the target never overshoots it, whether closing or opening |
| AudioMouth.EaseRates | src/audio_mouth_controller.py:92-100 | a closing move covers exactly close_speed of the gap, an opening move exactly 0.4 of it |
| AudioMouth.ClosingNotSlower | src/audio_mouth_controller.py:92-100 | with a close speed of at least 0.4, closing by a gap moves at least as far as opening by the same gap |
| AudioMouth.Step | src/audio_mouth_controller.py:49-106 | one chunk: the window gains the sample; a quiet mean zeroes the target and counts silence; a loud one resets the counter and sets speaking from the target; the opening stays in [0,100], between old opening and target, and is 0 after more than two silent chunks; a loud target is the curve target of the window mean, and until the silence limit the opening is the eased move toward the target (closing at the close speed, opening at 0.4) |
| AudioMouth.RunWindow | src/audio_mouth_controller.py:68-72 | after any run the window is the last smoothing_window amplitudes of everything fed since the last reset |
| AudioMouth.WindowAfterReset | src/audio_mouth_controller.py:131-137 | after a reset, the window holds the last smoothing_window amplitudes fed since |
| AudioMouth.RunSettled | src/audio_mouth_controller.py:102-104 | after any non-empty run, a silence count above two means the mouth is shut |
| AudioMouth.SilentRunCloses | src/audio_mouth_controller.py:75-104 | a run of quiet chunks adds one to the silence counter per chunk, and from the third the mouth is exactly shut |
| AudioMouth.ResetThenSilence | src/audio_mouth_controller.py:131-137 | after a reset, one quiet chunk leaves the mouth shut and not speaking |
| AudioMouth.VisemeOf | src/audio_mouth_controller.py:118-129 | below 5 percent is CLOSED, at or above 70 is WIDE |
| AudioMouth.VisemeMatchesBands | src/audio_mouth_controller.py:118-129 | an opening gets a viseme exactly when it lies in that viseme's band of the threshold table |
| AudioMouth.VisemeMonotone | src/audio_mouth_controller.py:118-129 | a wider opening never gets a narrower viseme |
| AudioMouth.VisemeNameRoundTrip | src/audio_mouth_controller.py:118-129 | each viseme's name reads back as that viseme |
| AudioMouth.AdjustForBands | src/audio_mouth_controller.py:182-189 | consonant-heavy chunks scale the opening by 0.7, vowel-heavy ones by 1.2 capped at 100, others and empty chunks keep it, and a percentage stays a percentage |
| AudioMouth.EnhancedStep | src/audio_mouth_controller.py:154-192 | the enhanced step has the base step's state, the base opening adjusted for the bands, and the viseme of that adjusted opening |
| AudioMouth.EnhancedAgainstBase | src/audio_mouth_controller.py:182-192 | against the base tracker: a consonant-dominated chunk never opens wider or gives a wider viseme, a vowel-dominated one never opens less or gives a narrower viseme, and without bands or with balanced bands opening and viseme are the base ones |
| Eyes.MapValueEndpoints | src/eye_controller.py:11-13 | map_value sends the ends of the input interval to the ends of the output interval |
| Eyes.MapValueMidpoint | src/eye_controller.py:11-13 | map_value sends the middle of the input interval to the middle of the output interval |
| Eyes.MapValueRoundTrip | src/eye_controller.py:11-13 | mapping back with the intervals swapped recovers the input |
| Eyes.MapValueBetween | src/eye_controller.py:11-13 | an input inside the input interval maps between the output bounds, in either order |
| Eyes.NewController | src/eye_controller.py:19-42 | a new controller keeps its rig, kit and callback, has no recorded angles and a last blink time of 0 |
| Eyes.ClampToInRange | src/eye_controller.py:53-55 | on a well-formed rig, the clamped angle lies in the servo's range |
| Eyes.SetServoAngle | src/eye_controller.py:44-65 | without a kit or for an unlisted servo nothing happens; otherwise one write of the clamped angle to the servo's channel, recorded for that servo only, with the whole table sent to the callback when there is one |
| Eyes.SetAll | src/eye_controller.py:74-76 | a run of set_servo_angle calls keeps the rig, the kit and the blink time, and does nothing without a kit |
| Eyes.SetAllListed | src/eye_controller.py:74-76 | with a kit and listed, distinct servos, each entry gives one clamped write in order, is recorded, and leaves every other servo's record alone |
| Eyes.SetAllRecords | src/eye_controller.py:59 | after the run, every entry's clamped angle is recorded for its servo |
| Eyes.SetAllOthers | src/eye_controller.py:59 | a servo that no entry names keeps its recorded angle |
| Eyes.WritesOfListed | src/eye_controller.py:74-76 | when every servo is listed, the writes are the entries' clamped angles on their channels, repeated names included |
| Eyes.CenterEyes | src/eye_controller.py:67-79 | centring keeps the rig, kit and blink time, and does nothing without a kit |
| Eyes.CenterWritesDefaults | src/eye_controller.py:67-79 | on a well-formed rig, centring writes each channel its default angle in channel order, and records each servo at its default |
| Eyes.BlinkEntries | src/eye_controller.py:104-113 | a rig without a blink table has no blink entries; otherwise two per eyelid |
| Eyes.BlinkEyes | src/eye_controller.py:81-117 | without a kit or a due blink nothing changes; a blink moves the last blink time to now |
| Eyes.BlinkWithoutTable | src/eye_controller.py:104 | a rig without a blink table blinks without writing any servo |
| Eyes.BlinkCloseThenReopen | src/eye_controller.py:102-113 | on a well-formed rig, a blink writes every eyelid's closed angle in table order, then every eyelid's default angle in the same order |
| Eyes.PresentAxes | src/eye_controller.py:136-175 | only axes the rig lists are computed, and no more of them than there are rules |
| Eyes.PresentAxesMembers | src/eye_controller.py:136-175 | the computed axes are exactly the rules whose servo the rig lists |
| Eyes.AxesBatch | src/eye_controller.py:133-175 | the batch is undefined exactly when one of the axes needs a zero frame dimension (a case a detected face never produces); otherwise it has one angle per axis, in order |
| Eyes.WriteBatch | src/eye_controller.py:177-184 | the batch loop records every batch servo: the table gains exactly the batch's names, an unnamed servo keeps its record, and a named one holds its last entry's angle, clamped when the servo has a channel and as computed otherwise |
| Eyes.TrackPosition | src/eye_controller.py:119-192 | without a kit, or for a frame of zero size (which never holds a detected face), nothing is written or sent; otherwise the unclamped batch goes to the callback once, and only if it is non-empty, and the recorded table gains the batch's names with each holding its recorded angle while every other servo keeps its record |
| Eyes.WriteBatchListed | src/eye_controller.py:177-184 | when every batch servo is listed, the loop writes each angle clamped to its own channel |
| Eyes.TrackWritesInRange | src/eye_controller.py:177-184 | every angle track_position sends lies in the range of its servo, one write per computed axis, on that axis's channel |
| Eyes.InMoovGazeAxes | src/eye_controller.py:136-163 | the InMoov rig computes exactly the four per-eye axes: left X, left Y, right X, right Y |
| Eyes.PerEyeAxes | src/eye_controller.py:136-175 | a rig with the four per-eye axes and no shared axis computes those four in order |
| Eyes.SharedAxisRigsGetNoGaze | src/eye_controller.py:165-175 | the Original and Simple rigs name their shared axes eyes_x and eyes_y, which the gaze code never looks for, so their batch is empty |
| Eyes.XAxisInverted | src/eye_controller.py:139 | an X axis sends a face at the left edge to the top of its range, one at the right edge to the bottom, and the centre to the middle |
| Eyes.YAxisDirections | src/eye_controller.py:143-175 | the left Y axis sends the top of the frame to the bottom of its range; the shared Y axis sends it to the top; the right Y axis sends it to the top plus the trim, clamped |
| Eyes.RightEyeTrim | src/eye_controller.py:149-163 | the right eye's angles are the mapped angle plus its trim, clamped to the range, so they stay in range |
| Rig.GetChannel | src/servo_config.py:16-18 | a servo has a channel exactly when the rig lists it, and the channel is the one listed with it |
| Rig.GetDefaultAngle | src/servo_config.py:20-22 | an unlisted servo's default is 90; a listed one's is the angle listed with it |
| Rig.GetAngleRange | src/servo_config.py:24-26 | an unlisted servo's range is 0 to 180; a listed one's is the range listed with it |
| Rig.DefaultWithinRange | src/servo_config.py:55-79 | in a well-formed rig every listed servo has a default and a range, and the default lies in the range |
| Rig.RangeOrdered | src/servo_config.py:24-26 | in a well-formed rig the looked-up range of any name, listed or not, has min at most max |
| Rig.BlinkWithinRange | src/servo_config.py:81-87 | in a well-formed rig every closed-eyelid angle lies in its servo's range |
| Rig.InMoovWellFormed | src/servo_config.py:29-87 | the InMoov rig has eight distinct channels, matching default and range tables, ordered ranges, in-range defaults, and an in-range blink table of listed eyelids |
| Rig.OriginalWellFormed | src/servo_config.py:90-140 | the Original rig is well-formed in the same sense, with six servos |
| Rig.SimpleWellFormed | src/servo_config.py:143-170 | the Simple rig is well-formed, with two servos and no blink table |
| Rig.GetConfig | src/servo_config.py:181-196 | the name is lower-cased; original and simple select those rigs, and every other name selects InMoov |
| Rig.GetConfigWellFormed | src/servo_config.py:174-196 | whatever name is asked for, the selected rig is well-formed |
| Rig.GetConfigCaseInsensitive | src/servo_config.py:191 | selection ignores letter case |
| FaceTracking.CenterInsideBox | src/face_tracker.py:102-105 | the floor-divided centre of a box lies inside it, at most half a pixel before the true midpoint |
| FaceTracking.ClosestIndex | src/face_tracker.py:84-98 | the scan keeps a face no other face is nearer to the frame centre than, and every earlier face is strictly farther |
| FaceTracking.FirstClosestUnique | src/face_tracker.py:96-98 | that selection rule picks exactly one face, so ties go to the earliest |
| FaceTracking.ClosestFace | src/face_tracker.py:73-100 | no face exactly when the list is empty; otherwise the first face nearest the frame centre |
| FaceTracking.StrictlyNearestChosen | src/face_tracker.py:73-100 | a face strictly nearer than every other is chosen wherever it sits in the list |
| FaceTracking.TrackFace | src/face_tracker.py:118-164 | no frame gives no report and no change; a face gives a found report with the chosen box, its centre, the frame size and the face count, and clears the loss time; no face keeps the last position and reports the time since the loss began |
| FaceTracking.TimeLostNonNegative | src/face_tracker.py:150-155 | with a clock that does not run backwards, the reported time lost is never negative |
| FaceTracking.LossClockHolds | src/face_tracker.py:151-152 | over frames without faces, the loss time stays the moment the face was first missed and the last position is kept |
| Platform.PlatformNameRoundTrip | src/platform_config.py:13-17 | each platform's name reads back as that platform |
| Platform.Detect | src/platform_config.py:26-52 | Darwin is Mac; otherwise a Tegra release file is Jetson; otherwise a CPU mentioning Raspberry Pi or BCM is a Pi; otherwise Linux is Linux and the rest is unknown, each in both directions |
| Platform.BcmMeansPi | src/platform_config.py:43 | a Linux host whose CPU text contains BCM anywhere is taken for a Raspberry Pi |
| Platform.GstreamerSourceCarriesSettings | src/platform_config.py:96-107 | the Jetson pipeline starts with the CSI camera source and carries the capture width and height, the display size, the frame rate and the flip method asked for |
| Platform.JetsonSourceDefaults | src/platform_config.py:96-107 | the default pipeline embeds width 640, height 480, framerate 20/1 and flip-method 0 |
| Platform.CameraConfigFor | src/platform_config.py:54-94 | every row is 640x480; only Jetson uses GStreamer; the two boards run at 20 fps and the rest at 30; the device and backend per platform |
| Platform.JetsonRowConsistent | src/platform_config.py:66-74 | the Jetson pipeline runs at the frame rate its row reports |
| Platform.I2cBus | src/platform_config.py:133-144 | a Mac has no bus number; every other platform uses bus 1 |
| Platform.PlatformPredicatesPartition | src/platform_config.py:194-204 | a Mac is never Linux; both boards count as Linux; no platform is both boards; unknown is exactly neither Mac nor Linux |
| Platform.BoardsUseBusOne | src/platform_config.py:26-52 | a non-Darwin host with a Tegra file or a Pi CPU is Linux, uses bus 1 and runs the camera at 20 fps |
| Bus.Perform | src/voice_assistant_server.py:149-190 | a try block of servo steps runs whole exactly when every angle evaluates, no pause is negative and no write raises, and then writes exactly what it asks for; otherwise it stops at the first raising step, keeping the writes before it, and only a disconnecting write reports a disconnect |
| Bus.PerformWritesOn | src/voice_assistant_server.py:149-190 | wherever a sequence stops, every write that happened is one of its steps, so a channel and range bound on the steps bounds the bus |
| Bus.AllWritesIntended | src/voice_assistant_server.py:316-325 | a sequence of evaluated writes with no pauses asks for exactly its angles, in order |
| Jaw.ClampAngle | src/voice_assistant_server.py:37-42 | the result lies in 0 to 180 and equals the angle exactly when the angle is in range; below goes to 0, above to 180 |
| Jaw.SettingAngle | src/voice_assistant_server.py:157 | a jaw angle setting gives an angle exactly when it is a number, and the angle is that number clamped |
| Jaw.JawAngleShape | src/voice_assistant_server.py:106-109 | 0 percent is the closed angle, 100 the open angle, and the angle grows in proportion to the opening |
| Jaw.AfterFailure | src/voice_assistant_server.py:120-126 | after a failed sequence the servo stays available unless the failure was a disconnect; the position is kept |
| Jaw.JawDirect | src/voice_assistant_server.py:90-126 | unavailable does nothing; an unreadable calibration does nothing; a target within the deadband of the last accepted opening's angle does nothing; otherwise one clamped jaw write and the opening becomes the position, and a failing write latches the servo off on a disconnect and changes nothing else |
| Jaw.UnavailableLatches | src/voice_assistant_server.py:94-95 | once the servo is marked unavailable, no later direct request writes or changes anything |
| Jaw.DirectRunWritesOn | src/voice_assistant_server.py:114-117 | over any run of direct requests, every write is a jaw write in 0 to 180 and there is at most one per request |
| Jaw.DeadbandFromLastWrite | src/voice_assistant_server.py:108-117 | the deadband is measured from the last written opening: a request within it of that opening writes nothing, and one beyond it writes |
| Jaw.VisemePosition | src/voice_assistant_server.py:137-147 | every viseme asks for an opening in 0 to 65, and CLOSED asks for 0 |
| Jaw.VisemePositionMonotone | src/voice_assistant_server.py:138-145 | a wider viseme never asks for a smaller opening, and only CLOSED asks for none |
| Jaw.PulseShape | src/voice_assistant_server.py:168-179 | a pulse writes the jaw twice, in range |
| Jaw.PulseIntended | src/voice_assistant_server.py:168-179 | with both angles set and a non-negative pause, a pulse asks for the drive angle, then the stop angle |
| Jaw.PulseNegativePause | src/voice_assistant_server.py:172 | a negative pause ends a pulse after its drive write |
| Jaw.PulseCompletes | src/voice_assistant_server.py:168-182 | a pulse with its settings in place on a working bus runs whole and moves the position to the target |
| Jaw.PulseHalts | src/voice_assistant_server.py:170-172 | a negative pulse duration stops after the drive write and keeps the position |
| Jaw.ControlJawServo | src/voice_assistant_server.py:128-190 | unavailable does nothing, and the servo never becomes available again |
| Jaw.LegacyBounds | src/voice_assistant_server.py:149-190 | the legacy control writes the jaw in range at most twice, and leaves the position where it was or at the viseme's opening |
| Jaw.LegacyCompletes | src/voice_assistant_server.py:149-182 | on a working bus with the calibration set: CLOSED with the jaw over 5 percent open pulses closed and records 0; a move under 3 only writes the stop angle; otherwise a pulse toward the open or closed angle records the viseme's opening |
| Jaw.NegativeDurationStopsHalfway | src/voice_assistant_server.py:156-179 | with a negative pulse duration, any pulsing case writes only the drive angle, without the stop angle, and keeps the position |
| Jaw.Ramp | src/voice_assistant_server.py:316-320 | the closing ramp has ten angles |
| Jaw.RampShape | src/voice_assistant_server.py:316-320 | the ramp ends exactly on the target, every angle lies between the start and the target, and each step is no further from the target |
| Jaw.RampCloser | src/voice_assistant_server.py:318 | a later ramp angle is never further from the target than an earlier one |
| Jaw.CloseSteps | src/voice_assistant_server.py:316-325 | the speech-end writes are the ten clamped ramp angles then five clamped holds of the target, all on the jaw channel and in range |
| Jaw.SpeechEndClose | src/voice_assistant_server.py:310-331 | without the servo only the position is reset; with it, availability is kept, every write is an in-range jaw write, the watcher survives exactly with the jaw closed, and a failure ends the watcher with the jaw state unchanged |
| Jaw.SpeechEndRamps | src/voice_assistant_server.py:310-326 | on a working bus the close writes the ramp from the current opening's angle to the closed angle, then holds the closed angle five times, and records the jaw closed |
| Jaw.SessionStopClose | src/voice_assistant_server.py:377-392 | stopping requests a direct close, whose writes come first; only 0-degree writes follow, exactly ten of them when the servo is still available and no hold fails; availability follows the direct request; a full run of holds records the jaw closed, and a failing hold keeps the direct request's state |
| Jaw.ForceClose | src/voice_assistant_server.py:383-388 | after the direct request, a servo still available gets only raw 0-degree writes after the request's own, ten of them and the jaw recorded closed when none fails; a failing write keeps the request's state |
| Settings.DefaultsWellFormed | src/voice_assistant_server.py:45-58 | the defaults are a dict of the twelve setting names in declared order, with the jaw closed at 0, open at 100, stop at 0 and a deadband of 2 |
| Settings.LoadSettings | src/voice_assistant_server.py:193-201 | the loaded settings are a dict holding every default name; a missing, unreadable or non-object file gives exactly the defaults |
| Settings.LoadedOverridesDefaults | src/voice_assistant_server.py:198 | a name in the file reads the file's value, and every other name reads its default |
| Settings.LoadKeepsDefaultOrder | src/voice_assistant_server.py:198 | the merged settings list the twelve default names first, in their declared order |
| Settings.StartupKeysPresent | src/voice_assistant_server.py:213-217 | the startup reads of voice, microphone, speaker and speech speed always find their key |
| Common.Clamp | src/eye_controller.py:55 | max(lo, min(hi, x)) lies in an ordered range, keeps an in-range value, and sends values below to lo and above to hi |
| Common.ClampIdempotent | src/eye_controller.py:182 | clamping an already clamped angle again changes nothing |
| Common.DecRoundTrip | src/voice_assistant_server.py:548 | the decimal text of a channel number reads back as that number, so distinct channels have distinct keys |
| Json.AsNumber | src/voice_assistant_server.py:102-106 | a value is usable in arithmetic exactly when it is a bool, int or float, with True as 1 and False as 0 |
| Json.TruthyNumber | src/voice_assistant_server.py:626 | a number is truthy exactly when it is non-zero |
| Json.NumberAt | src/voice_assistant_server.py:102-103 | indexing a missing key gives no number; a present key gives its value as a number, if it is one |
| Json.NumberOr | src/voice_assistant_server.py:112 | a lookup with a default gives the default for a missing key and the value as a number otherwise |
| Dict.Get | src/servo_config.py:18 | a lookup misses exactly when the key is absent, and a hit is a value stored with that key |
| Dict.GetOr | src/servo_config.py:22 | a lookup with a default gives the default for a missing key and the stored value otherwise |
| Dict.Put | src/voice_assistant_server.py:462 | assigning a key keeps the dict's keys distinct, reads back the new value, leaves every other key's value alone, keeps an existing key in place and appends a new one |
| Dict.OverlayGet | src/voice_assistant_server.py:198 | in a dict merge, a key reads from the second dict when it has it and from the first otherwise |
| Dict.OverlayKeepsPrefix | src/voice_assistant_server.py:198 | a dict merge keeps the first dict's keys at their positions |
| Visualizer.UpdateMouth | src/mouth_visualizer.py:104-109 | a mouth update leaves the queue alone, makes the status report the new viseme and text, and pushes exactly that update |
| Visualizer.StatusReportsLastUpdate | src/mouth_visualizer.py:36-42 | the status reports the most recent mouth update, and CLOSED with no text before any update |
| Visualizer.PutIfPresentGet | src/mouth_visualizer.py:123-132 | copying an axis under a browser field name sets that field exactly when the axis is present and touches no other field |
| Visualizer.EyeDataGet | src/mouth_visualizer.py:122-140 | each browser field holds the shared axis when present and the eye's own axis otherwise |
| Visualizer.EyeDataFields | src/mouth_visualizer.py:122-140 | left and right X hold eye_x if present, else their own X axes; likewise for Y |
| Visualizer.EyeDataKeys | src/mouth_visualizer.py:120-142 | only the four browser fields are ever sent, each exactly when its eye's axis or the shared axis is present, and the payload is empty exactly when no eye axis is |
| Visualizer.UpdateEyes | src/mouth_visualizer.py:112-143 | at most one position event, sent exactly when some eye axis is present, carrying the shaped payload |
| Visualizer.UpdateFaceTrackingStatus | src/mouth_visualizer.py:146-153 | one status event carrying the enabled flag |
| Visualizer.TriggerBlink | src/mouth_visualizer.py:156-158 | one blink event |
| Visualizer.DefaultPacing | src/mouth_visualizer.py:174-178 | without a duration each phoneme shows for one twelfth of a second, however many there are |
| Visualizer.GivenDurationShared | src/mouth_visualizer.py:178 | with a duration the phonemes share it exactly |
| Visualizer.PauseSign | src/mouth_visualizer.py:174-178 | the pause per phoneme is negative exactly when a negative duration is given |
| Visualizer.PhonemeFrames | src/mouth_visualizer.py:181-183 | one frame per phoneme, in order, captioned with the text and the phoneme and showing its viseme |
| Visualizer.AnimateText | src/mouth_visualizer.py:161-187 | no phonemes do nothing; otherwise a pause raises exactly when the given duration is negative, in which case only the first update is sent and the status stays on it; without a raise there is one update per phoneme with the shared pause, then CLOSED with no text and the rest pause, and the status is the closing update |
| Visualizer.AnimationLength | src/mouth_visualizer.py:174-187 | with default pacing every phoneme of an animation shows for one twelfth of a second |
| Visualizer.NegativeDurationStopsAnimation | src/mouth_visualizer.py:178-187 | a negative duration stops the animation after its first update: one update is sent, the closing CLOSED update never is, and the status is not CLOSED |
| Visualizer.HandleControl | src/mouth_visualizer.py:90-101 | a control message appends its action and value, None when missing, to the queue, keeps the status, and acknowledges the action |
| Visualizer.GetControlCommand | src/mouth_visualizer.py:202-215 | an empty queue gives nothing and no change; otherwise the oldest command, removed from the queue |
| Visualizer.DrainInOrder | src/mouth_visualizer.py:202-215 | successive reads return the queued commands in order, then nothing |
| Visualizer.HandleAllAppends | src/mouth_visualizer.py:90-101 | handling messages appends one command per message after what was waiting, in arrival order |
| Server.Quiet | src/voice_assistant_server.py:673 | a step that changes nothing writes nothing, sends nothing and saves nothing |
| Server.Startup | src/voice_assistant_server.py:60-89 | start-up loads the settings, reads voice, microphone, speaker and speed from them, and starts idle: not running, not speaking, unmuted, jaw closed with the servo flag as found, tracking off, the mouth shown closed and an empty queue |
| Server.StartupConsistent | src/voice_assistant_server.py:60-89 | the start-up globals satisfy the server's invariants |
| Server.ChunkKeepsConsistent | src/voice_assistant_server.py:266-285 | an audio chunk keeps the server's invariant: the tracker state fits its parameters and the settings and eye table stay proper dicts |
| Server.MonitorKeepsConsistent | src/voice_assistant_server.py:292-333 | a watcher pass keeps the server's invariant, the reset tracker state included |
| Server.StopKeepsConsistent | src/voice_assistant_server.py:377-432 | the session's stop and the start and stop commands keep the server's invariant |
| Server.StartupDefaults | src/voice_assistant_server.py:193-217 | without a usable settings file the assistant speaks as matthew at speed 17 on the default devices |
| Server.StartupVoiceFromFile | src/voice_assistant_server.py:198-214 | a voice named in the file wins over the default voice |
| Server.OnAudioChunk | src/voice_assistant_server.py:266-285 | a chunk stamps its arrival time, feeds the envelope tracker, sets speaking exactly when the opening exceeds 3, shows the opening's viseme with the current text, and sends at most one in-range jaw write; the jaw moves to the opening or stays, and the servo never comes back once latched off |
| Server.MonitorStep | src/voice_assistant_server.py:292-333 | the watcher ends once the assistant stops; before 0.5 s of silence it does nothing; after it, speaking ends, the tracker resets, the mouth is shown closed, and the jaw closes or, if the close raised, the watcher ends with the jaw unchanged |
| Server.ChunkDefersSpeechEnd | src/voice_assistant_server.py:297-299 | within half a second of a chunk the watcher never closes the mouth |
| Server.SpeechEndOnce | src/voice_assistant_server.py:299-301 | right after the watcher closed the mouth, another pass does nothing |
| Server.SpeechEndClosesJaw | src/voice_assistant_server.py:310-327 | on a working bus with a numeric calibration, speech end writes fifteen jaw angles ending on the closed angle, records the jaw closed, and keeps the watcher running |
| Server.SessionStop | src/voice_assistant_server.py:377-392 | when a session returns normally, stopping ends speaking, shows the mouth closed, writes only in-range jaw angles and nothing without the servo, and a completed hold records the jaw closed |
| Server.StopLeavesNothingToClose | src/voice_assistant_server.py:377-381 | after a session stop the watcher has nothing to write or show |
| Server.StartVoice | src/voice_assistant_server.py:402-420 | starting is ignored when running; otherwise the assistant runs with a fresh watcher |
| Server.StopVoice | src/voice_assistant_server.py:423-432 | stopping leaves the assistant not running and changes nothing else |
| Server.StartThenStop | src/voice_assistant_server.py:402-432 | starting then stopping returns to the stopped globals, and the new watcher then sees the stop and ends |
| FaceLoop.CallbackEvents | src/voice_assistant_server.py:772 | the page updates produced through the eye controller's callback are only eye-position updates, at most one per recorded table |
| FaceLoop.VirtualGaze | src/voice_assistant_server.py:704-717 | the virtual gaze exists exactly for a frame of non-zero size, names the four eye axes in order, and gives both eyes the same x and the same y |
| FaceLoop.VirtualGazeRange | src/voice_assistant_server.py:704-709 | the frame's left and right edges map to 120 and 60 degrees, top and bottom to 60 and 120, the centre to 90, and every point of the frame to 60..120 |
| FaceLoop.SharedGazeShown | src/mouth_visualizer.py:112-153 | a table with equal x and equal y for both eyes and no shared axis is shown as one update placing both eyes at that pair |
| FaceLoop.VirtualGazeShown | src/voice_assistant_server.py:711-717 | the virtual gaze reaches the page as exactly one update placing both eyes at the mapped pair |
| FaceLoop.ShowVirtualGaze | src/voice_assistant_server.py:712-717 | the update emitted for a found face places both eyes at the mapped pair |
| FaceLoop.StartWithRig | src/voice_assistant_server.py:772-780 | starting on a rig installs a controller for that rig with the kit and callback, writes each channel its default once in channel order, records each listed servo at its default, emits only eye updates and enables tracking |
| FaceLoop.StartOnNamedRig | src/voice_assistant_server.py:768-773 | the controller is built on the catalog entry for the name, with centring writes of that entry |
| FaceLoop.StartFaceTracking | src/voice_assistant_server.py:753-792 | the start succeeds exactly when the camera starts and, with the servo, the configured name is a string; a failure changes only the tracker; success enables tracking, with a centred controller on the named rig when the servo is available and no controller and no writes otherwise |
| FaceLoop.StopFaceTracking | src/voice_assistant_server.py:795-809 | stopping disables tracking and drops tracker and controller; it writes the centring of the old controller when there was one and nothing otherwise |
| FaceLoop.StopIdempotent | src/voice_assistant_server.py:795-809 | stopping a stopped tracker changes nothing and writes nothing |
| FaceLoop.AutoStart | src/voice_assistant_server.py:834-841 | without a truthy `face_tracking_enabled` nothing happens; with it tracking is started and the success report to the page is emitted exactly when the start succeeds |
| FaceLoop.GazeOnlyJoin | src/eye_controller.py:62-63 | joining two runs of eye updates gives eye updates only, with no blink |
| FaceLoop.WithBlink | src/voice_assistant_server.py:724-730 | the pass's events are kept as a prefix and a blink is present exactly when due |
| FaceLoop.MoveEyes | src/voice_assistant_server.py:719-722 | without a controller nothing moves; with one the controller keeps its rig and the callback emits only eye updates |
| FaceLoop.GazeStep | src/voice_assistant_server.py:711-730 | the virtual gaze is the first event; a controller is kept exactly when there was one and writes happen only with one; a blink is emitted and the blink clock reset exactly when more than four seconds passed and the draw is under one half |
| FaceLoop.SafetyClose | src/voice_assistant_server.py:737-741 | on every thirtieth frame, with the assistant silent, the servo present and the jaw open, the jaw is written 0 degrees and recorded closed; a failing write changes nothing; otherwise nothing happens |
| FaceLoop.FoundPass | src/voice_assistant_server.py:694-741 | a found face in a sized frame shows the mapped gaze first, blinks exactly when due, and ends with the safety check |
| FaceLoop.AfterTrack | src/voice_assistant_server.py:694-748 | a zero-size frame with a face (never produced by the detector) skips the rest of the pass; otherwise the pass ends with the safety check, and only a found face produces events |
| FaceLoop.TrackFrame | src/voice_assistant_server.py:692 | a frame with faces is reported found with the frame's size, and a frame that maps safely never yields a zero-size found report |
| FaceLoop.FaceLoopStep | src/voice_assistant_server.py:683-748 | a pass does nothing unless tracking is enabled with a tracker; otherwise it advances the frame counter, updates the tracker, shows the gaze for a found face, blinks exactly when due, closes an open jaw on the safety frame as its last write, never touches the jaw while speaking, and changes nothing outside tracking and the jaw, so a sound server stays sound and the server's invariant is kept |
| Commands.ParseListed | src/voice_assistant_server.py:450-667 | each action string of the loop's `if` chain selects its own branch |
| Commands.ParseRecognised | src/voice_assistant_server.py:443-667 | a command selects a branch exactly when its action is one of the listed strings; anything else falls through every test |
| Commands.SetValue | src/voice_assistant_server.py:460-502 | a `set_*` command stores its value under its key and leaves every other key as it was; voice, microphone, speaker and speed also set their global; the settings are saved and nothing else changes |
| Commands.SettingSurvivesRestart | src/voice_assistant_server.py:669-671 | the settings file written after a change loads back with the new value under the action's key |
| Commands.VoiceSurvivesRestart | src/voice_assistant_server.py:460-464 | a new voice is the voice the server starts with next time |
| Commands.TestJawSteps | src/voice_assistant_server.py:510-516 | the jaw test is three writes, all on the jaw channel and within 0..180 degrees |
| Commands.RunTestJaw | src/voice_assistant_server.py:504-526 | without the servo nothing happens, and otherwise the test makes at most three in-range jaw writes, leaves the jaw's recorded opening alone, and, when both angle settings are numeric, turns the servo off exactly when one of the three writes fails with a disconnect, after the writes before it |
| Commands.TestJawCompletes | src/voice_assistant_server.py:510-518 | on a working bus the test writes close, open, close and changes nothing else |
| Commands.TestJawDisconnect | src/voice_assistant_server.py:519-522 | a disconnect at the k-th write leaves exactly k writes and the servo off |
| Commands.TestJawWithoutCloseAngle | src/voice_assistant_server.py:510 | a missing or non-numeric close angle raises at the first write: nothing moves and the servo stays on |
| Commands.RunTestEyeServo | src/voice_assistant_server.py:528-540 | with the servo and a working write, channel 0 goes to 90 degrees; otherwise nothing is written; nothing else changes |
| Commands.CenterAngle | src/voice_assistant_server.py:548 | with no calibration table every channel's centre is 90 degrees |
| Commands.CenterWrite | src/voice_assistant_server.py:546-552 | one channel is written exactly when its lookup evaluates and its write succeeds, with its clamped centre angle |
| Commands.CenterWrites | src/voice_assistant_server.py:545-552 | the centring writes go to distinct channels below the count in increasing order, never to a failing channel, each with its clamped centre |
| Commands.CenterWritesComplete | src/voice_assistant_server.py:545-552 | every channel whose centre evaluates and whose write succeeds is written |
| Commands.CenterWithoutCalibration | src/voice_assistant_server.py:548-549 | with no calibration and no failure every channel goes to 90 degrees in channel order |
| Commands.RunCenterAll | src/voice_assistant_server.py:542-555 | without the servo nothing happens; otherwise only channels 0..7, in order, each with its clamped centre, and no failing channel |
| Commands.CenterAllComplete | src/voice_assistant_server.py:545-552 | every eye channel whose centre evaluates and whose write succeeds is centred |
| Commands.SweepPlan | src/voice_assistant_server.py:600-614 | the sweep is 23 writes, all on the swept channel |
| Commands.RunSweep | src/voice_assistant_server.py:591-619 | without the servo nothing happens; otherwise at most 23 writes, all on channel 0 and within 0..180 degrees, and nothing else changes |
| Commands.SweepCompletes | src/voice_assistant_server.py:600-614 | the complete default sweep writes 0, then 0, 9, ..., 180, then 90 degrees on channel 0 |
| Commands.SweepInterrupted | src/voice_assistant_server.py:616-617 | a fault at the k-th write leaves the first k writes of the full sweep and the servo on, even for a disconnect |
| Commands.EyeTable | src/voice_assistant_server.py:563-565 | the calibration table is empty when absent and otherwise the dict stored under `eye_servos` |
| Commands.RunSaveEyeConfig | src/voice_assistant_server.py:557-575 | the default calibration is stored for channel 0, every other channel's entry and every other setting are kept, and the settings are saved; a table that is not a dict ends the loop with the settings untouched |
| Commands.EyeConfigOf | src/voice_assistant_server.py:578-585 | the lookup succeeds exactly when the table is usable, and gives channel 0's entry when saved and the defaults otherwise |
| Commands.RunLoadEyeConfig | src/voice_assistant_server.py:577-589 | as evidently intended, channel 0's calibration (or the defaults) is sent to the page and nothing else changes; a table that is not a dict ends the loop |
| Commands.RunLoadEyeConfigAsWritten | src/voice_assistant_server.py:577-589 | as written, nothing reaches the page and the loop ends |
| Commands.LoadAsWrittenEndsLoop | src/voice_assistant_server.py:588 | with no calibration saved the intended command reports the defaults and the loop goes on, while the written one reports nothing and ends the loop |
| Commands.SaveThenLoad | src/voice_assistant_server.py:557-589 | saving and then loading reports the calibration just saved |
| Commands.SaveKeepsOtherCentres | src/voice_assistant_server.py:548-572 | saving changes no other channel's centre angle |
| Commands.StartTracking | src/voice_assistant_server.py:753-792 | the start succeeds exactly when the camera opens and, with the servo, the rig name is a string; it touches only tracking, installs a fresh tracker, and a failure changes nothing else |
| Commands.ToggleOn | src/voice_assistant_server.py:626-638 | the page is told last whether the start succeeded; exactly a success turns the setting on and saves it and enables tracking; a failure keeps the settings and the enabled flag |
| Commands.ToggleOff | src/voice_assistant_server.py:639-645 | tracking is stopped with tracker and controller dropped, the setting turned off and saved, and the page told last that tracking is off |
| Commands.ToggleOffRemembered | src/voice_assistant_server.py:639-645 | after turning tracking off, the saved setting does not restart it and tracking is off |
| Commands.RunRestart | src/voice_assistant_server.py:652-656 | with tracking off nothing happens; otherwise tracking is stopped and restarted with a fresh tracker, and stays enabled exactly when the start succeeds |
| Commands.ExecuteVoice | src/voice_assistant_server.py:450-458 | start, stop and mute touch only the assistant's flags, `mute` stores its value, and an unknown action does nothing |
| Commands.ExecuteServos | src/voice_assistant_server.py:504-619 | the hardware tests change only the servo flag, never the jaw's opening, and emit nothing |
| Commands.ExecuteCalibration | src/voice_assistant_server.py:557-589 | the calibration commands write no servo and change only the settings and whether the loop goes on |
| Commands.ExecuteSetting | src/voice_assistant_server.py:460-667 | a setting command stores and saves its value; only the rig and camera changes go on to restart tracking |
| Commands.ExecuteToggle | src/voice_assistant_server.py:621-645 | the page is told last that tracking is on exactly when the value is truthy and the start succeeds; a falsy value stops tracking |
| Commands.Execute | src/voice_assistant_server.py:448-671 | every command keeps the settings valid and the queue untouched, can only turn the servo off, ends the loop only in the calibration branches, saves only in the branches that change settings, and a `set_*` command stores and saves its value |
| Commands.CommandStep | src/voice_assistant_server.py:439-673 | once ended or with an empty queue nothing happens; otherwise the oldest command leaves the queue and is carried out, a `set_*` command leaving its value saved under its key; the envelope tracker is untouched and the settings and eye table stay proper dicts, so the server's invariant is kept |

## Left out

- Threads, `time.sleep` pauses and the races between the audio, speech-end, face-tracking and command loops: each loop body is one step. The legacy pulse sleeps (`src/voice_assistant_server.py:158`, 172 and 178) last `jaw_pulse_duration` scaled, and they are modelled as pause steps that raise when negative (`Jaw.PulseNegativePause`). The text animation's pause per phoneme (`src/mouth_visualizer.py:178-183`) comes from the caller's duration and raises when negative (`Visualizer.AnimateText`). Every other pause, such as the loop cadences at 320-333, 673, 685 and 744-748 and the test and sweep delays, is a non-negative constant that cannot raise.
- Flask and Socket.IO transport and routes, pyaudio device enumeration, and the speech client's session handling: their effects are events, queue entries and flags.
- OpenCV capture and Haar detection: a frame is its size and its list of face boxes, and a camera that fails to open is a boolean input.
- NumPy RMS and FFT: the normalised amplitude and the band energies are inputs.
- The `** 0.8` power curve: a parameter constrained to map [0,1] into [0,1]. No concrete curve is modelled.
- `random.random` and `time.time`: explicit inputs.
- The JSON settings file: reading it is an input (`Loaded`, `Absent` or `Unreadable`), and writing it is the `save` flag of an outcome.
- `setup_gpio`, `setup_usb_i2c`, `_test_i2c_bus` and `get_devices`: foreign hardware and library probing.
- `list_configs` and `get_current_angles`: the catalog names and a copy of the angle table, which the immutable model exposes directly.
- All `print` logging, and the `KeyboardInterrupt` shutdown in `main`.
- Process exit after the command loop dies: an uncaught exception in `process_control_commands` makes `main` return. Every other thread is a daemon, so the face loop, the speech-end watcher and the audio path end with the process. The model only clears `commandsAlive` and still lets `FaceLoop.FaceLoopStep`, `Server.MonitorStep` and `Server.OnAudioChunk` run, as if those loops kept going.
- A session that raises: the stop-time close at `src/voice_assistant_server.py:377-392` sits in the same `try` as the session (339-397), so an exception skips it. `Server.SessionStop` models only the normal exit.
- Python floats: every amplitude, angle, time and numeric setting is an exact `real`, taken to be finite. NaN, infinities and rounding are not modelled. For example, an empty audio chunk makes NumPy's mean NaN and drives the target to 100, and `json.load` accepts `NaN` and `Infinity` as setting values. Exact statements such as `Visualizer.DefaultPacing` (one twelfth) and `AudioMouth.EaseRates` (exactly `close_speed` of the gap) hold in the reals.
- A detected face in a frame of zero width or height: the detector's smallest face is 30 by 30 pixels, so it cannot happen. There NumPy division would give infinities rather than raise; the model instead skips the gaze mapping and the eye writes.
- Exceptions from the eye controller's servo writes: each write is taken to succeed. In the program, a raising write in `set_servo_angle` (`src/eye_controller.py:57-65`) skips that servo's record and the position callback. In `track_position` (172-192) the one outer `try` abandons the rest of the batch's writes and records and skips the single callback, so no eye update reaches the page for that frame.
- Fields of a control command other than `action` and `value`: the page's handler queues only those two, so `channel`, `angle` and the calibration range always take their defaults.
- Which eye channels fail while all eyes are centred: a set of failing channels, an input.
- Commands.RunRestart: the writes and page updates of the stop and the restart are not stated. The command does not report whether the restart succeeded.
- FaceLoop.StopFaceTracking: the page updates from centring through the callback are bounded in number and are eye updates only. Their contents are not stated.
- FaceLoop.MoveEyes: the contract does not repeat the writes of the tracking move and the blink. `Eyes.TrackPosition` and `Eyes.BlinkEyes` state those.
- Commands.Execute: its contract states what every branch keeps. What each branch does is stated by the branch's own member (`ExecuteSetting`, `ExecuteToggle`, `ExecuteServos`, `ExecuteCalibration`, `ExecuteVoice`).
- `test_audio_mouth.py` and `run.py`: a microphone demo and entry-point glue.

## Findings

| source | as written | input that shows it | evidently intended | confidence | as-written member | corrected member |
|---|---|---|---|---|---|---|
| src/voice_assistant_server.py:588 | the `load_eye_config` branch emits through `socketio`. The server never imports or defines that name, so the branch raises `NameError` outside any `try`, and the command loop (and `main`) ends | a queued `load_eye_config` command, for example with no calibration saved | send channel 0's calibration, or the defaults, to the page as `eye_config_loaded`, and keep processing commands | not executed | Commands.RunLoadEyeConfigAsWritten (the discrepancy is exhibited by Commands.LoadAsWrittenEndsLoop) | Commands.RunLoadEyeConfig |

=== FILE: audio_mouth.dfy ===
/** The audio envelope tracker that turns speech loudness into a mouth
    opening percentage, the viseme ladder over that percentage, and the
    frequency-weighted adjustment of the enhanced tracker.

    The PCM decoding, RMS and FFT are not modelled: a chunk is represented by
    its normalized RMS amplitude, and, for the enhanced tracker, by the mean
    magnitudes of its vowel and consonant bands. The `** 0.8` power curve is a
    parameter known only to map [0, 1] into [0, 1]. */
module AudioMouth {
  import opened Common

  // ---------------------------------------------------------------------
  // Parameters and state

  datatype MouthParams = MouthParams(
    smoothingWindow: nat,
    minThreshold: real,
    maxThreshold: real,
    closeSpeed: real,
    curve: real -> real)

  /** Fraction of the remaining gap covered per chunk while opening. */
  const OpenRate: real := 0.4
  /** A target above this many percent counts as speaking. */
  const SpeakingLevel: real := 3.0
  /** More than this many silent chunks in a row force the mouth shut. */
  const SilenceLimit: nat := 2

  ghost predicate CurveInUnit(curve: real -> real)
  {
    forall x :: 0.0 <= x <= 1.0 ==> 0.0 <= curve(x) <= 1.0
  }

  /** The parameters the tracker needs to be meaningful: a non-empty window
      (the mean of an empty window is undefined), a non-degenerate threshold
      interval (the normalization divides by its width), a non-negative close
      speed, and a power curve from [0, 1] into [0, 1]. */
  ghost predicate ValidParams(p: MouthParams)
  {
    && p.smoothingWindow >= 1
    && p.minThreshold < p.maxThreshold
    && p.closeSpeed >= 0.0
    && CurveInUnit(p.curve)
  }

  /** The parameters the voice assistant server constructs its tracker with. */
  function ServerParams(curve: real -> real): (p: MouthParams)
    requires CurveInUnit(curve)
    ensures ValidParams(p)
    ensures p.closeSpeed > OpenRate
  {
    MouthParams(3, 0.015, 0.25, 0.7, curve)
  }

  datatype MouthState = MouthState(
    history: seq<real>,
    currentOpening: real,
    targetOpening: real,
    isSpeaking: bool,
    silenceCounter: nat)

  predicate ValidState(p: MouthParams, s: MouthState)
  {
    && |s.history| <= p.smoothingWindow
    && 0.0 <= s.currentOpening <= 100.0
    && 0.0 <= s.targetOpening <= 100.0
  }

  /** `reset()`: empty window, everything zero. It is also the state of a
      freshly constructed tracker. */
  function Reset(): (s: MouthState)
    ensures s.history == [] && s.silenceCounter == 0 && !s.isSpeaking
    ensures s.currentOpening == 0.0 && s.targetOpening == 0.0
  {
    MouthState([], 0.0, 0.0, false, 0)
  }

  lemma ResetValid(p: MouthParams)
    ensures ValidState(p, Reset())
  {
  }

  // ---------------------------------------------------------------------
  // Smoothing window

  /** `deque(maxlen=window).append(x)`: the newest sample enters and, once the
      window is full, the oldest leaves. */
  function Push(window: nat, h: seq<real>, x: real): (r: seq<real>)
    requires 1 <= window && |h| <= window
    ensures |r| == if |h| < window then |h| + 1 else window
    ensures r == (h + [x])[|h| + 1 - |r|..]
  {
    if |h| < window then h + [x] else h[1..] + [x]
  }

  function Sum(h: seq<real>): real
  {
    if |h| == 0 then 0.0 else Sum(h[..|h| - 1]) + h[|h| - 1]
  }

  function Mean(h: seq<real>): real
    requires |h| > 0
  {
    Sum(h) / (|h| as real)
  }

  // ---------------------------------------------------------------------
  // Target and easing

  /** Mapping of a smoothed amplitude that reached the threshold onto a
      target opening: normalize across the threshold interval, clamp to
      [0, 1], apply the curve, scale to percent. */
  function LoudTarget(p: MouthParams, smoothed: real): (t: real)
    requires ValidParams(p)
    ensures 0.0 <= t <= 100.0
    ensures smoothed >= p.maxThreshold ==> t == p.curve(1.0) * 100.0
  {
    var width := p.maxThreshold - p.minThreshold;
    var normalized := (smoothed - p.minThreshold) / width;
    assert smoothed >= p.maxThreshold ==> normalized >= 1.0 by {
      if smoothed >= p.maxThreshold {
        assert normalized * width == smoothed - p.minThreshold >= width;
      }
    }
    p.curve(Clamp(0.0, 1.0, normalized)) * 100.0
  }

  lemma ScaledGap(gap: real, k: real)
    requires gap >= 0.0 && k >= 0.0
    ensures 0.0 <= gap * k
    ensures k <= 1.0 ==> gap * k <= gap
  {
    if k <= 1.0 {
      assert gap - gap * k == gap * (1.0 - k);
    }
  }

  /** Asymmetric easing of the current opening toward the target: closing
      covers `closeSpeed` of the gap, opening covers `OpenRate` of it, and
      neither overshoots the target. */
  function Ease(current: real, target: real, closeSpeed: real): (r: real)
    requires closeSpeed >= 0.0
    ensures target < current ==> target <= r <= current
    ensures target >= current ==> current <= r <= target
  {
    if target < current then
      var gap := current - target;
      ScaledGap(gap, closeSpeed);
      Max(target, current - gap * closeSpeed)
    else
      ScaledGap(target - current, OpenRate);
      Min(target, current + (target - current) * OpenRate)
  }

  /** The easing rates: a closing move covers exactly `closeSpeed` of the
      gap (for a close speed up to 1), an opening move exactly `OpenRate` of
      it, whatever the close speed. */
  lemma EaseRates(current: real, target: real, closeSpeed: real)
    requires closeSpeed >= 0.0
    ensures target < current && closeSpeed <= 1.0 ==>
      Ease(current, target, closeSpeed) == current - (current - target) * closeSpeed
    ensures target >= current ==> Ease(current, target, closeSpeed) == current + (target - current) * OpenRate
  {
    if target < current {
      ScaledGap(current - target, closeSpeed);
    } else {
      ScaledGap(target - current, OpenRate);
    }
  }

  /** With the default speeds (any close speed of at least the opening rate)
      a closing move covers at least as much ground as an opening move over
      the same gap. */
  lemma ClosingNotSlower(current: real, gap: real, closeSpeed: real)
    requires gap > 0.0 && closeSpeed >= OpenRate
    ensures current - Ease(current, current - gap, closeSpeed) >= Ease(current, current + gap, closeSpeed) - current
  {
    EaseRates(current, current + gap, closeSpeed);
    if closeSpeed <= 1.0 {
      EaseRates(current, current - gap, closeSpeed);
      ScaledGap(gap, closeSpeed - OpenRate);
      assert gap * (closeSpeed - OpenRate) == gap * closeSpeed - gap * OpenRate;
    } else {
      ScaledGap(gap, closeSpeed - 1.0);
      assert gap * (closeSpeed - 1.0) == gap * closeSpeed - gap;
      ScaledGap(gap, OpenRate);
    }
  }

  // ---------------------------------------------------------------------
  // One chunk

  datatype StepResult = StepResult(state: MouthState, opening: real)

  /** `process_audio_chunk` after the RMS: `amplitude` is the chunk's RMS
      divided by 32768. */
  function Step(p: MouthParams, s: MouthState, amplitude: real): (r: StepResult)
    requires ValidParams(p) && ValidState(p, s)
    ensures ValidState(p, r.state)
    ensures 0.0 <= r.opening <= 100.0
    ensures r.opening == r.state.currentOpening
    ensures r.state.history == Push(p.smoothingWindow, s.history, amplitude)
    ensures Mean(r.state.history) < p.minThreshold ==>
      r.state.targetOpening == 0.0 && r.state.silenceCounter == s.silenceCounter + 1 && !r.state.isSpeaking
    ensures Mean(r.state.history) >= p.minThreshold ==>
      r.state.silenceCounter == 0 && r.state.isSpeaking == (r.state.targetOpening > SpeakingLevel)
    ensures Mean(r.state.history) >= p.minThreshold ==> r.state.targetOpening == LoudTarget(p, Mean(r.state.history))
    ensures r.state.silenceCounter <= SilenceLimit ==> r.opening == Ease(s.currentOpening, r.state.targetOpening, p.closeSpeed)
    ensures r.state.silenceCounter > SilenceLimit ==> r.opening == 0.0
    ensures r.state.silenceCounter <= SilenceLimit && r.state.targetOpening < s.currentOpening ==>
      r.state.targetOpening <= r.opening <= s.currentOpening
    ensures r.state.silenceCounter <= SilenceLimit && r.state.targetOpening >= s.currentOpening ==>
      s.currentOpening <= r.opening <= r.state.targetOpening
  {
    var history := Push(p.smoothingWindow, s.history, amplitude);
    var smoothed := Mean(history);
    var silent := smoothed < p.minThreshold;
    var target := if silent then 0.0 else LoudTarget(p, smoothed);
    var silence := if silent then s.silenceCounter + 1 else 0;
    var speaking := !silent && target > SpeakingLevel;
    var eased := Ease(s.currentOpening, target, p.closeSpeed);
    var opening := if silence > SilenceLimit then 0.0 else eased;
    StepResult(MouthState(history, opening, target, speaking, silence), opening)
  }

  // ---------------------------------------------------------------------
  // Runs of chunks

  /** Feeding a sequence of chunks one after another. */
  function Run(p: MouthParams, s: MouthState, amps: seq<real>): (r: MouthState)
    requires ValidParams(p) && ValidState(p, s)
    ensures ValidState(p, r)
    decreases |amps|
  {
    if |amps| == 0 then s
    else Run(p, Step(p, s, amps[0]).state, amps[1..])
  }

  /** The last `n` elements of `xs` (all of them when there are fewer). */
  function LastN(xs: seq<real>, n: nat): (r: seq<real>)
    ensures |r| == if |xs| < n then |xs| else n
  {
    if |xs| <= n then xs else xs[|xs| - n..]
  }

  /** The smoothing window always holds the most recent chunks: after any
      run, the window is the last `smoothingWindow` amplitudes of everything
      fed since the last reset, newest last, so the smoothed amplitude is
      their mean. */
  lemma {:induction false} RunWindow(p: MouthParams, s: MouthState, fed: seq<real>, amps: seq<real>)
    requires ValidParams(p) && ValidState(p, s)
    requires s.history == LastN(fed, p.smoothingWindow)
    ensures Run(p, s, amps).history == LastN(fed + amps, p.smoothingWindow)
    decreases |amps|
  {
    if |amps| > 0 {
      var s' := Step(p, s, amps[0]).state;
      PushWindow(p.smoothingWindow, fed, amps[0]);
      RunWindow(p, s', fed + [amps[0]], amps[1..]);
      FeedOne(fed, amps);
    }
  }

  lemma FeedOne(fed: seq<real>, amps: seq<real>)
    requires |amps| > 0
    ensures fed + [amps[0]] + amps[1..] == fed + amps
  {
    assert [amps[0]] + amps[1..] == amps;
  }

  /** Pushing onto the window of what was fed gives the window of what was
      fed with the new sample. */
  lemma PushWindow(n: nat, fed: seq<real>, x: real)
    requires 1 <= n
    ensures Push(n, LastN(fed, n), x) == LastN(fed + [x], n)
  {
    var h := LastN(fed, n);
    var fed' := fed + [x];
    if |fed| >= n {
      assert h == fed[|fed| - n..];
      assert (h + [x])[1..] == fed'[|fed'| - n..];
    }
  }

  /** From a reset tracker, the window after feeding `amps` is their last
      `smoothingWindow` elements. */
  lemma WindowAfterReset(p: MouthParams, amps: seq<real>)
    requires ValidParams(p)
    ensures Run(p, Reset(), amps).history == LastN(amps, p.smoothingWindow)
  {
    RunWindow(p, Reset(), [], amps);
    assert [] + amps == amps;
  }

  /** Every chunk of the run keeps the smoothed amplitude below threshold. */
  predicate AllSilent(p: MouthParams, s: MouthState, amps: seq<real>)
    requires ValidParams(p) && ValidState(p, s)
    decreases |amps|
  {
    |amps| == 0 ||
      (Mean(Push(p.smoothingWindow, s.history, amps[0])) < p.minThreshold
       && AllSilent(p, Step(p, s, amps[0]).state, amps[1..]))
  }

  /** Once more than `SilenceLimit` silent chunks have been counted the
      mouth is shut. */
  predicate Settled(s: MouthState)
  {
    s.silenceCounter > SilenceLimit ==> s.currentOpening == 0.0
  }

  /** The state after any non-empty run is settled. */
  lemma {:induction false} RunSettled(p: MouthParams, s: MouthState, amps: seq<real>)
    requires ValidParams(p) && ValidState(p, s)
    requires |amps| > 0
    ensures Settled(Run(p, s, amps))
    decreases |amps|
  {
    var s' := Step(p, s, amps[0]).state;
    assert Run(p, s, amps) == Run(p, s', amps[1..]);
    if |amps| > 1 {
      RunSettled(p, s', amps[1..]);
    }
  }

  /** A run of silent chunks counts up the silence counter one per chunk,
      and once the run is longer than `SilenceLimit` chunks (the third
      silent chunk) the mouth is exactly shut, whatever state it started in. */
  lemma {:induction false} SilentRunCloses(p: MouthParams, s: MouthState, amps: seq<real>)
    requires ValidParams(p) && ValidState(p, s)
    requires AllSilent(p, s, amps)
    ensures Run(p, s, amps).silenceCounter == s.silenceCounter + |amps|
    ensures |amps| > SilenceLimit ==> Run(p, s, amps).currentOpening == 0.0
    decreases |amps|
  {
    if |amps| > 0 {
      var s' := Step(p, s, amps[0]).state;
      assert s'.silenceCounter == s.silenceCounter + 1;
      assert AllSilent(p, s', amps[1..]);
      assert Run(p, s, amps) == Run(p, s', amps[1..]);
      SilentRunCloses(p, s', amps[1..]);
      RunSettled(p, s, amps);
    }
  }

  /** After `reset()`, a chunk below threshold leaves the mouth shut. */
  lemma ResetThenSilence(p: MouthParams, amplitude: real)
    requires ValidParams(p)
    requires amplitude < p.minThreshold
    ensures Step(p, Reset(), amplitude).opening == 0.0
    ensures !Step(p, Reset(), amplitude).state.isSpeaking
  {
    var h := Push(p.smoothingWindow, [], amplitude);
    assert h == [amplitude];
    assert Sum(h) == amplitude by { assert h[..0] == []; }
  }

  // ---------------------------------------------------------------------
  // Visemes

  datatype Viseme = Closed | Narrow | Rounded | Medium | MediumOpen | Wide

  /** `get_viseme_from_opening`: the fixed threshold ladder. */
  function VisemeOf(opening: real): (v: Viseme)
    ensures opening < 5.0 <==> v == Closed
    ensures opening >= 70.0 <==> v == Wide
  {
    if opening < 5.0 then Closed
    else if opening < 20.0 then Narrow
    else if opening < 35.0 then Rounded
    else if opening < 50.0 then Medium
    else if opening < 70.0 then MediumOpen
    else Wide
  }

  /** Position of a viseme on the ladder, from shut to wide. */
  function Rank(v: Viseme): nat
  {
    match v
    case Closed => 0
    case Narrow => 1
    case Rounded => 2
    case Medium => 3
    case MediumOpen => 4
    case Wide => 5
  }

  /** The band table of the ladder, written per viseme: the half-open
      interval of openings it covers. */
  predicate InBand(v: Viseme, opening: real)
  {
    match v
    case Closed => opening < 5.0
    case Narrow => 5.0 <= opening < 20.0
    case Rounded => 20.0 <= opening < 35.0
    case Medium => 35.0 <= opening < 50.0
    case MediumOpen => 50.0 <= opening < 70.0
    case Wide => 70.0 <= opening
  }

  /** The ladder is total and agrees with the band table: an opening is
      classified as `v` exactly when it lies in `v`'s band. */
  lemma VisemeMatchesBands(opening: real, v: Viseme)
    ensures VisemeOf(opening) == v <==> InBand(v, opening)
  {
  }

  /** Wider openings never give a narrower viseme. */
  lemma VisemeMonotone(a: real, b: real)
    requires a <= b
    ensures Rank(VisemeOf(a)) <= Rank(VisemeOf(b))
  {
  }

  /** The name the rest of the system uses for a viseme. */
  function VisemeName(v: Viseme): string
  {
    match v
    case Closed => "CLOSED"
    case Narrow => "NARROW"
    case Rounded => "ROUNDED"
    case Medium => "MEDIUM"
    case MediumOpen => "MEDIUM_OPEN"
    case Wide => "WIDE"
  }

  /** Reading a viseme name back; anything else is not a viseme. */
  function ParseViseme(name: string): (r: Option<Viseme>)
    ensures r.Some? ==> VisemeName(r.value) == name
  {
    if name == "CLOSED" then Some(Closed)
    else if name == "NARROW" then Some(Narrow)
    else if name == "ROUNDED" then Some(Rounded)
    else if name == "MEDIUM" then Some(Medium)
    else if name == "MEDIUM_OPEN" then Some(MediumOpen)
    else if name == "WIDE" then Some(Wide)
    else None
  }

  lemma VisemeNameRoundTrip(v: Viseme)
    ensures ParseViseme(VisemeName(v)) == Some(v)
  {
  }

  // ---------------------------------------------------------------------
  // Enhanced tracker

  /** Mean FFT magnitudes of the vowel (250-2000 Hz) and consonant
      (2000-8000 Hz) bands of a chunk. */
  datatype Bands = Bands(mid: real, high: real)

  /** The frequency-weighted adjustment: consonant-dominated chunks close the
      mouth to 70 %, vowel-dominated ones open it to 120 % capped at 100, and
      otherwise (or for an empty chunk, `None`) the opening is kept. */
  function AdjustForBands(opening: real, bands: Option<Bands>): (r: real)
    ensures 0.0 <= opening <= 100.0 ==> 0.0 <= r <= 100.0
    ensures bands.None? ==> r == opening
    ensures bands.Some? && bands.value.high > bands.value.mid * 1.5 ==> r == opening * 0.7
    ensures bands.Some? && bands.value.high > bands.value.mid * 1.5 && opening >= 0.0 ==> r <= opening
    ensures bands.Some? && !(bands.value.high > bands.value.mid * 1.5) && bands.value.mid > bands.value.high * 1.5 ==>
      r == Min(100.0, opening * 1.2)
    ensures (bands.Some? && !(bands.value.high > bands.value.mid * 1.5) && bands.value.mid > bands.value.high * 1.5
             && 0.0 <= opening <= 100.0) ==> opening <= r
    ensures bands.Some? && !(bands.value.high > bands.value.mid * 1.5) && !(bands.value.mid > bands.value.high * 1.5) ==>
      r == opening
  {
    match bands
    case None => opening
    case Some(b) =>
      if b.high > b.mid * 1.5 then opening * 0.7
      else if b.mid > b.high * 1.5 then Min(100.0, opening * 1.2)
      else opening
  }

  datatype EnhancedResult = EnhancedResult(state: MouthState, opening: real, viseme: Viseme)

  /** `process_audio_chunk_enhanced`: the base step, then the band
      adjustment, then the viseme of the adjusted opening. */
  function EnhancedStep(p: MouthParams, s: MouthState, amplitude: real, bands: Option<Bands>): (r: EnhancedResult)
    requires ValidParams(p) && ValidState(p, s)
    ensures r.state == Step(p, s, amplitude).state
    ensures r.opening == AdjustForBands(Step(p, s, amplitude).opening, bands)
    ensures 0.0 <= r.opening <= 100.0
    ensures r.viseme == VisemeOf(r.opening)
  {
    var base := Step(p, s, amplitude);
    var adjusted := AdjustForBands(base.opening, bands);
    EnhancedResult(base.state, adjusted, VisemeOf(adjusted))
  }

  /** The enhanced tracker against the base one: the state is the base
      state; a consonant-dominated chunk never opens the mouth wider, so
      its viseme is no wider; a vowel-dominated chunk never opens it less,
      so its viseme is no narrower; without band data, or with balanced
      bands, opening and viseme are the base ones. */
  lemma EnhancedAgainstBase(p: MouthParams, s: MouthState, amplitude: real, bands: Option<Bands>)
    requires ValidParams(p) && ValidState(p, s)
    ensures var base := Step(p, s, amplitude);
      var r := EnhancedStep(p, s, amplitude, bands);
      && r.state == base.state
      && (bands.Some? && bands.value.high > bands.value.mid * 1.5 ==>
            r.opening <= base.opening && Rank(r.viseme) <= Rank(VisemeOf(base.opening)))
      && (bands.Some? && !(bands.value.high > bands.value.mid * 1.5) && bands.value.mid > bands.value.high * 1.5 ==>
            r.opening >= base.opening && Rank(r.viseme) >= Rank(VisemeOf(base.opening)))
      && (bands.None? || (!(bands.value.high > bands.value.mid * 1.5) && !(bands.value.mid > bands.value.high * 1.5)) ==>
            r.opening == base.opening && r.viseme == VisemeOf(base.opening))
  {
    var base := Step(p, s, amplitude);
    var r := EnhancedStep(p, s, amplitude, bands);
    if r.opening <= base.opening {
      VisemeMonotone(r.opening, base.opening);
    }
    if base.opening <= r.opening {
      VisemeMonotone(base.opening, r.opening);
    }
  }
}

=== FILE: bus.dfy ===
/** Sequences of servo-bus writes that can fail part way. Every hardware
    sequence of the server runs inside one `try` block: the angle of a
    write is computed (and may raise because a setting is missing or not
    a number), the write itself may raise, and a `time.sleep` between two
    writes raises for a negative length. The first raising step ends the
    sequence; the writes before it have happened.

    Which write raises is an input: the bus itself is outside the model. */
module Bus {
  import opened Common

  /** A step of a hardware sequence: a write whose angle evaluated to
      `Some(a)` or raised (`None`), or a pause of the given length. */
  datatype Step = Write(channel: nat, angle: Option<real>) | Pause(seconds: real)

  /** Which write of the sequence (counting from 0) raises on the bus, if
      any, and whether its message reports a disconnected device ("No such
      device" or "disconnected" in any case). */
  datatype BusFault = NoFault | FaultAt(index: nat, disconnect: bool)

  /** How a sequence ended early: a disconnect, or any other exception. */
  datatype Failure = Disconnected | OtherError

  datatype Run = Run(writes: seq<ServoWrite>, failure: Option<Failure>)

  /** The number of bus writes among the steps. */
  function WriteCount(steps: seq<Step>): nat
  {
    if |steps| == 0 then 0 else (if steps[0].Write? then 1 else 0) + WriteCount(steps[1..])
  }

  /** No step raises by itself: every angle evaluates and no pause is
      negative. */
  predicate Evaluates(steps: seq<Step>)
  {
    forall i :: 0 <= i < |steps| ==>
      (steps[i].Write? ==> steps[i].angle.Some?) && (steps[i].Pause? ==> steps[i].seconds >= 0.0)
  }

  /** The writes the steps ask for, in order (those whose angle evaluates). */
  function Intended(steps: seq<Step>): (w: seq<ServoWrite>)
    ensures |w| <= WriteCount(steps)
  {
    if |steps| == 0 then []
    else
      var head := match steps[0]
        case Write(ch, Some(a)) => [ServoWrite(ch, a)]
        case _ => [];
      head + Intended(steps[1..])
  }

  /** The fault falls on one of the first `n` writes. */
  predicate Hits(fault: BusFault, n: nat)
  {
    fault.FaultAt? && fault.index < n
  }

  /** The same fault seen from the next write on. */
  function Later(fault: BusFault): BusFault
    requires !(fault.FaultAt? && fault.index == 0)
  {
    match fault
    case NoFault => NoFault
    case FaultAt(i, d) => FaultAt(i - 1, d)
  }

  function FailureOf(fault: BusFault): Failure
    requires fault.FaultAt?
  {
    if fault.disconnect then Disconnected else OtherError
  }

  /** The steps run in order until one raises. */
  function Perform(steps: seq<Step>, fault: BusFault): (r: Run)
    ensures |r.writes| <= WriteCount(steps)
    ensures r.failure.None? <==> Evaluates(steps) && !Hits(fault, WriteCount(steps))
    ensures r.failure.None? ==> r.writes == Intended(steps)
    ensures Evaluates(steps) ==> r.writes <= Intended(steps)
    ensures Evaluates(steps) && Hits(fault, WriteCount(steps)) ==>
      |r.writes| == fault.index && r.failure == Some(FailureOf(fault))
    ensures r.failure == Some(Disconnected) ==> fault.FaultAt? && fault.disconnect
    decreases |steps|
  {
    if |steps| == 0 then Run([], None)
    else
      assert forall i :: 0 <= i < |steps[1..]| ==> steps[1..][i] == steps[i + 1];
      match steps[0]
      case Pause(t) =>
        if t < 0.0 then Run([], Some(OtherError)) else Perform(steps[1..], fault)
      case Write(ch, None) => Run([], Some(OtherError))
      case Write(ch, Some(a)) =>
        if fault.FaultAt? && fault.index == 0 then Run([], Some(FailureOf(fault)))
        else
          var rest := Perform(steps[1..], Later(fault));
          Run([ServoWrite(ch, a)] + rest.writes, rest.failure)
  }

  /** Every write lands on `channel` with an angle in `[lo, hi]`. */
  predicate WritesOn(writes: seq<ServoWrite>, channel: nat, lo: real, hi: real)
  {
    forall i :: 0 <= i < |writes| ==> writes[i].channel == channel && lo <= writes[i].angle <= hi
  }

  /** Every write step whose angle evaluates targets `channel` with an
      angle in `[lo, hi]`. */
  predicate StepsOn(steps: seq<Step>, channel: nat, lo: real, hi: real)
  {
    forall i :: 0 <= i < |steps| && steps[i].Write? && steps[i].angle.Some? ==>
      steps[i].channel == channel && lo <= steps[i].angle.value <= hi
  }

  /** Whatever raises and wherever, every write that happens is one the
      steps ask for, so a bound on the steps' angles bounds the bus. */
  lemma {:induction false} PerformWritesOn(steps: seq<Step>, fault: BusFault, channel: nat, lo: real, hi: real)
    requires StepsOn(steps, channel, lo, hi)
    ensures WritesOn(Perform(steps, fault).writes, channel, lo, hi)
    decreases |steps|
  {
    if |steps| > 0 {
      assert StepsOn(steps[1..], channel, lo, hi) by {
        forall i | 0 <= i < |steps[1..]| && steps[1..][i].Write? && steps[1..][i].angle.Some?
          ensures steps[1..][i].channel == channel && lo <= steps[1..][i].angle.value <= hi
        {
          assert steps[1..][i] == steps[i + 1];
        }
      }
      match steps[0]
      case Pause(t) =>
        PerformWritesOn(steps[1..], fault, channel, lo, hi);
      case Write(ch, None) =>
      case Write(ch, Some(a)) =>
        if !(fault.FaultAt? && fault.index == 0) {
          PerformWritesOn(steps[1..], Later(fault), channel, lo, hi);
        }
    }
  }

  /** Steps that are all writes count one write each. */
  lemma {:induction false} WritesOnly(s: seq<Step>)
    requires forall i :: 0 <= i < |s| ==> s[i].Write?
    ensures WriteCount(s) == |s|
    decreases |s|
  {
    if |s| > 0 {
      WritesOnly(s[1..]);
    }
  }

  /** Steps that are all writes with evaluated angles run whole on a
      working bus and write exactly their angles, in order. */
  lemma {:induction false} AllWritesIntended(s: seq<Step>)
    requires forall i :: 0 <= i < |s| ==> s[i].Write? && s[i].angle.Some?
    ensures Evaluates(s) && WriteCount(s) == |s|
    ensures |Intended(s)| == |s|
    ensures forall i :: 0 <= i < |s| ==> Intended(s)[i] == ServoWrite(s[i].channel, s[i].angle.value)
    decreases |s|
  {
    if |s| > 0 {
      AllWritesIntended(s[1..]);
    }
  }
}

=== FILE: commands.dfy ===
/** The server's command loop: one control command taken from the page's
    queue and carried out. The action string selects a branch. Setting
    changes update the settings table (and, for the voice, the devices and
    the speed, the matching global) and rewrite the settings file. The
    hardware tests and the eye-calibration commands drive the servos. Face
    tracking is toggled, or restarted after its rig or camera changed.

    Queued commands carry only an action and a value, so every other field
    a branch reads takes its default: channel 0, angle 90, and the
    calibration range 0 to 180 with centre 90. */
module Commands {
  import opened Common
  import opened Dict
  import opened Json
  import opened Bus
  import opened Jaw
  import opened Settings
  import opened Visualizer
  import opened Server
  import opened FaceTracking
  import opened FaceLoop

  // ---------------------------------------------------------------------
  // Actions

  datatype Action =
    | Start | Stop | Mute
    | SetVoice | SetMicrophone | SetSpeaker | SetSpeechSpeed
    | SetJawStopAngle | SetJawOpenAngle | SetJawCloseAngle | SetJawPulseDuration
    | TestJaw | TestEyeServo | CenterAllEyes
    | SaveEyeConfig | LoadEyeConfig | SweepEyeServo
    | ToggleFaceTracking | SetServoConfig | SetCameraIndex
    | Unrecognized

  /** The action strings the loop compares against, in the order of its
      `if` chain. */
  const ActionNames: Dict<Action> := [
    ("start", Start), ("stop", Stop), ("mute", Mute),
    ("set_voice", SetVoice), ("set_microphone", SetMicrophone),
    ("set_speaker", SetSpeaker), ("set_speech_speed", SetSpeechSpeed),
    ("set_jaw_stop_angle", SetJawStopAngle), ("set_jaw_open_angle", SetJawOpenAngle),
    ("set_jaw_close_angle", SetJawCloseAngle), ("set_jaw_pulse_duration", SetJawPulseDuration),
    ("test_jaw", TestJaw), ("test_eye_servo", TestEyeServo), ("center_all_eyes", CenterAllEyes),
    ("save_eye_config", SaveEyeConfig), ("load_eye_config", LoadEyeConfig),
    ("sweep_eye_servo", SweepEyeServo), ("toggle_face_tracking", ToggleFaceTracking),
    ("set_servo_config", SetServoConfig), ("set_camera_index", SetCameraIndex)
  ]

  /** The branch a command's `action` selects: only a string equal to one
      of the names matches; anything else falls through every test. */
  function ParseAction(v: Value): Action
  {
    if v.Str? then GetOr(ActionNames, v.s, Unrecognized) else Unrecognized
  }

  lemma ActionNamesValid()
    ensures Valid(ActionNames)
  {
  }

  /** Every listed name selects its own action. */
  lemma ParseListed(i: nat)
    requires i < |ActionNames|
    ensures ParseAction(Str(ActionNames[i].0)) == ActionNames[i].1
  {
    ActionNamesValid();
    GetAt(ActionNames, i);
  }

  /** A command is recognised exactly when its action is one of the listed
      strings. */
  lemma ParseRecognised(v: Value)
    ensures ParseAction(v) != Unrecognized <==> v.Str? && Has(ActionNames, v.s)
  {
    if v.Str? && Has(ActionNames, v.s) {
      var i := IndexOf(ActionNames, v.s);
      ParseListed(i);
    }
  }

  // ---------------------------------------------------------------------
  // Settings changes

  /** The settings key an action writes its value to. */
  function SettingKey(a: Action): Option<string>
  {
    match a
    case SetVoice => Some("voice_id")
    case SetMicrophone => Some("microphone_index")
    case SetSpeaker => Some("speaker_index")
    case SetSpeechSpeed => Some("speech_speed")
    case SetJawStopAngle => Some("jaw_stop_angle")
    case SetJawOpenAngle => Some("jaw_open_angle")
    case SetJawCloseAngle => Some("jaw_close_angle")
    case SetJawPulseDuration => Some("jaw_pulse_duration")
    case SetServoConfig => Some("servo_config")
    case SetCameraIndex => Some("camera_index")
    case _ => None
  }

  /** A `set_*` branch: the value is stored under the action's key, the
      voice, device and speed branches also set their global, and the
      settings are saved. Nothing else changes. */
  function SetValue(s: Server, a: Action, value: Value): (r: Outcome)
    requires Valid(s.settings) && SettingKey(a).Some?
    ensures Valid(r.server.settings)
    ensures Get(r.server.settings, SettingKey(a).value) == Some(value)
    ensures forall k :: k != SettingKey(a).value ==> Get(r.server.settings, k) == Get(s.settings, k)
    ensures r.server.voiceId == if a == SetVoice then value else s.voiceId
    ensures r.server.microphoneIndex == if a == SetMicrophone then value else s.microphoneIndex
    ensures r.server.speakerIndex == if a == SetSpeaker then value else s.speakerIndex
    ensures r.server.speechSpeed == if a == SetSpeechSpeed then value else s.speechSpeed
    ensures r.server == s.(settings := r.server.settings, voiceId := r.server.voiceId,
      microphoneIndex := r.server.microphoneIndex, speakerIndex := r.server.speakerIndex,
      speechSpeed := r.server.speechSpeed)
    ensures r.save && r.writes == [] && r.events == []
  {
    var t := s.(settings := Put(s.settings, SettingKey(a).value, value));
    var u := match a
      case SetVoice => t.(voiceId := value)
      case SetMicrophone => t.(microphoneIndex := value)
      case SetSpeaker => t.(speakerIndex := value)
      case SetSpeechSpeed => t.(speechSpeed := value)
      case _ => t;
    Outcome(u, [], [], true)
  }

  /** A changed setting survives a restart: the settings file written after
      the change loads back with the new value under the action's key. */
  lemma SettingSurvivesRestart(s: Server, a: Action, value: Value)
    requires Valid(s.settings) && SettingKey(a).Some?
    ensures Get(LoadSettings(Loaded(Object(SetValue(s, a, value).server.settings))), SettingKey(a).value) == Some(value)
  {
    var saved := SetValue(s, a, value).server.settings;
    LoadedOverridesDefaults(saved, SettingKey(a).value);
  }

  /** A new voice is the voice the server starts with next time. */
  lemma VoiceSurvivesRestart(s: Server, value: Value, servoAvailable: bool)
    requires Valid(s.settings)
    ensures Startup(Loaded(Object(SetValue(s, SetVoice, value).server.settings)), servoAvailable).voiceId == value
  {
    StartupVoiceFromFile(SetValue(s, SetVoice, value).server.settings, servoAvailable);
  }

  // ---------------------------------------------------------------------
  // Jaw test

  /** Close, open, close on the jaw channel; a missing or non-numeric
      angle setting raises at its write. The pauses of 0.8, 0.8 and 0.5
      seconds between them cannot raise and are left out. */
  function TestJawSteps(settings: Dict<Value>): (steps: seq<Step>)
    ensures |steps| == 3 && WriteCount(steps) == 3
    ensures StepsOn(steps, JawChannel, 0.0, 180.0)
  {
    var steps := [Write(JawChannel, SettingAngle(settings, "jaw_close_angle")),
                  Write(JawChannel, SettingAngle(settings, "jaw_open_angle")),
                  Write(JawChannel, SettingAngle(settings, "jaw_close_angle"))];
    WritesOnly(steps);
    steps
  }

  /** `test_jaw`: with the servo available, the test sequence runs until a
      step raises; a disconnect turns the servo off, any other exception
      is only reported. The jaw's recorded opening is not touched. */
  function RunTestJaw(s: Server, fault: BusFault): (r: Outcome)
    ensures !s.jaw.available ==> r == Quiet(s)
    ensures r.server == s.(jaw := r.server.jaw)
    ensures r.server.jaw.position == s.jaw.position
    ensures r.server.jaw.available ==> s.jaw.available
    ensures s.jaw.available && !r.server.jaw.available ==> fault.FaultAt? && fault.disconnect
    ensures WritesOn(r.writes, JawChannel, 0.0, 180.0) && |r.writes| <= 3
    ensures r.events == [] && !r.save
    ensures s.jaw.available && SettingAngle(s.settings, "jaw_close_angle").Some? &&
            SettingAngle(s.settings, "jaw_open_angle").Some? ==>
      (r.server.jaw.available <==> !(Hits(fault, 3) && fault.disconnect)) &&
      (Hits(fault, 3) ==> |r.writes| == fault.index)
  {
    if !s.jaw.available then Quiet(s)
    else
      var steps := TestJawSteps(s.settings);
      var run := Perform(steps, fault);
      PerformWritesOn(steps, fault, JawChannel, 0.0, 180.0);
      assert SettingAngle(s.settings, "jaw_close_angle").Some? && SettingAngle(s.settings, "jaw_open_angle").Some? ==>
        Evaluates(steps);
      Outcome(s.(jaw := AfterFailure(s.jaw, run.failure)), run.writes, [], false)
  }

  /** On a working bus with numeric angles the test writes close, open,
      close and leaves everything else as it was. */
  lemma TestJawCompletes(s: Server)
    requires s.jaw.available
    requires SettingAngle(s.settings, "jaw_close_angle").Some? && SettingAngle(s.settings, "jaw_open_angle").Some?
    ensures var close := SettingAngle(s.settings, "jaw_close_angle").value;
      var open := SettingAngle(s.settings, "jaw_open_angle").value;
      RunTestJaw(s, NoFault) ==
        Outcome(s, [ServoWrite(JawChannel, close), ServoWrite(JawChannel, open), ServoWrite(JawChannel, close)], [], false)
  {
    var steps := TestJawSteps(s.settings);
    AllWritesIntended(steps);
    var w := Perform(steps, NoFault).writes;
    assert w == [w[0], w[1], w[2]];
  }

  /** A disconnect at the `k`-th write stops the test after `k` writes and
      turns the servo off. */
  lemma TestJawDisconnect(s: Server, k: nat)
    requires s.jaw.available && k < 3
    requires SettingAngle(s.settings, "jaw_close_angle").Some? && SettingAngle(s.settings, "jaw_open_angle").Some?
    ensures var r := RunTestJaw(s, FaultAt(k, true));
      |r.writes| == k && !r.server.jaw.available
  {
    AllWritesIntended(TestJawSteps(s.settings));
  }

  /** Without a numeric close angle the first write raises: nothing moves
      and, the error not being a disconnect, the servo stays on. */
  lemma TestJawWithoutCloseAngle(s: Server, fault: BusFault)
    requires SettingAngle(s.settings, "jaw_close_angle").None?
    ensures RunTestJaw(s, fault) == Quiet(s)
  {
  }

  // ---------------------------------------------------------------------
  // Eye servo test

  /** The channel and angle the eye commands fall back to. */
  const TestChannel: nat := 0
  const TestAngle: real := 90.0

  /** `test_eye_servo`: one write of the clamped default angle to the
      default channel when the servo is available; a failed write is only
      reported. */
  function RunTestEyeServo(s: Server, fault: BusFault): (r: Outcome)
    ensures r.server == s && r.events == [] && !r.save
    ensures r.writes == if s.jaw.available && !Hits(fault, 1) then [ServoWrite(0, 90.0)] else []
  {
    if !s.jaw.available then Quiet(s)
    else
      var steps := [Write(TestChannel, Some(ClampAngle(TestAngle)))];
      assert WriteCount(steps) == 1;
      Outcome(s, Perform(steps, fault).writes, [], false)
  }

  // ---------------------------------------------------------------------
  // Centring every eye servo

  const EyeChannelCount: nat := 8

  /** The centre angle stored for `channel`: the `center_angle` of the
      channel's entry in the `eye_servos` table, 90 when the table, the
      entry or the field is missing. `None` when a lookup meets something
      that is not a dict, or the angle is not a number. */
  function CenterAngle(settings: Dict<Value>, channel: nat): (r: Option<real>)
    ensures !Has(settings, "eye_servos") ==> r == Some(90.0)
  {
    match GetOr(settings, "eye_servos", Object([]))
    case Object(servos) =>
      (match GetOr(servos, Dec(channel), Object([]))
       case Object(entry) => AsNumber(GetOr(entry, "center_angle", Int(90)))
       case _ => None)
    case _ => None
  }

  /** The write that centres one channel: none when its lookup or its
      write raises (the channel is in `failing`). */
  function CenterWrite(settings: Dict<Value>, failing: set<nat>, channel: nat): (w: seq<ServoWrite>)
    ensures |w| <= 1
    ensures |w| == 1 <==> channel !in failing && CenterAngle(settings, channel).Some?
    ensures |w| == 1 ==> w[0] == ServoWrite(channel, ClampAngle(CenterAngle(settings, channel).value))
  {
    if channel !in failing && CenterAngle(settings, channel).Some?
    then [ServoWrite(channel, ClampAngle(CenterAngle(settings, channel).value))] else []
  }

  /** The writes that centre channels `0 .. n-1`, each in its own `try`. */
  function CenterWrites(settings: Dict<Value>, failing: set<nat>, n: nat): (w: seq<ServoWrite>)
    ensures |w| <= n
    ensures forall i :: 0 <= i < |w| ==>
      && w[i].channel < n && w[i].channel !in failing
      && CenterAngle(settings, w[i].channel).Some?
      && w[i].angle == ClampAngle(CenterAngle(settings, w[i].channel).value)
    ensures forall i, j :: 0 <= i < j < |w| ==> w[i].channel < w[j].channel
    decreases n
  {
    if n == 0 then [] else CenterWrites(settings, failing, n - 1) + CenterWrite(settings, failing, n - 1)
  }

  /** No channel is skipped without cause: every channel below `n` whose
      centre angle evaluates and whose write succeeds is centred. */
  lemma {:induction false} CenterWritesComplete(settings: Dict<Value>, failing: set<nat>, n: nat, ch: nat)
    requires ch < n && ch !in failing && CenterAngle(settings, ch).Some?
    ensures exists i :: 0 <= i < |CenterWrites(settings, failing, n)| && CenterWrites(settings, failing, n)[i].channel == ch
    decreases n
  {
    var prev := CenterWrites(settings, failing, n - 1);
    var w := prev + CenterWrite(settings, failing, n - 1);
    assert CenterWrites(settings, failing, n) == w;
    if ch == n - 1 {
      assert w[|prev|].channel == ch;
    } else {
      CenterWritesComplete(settings, failing, n - 1, ch);
      var i :| 0 <= i < |prev| && prev[i].channel == ch;
      assert w[i] == prev[i];
    }
  }

  /** With no calibration saved and a working bus, every channel goes to
      90 degrees in channel order. */
  lemma {:induction false} CenterWithoutCalibration(settings: Dict<Value>, n: nat)
    requires !Has(settings, "eye_servos")
    ensures CenterWrites(settings, {}, n) == seq(n, c requires 0 <= c => ServoWrite(c, 90.0))
    decreases n
  {
    if n > 0 {
      CenterWithoutCalibration(settings, n - 1);
      assert ClampAngle(90.0) == 90.0;
    }
  }

  /** `center_all_eyes`: channels 0 to 7 in order, each in its own `try`,
      when the servo is available. */
  function RunCenterAll(s: Server, failing: set<nat>): (r: Outcome)
    ensures !s.jaw.available ==> r == Quiet(s)
    ensures r.server == s && r.events == [] && !r.save
    ensures |r.writes| <= EyeChannelCount
    ensures forall i :: 0 <= i < |r.writes| ==>
      && r.writes[i].channel < EyeChannelCount && r.writes[i].channel !in failing
      && CenterAngle(s.settings, r.writes[i].channel).Some?
      && r.writes[i].angle == ClampAngle(CenterAngle(s.settings, r.writes[i].channel).value)
    ensures forall i, j :: 0 <= i < j < |r.writes| ==> r.writes[i].channel < r.writes[j].channel
  {
    if !s.jaw.available then Quiet(s)
    else Outcome(s, CenterWrites(s.settings, failing, EyeChannelCount), [], false)
  }

  /** Every eye channel whose centre angle evaluates and whose write
      succeeds is centred. */
  lemma CenterAllComplete(s: Server, failing: set<nat>, ch: nat)
    requires s.jaw.available && ch < EyeChannelCount && ch !in failing && CenterAngle(s.settings, ch).Some?
    ensures exists i :: 0 <= i < |RunCenterAll(s, failing).writes| && RunCenterAll(s, failing).writes[i].channel == ch
  {
    assert RunCenterAll(s, failing).writes == CenterWrites(s.settings, failing, EyeChannelCount);
    CenterWritesComplete(s.settings, failing, EyeChannelCount, ch);
  }

  // ---------------------------------------------------------------------
  // Sweep

  /** Steps from the low to the high end of the sweep. */
  const SweepSteps: nat := 20

  function SweepAngle(lo: real, hi: real, i: nat): real
  {
    ClampAngle(lo + (hi - lo) * (i as real) / (SweepSteps as real))
  }

  /** The sweep's writes on `channel`: the low end, the 21 points from low
      to high, and the centre. The pauses between them are non-negative
      constants and cannot raise, so they are left out. */
  function SweepPlan(channel: nat, lo: real, hi: real, center: real): (steps: seq<Step>)
    ensures |steps| == SweepSteps + 3
    ensures forall i :: 0 <= i < |steps| ==> steps[i].Write? && steps[i].angle.Some? && steps[i].channel == channel
  {
    [Write(channel, Some(lo))]
    + seq(SweepSteps + 1, i requires 0 <= i => Write(channel, Some(SweepAngle(lo, hi, i))))
    + [Write(channel, Some(center))]
  }

  /** `sweep_eye_servo` with the default range: channel 0 from 0 to 180
      degrees and back to 90, when the servo is available; an exception
      ends the sweep and is only reported. */
  function RunSweep(s: Server, fault: BusFault): (r: Outcome)
    ensures !s.jaw.available ==> r == Quiet(s)
    ensures r.server == s && r.events == [] && !r.save
    ensures WritesOn(r.writes, TestChannel, 0.0, 180.0) && |r.writes| <= SweepSteps + 3
  {
    if !s.jaw.available then Quiet(s)
    else
      var plan := SweepPlan(TestChannel, ClampAngle(0.0), ClampAngle(180.0), ClampAngle(TestAngle));
      AllWritesIntended(plan);
      PerformWritesOn(plan, fault, TestChannel, 0.0, 180.0);
      Outcome(s, Perform(plan, fault).writes, [], false)
  }

  /** The complete default sweep: 0 degrees, then 0, 9, 18, ..., 180, then
      90, all on channel 0. */
  lemma SweepCompletes(s: Server)
    requires s.jaw.available
    ensures var w := RunSweep(s, NoFault).writes;
      && |w| == SweepSteps + 3
      && w[0] == ServoWrite(0, 0.0)
      && (forall i :: 1 <= i <= SweepSteps + 1 ==> w[i] == ServoWrite(0, 9.0 * ((i - 1) as real)))
      && w[SweepSteps + 2] == ServoWrite(0, 90.0)
  {
    var plan := SweepPlan(TestChannel, 0.0, 180.0, 90.0);
    AllWritesIntended(plan);
    forall i | 1 <= i <= SweepSteps + 1
      ensures plan[i].angle.value == 9.0 * ((i - 1) as real)
    {
      assert plan[i] == Write(0, Some(SweepAngle(0.0, 180.0, i - 1)));
    }
  }

  /** A fault at the `k`-th write cuts the sweep to its first `k` writes
      and, even for a disconnect, leaves the servo on. */
  lemma SweepInterrupted(s: Server, k: nat, disconnect: bool)
    requires s.jaw.available && k < SweepSteps + 3
    ensures var r := RunSweep(s, FaultAt(k, disconnect));
      && |RunSweep(s, NoFault).writes| == SweepSteps + 3
      && r.writes == RunSweep(s, NoFault).writes[..k]
      && r.server.jaw.available
  {
    var plan := SweepPlan(TestChannel, 0.0, 180.0, 90.0);
    AllWritesIntended(plan);
    var run := Perform(plan, FaultAt(k, disconnect));
    assert run.writes <= Intended(plan);
  }

  // ---------------------------------------------------------------------
  // Eye calibration

  /** The calibration saved for a channel by default, and also the one
      reported for a channel with none saved. */
  const EyeConfigDefaults: Value :=
    Object([("min_angle", Int(0)), ("max_angle", Int(180)), ("center_angle", Int(90))])

  /** `str(channel)` for the default channel: the table's key. */
  const ConfigChannelKey: string := Dec(TestChannel)

  /** The `eye_servos` table can be read and written: absent, or a dict. */
  predicate EyeTableUsable(settings: Dict<Value>)
  {
    !Has(settings, "eye_servos") || Get(settings, "eye_servos").value.Object?
  }

  /** The calibration table, empty when absent. */
  function EyeTable(settings: Dict<Value>): (t: Dict<Value>)
    requires EyeTableUsable(settings)
    ensures !Has(settings, "eye_servos") ==> t == []
    ensures Has(settings, "eye_servos") ==> Get(settings, "eye_servos") == Some(Object(t))
  {
    if Has(settings, "eye_servos") then Get(settings, "eye_servos").value.fields else []
  }

  /** `save_eye_config`: the default calibration is stored for channel 0
      in the `eye_servos` table (created if absent) and the settings are
      saved. When `eye_servos` holds something other than a dict the
      assignment raises outside any `try` and the command loop ends with
      the settings untouched. */
  function RunSaveEyeConfig(s: Server): (r: Outcome)
    requires Valid(s.settings)
    ensures Valid(r.server.settings) && r.writes == [] && r.events == []
    ensures !EyeTableUsable(s.settings) ==> r == Quiet(s.(commandsAlive := false))
    ensures EyeTableUsable(s.settings) ==>
      && r.save && r.server == s.(settings := r.server.settings)
      && (forall k :: k != "eye_servos" ==> Get(r.server.settings, k) == Get(s.settings, k))
      && EyeTableUsable(r.server.settings) && Has(r.server.settings, "eye_servos")
      && Get(EyeTable(r.server.settings), ConfigChannelKey) == Some(EyeConfigDefaults)
      && (forall c :: c != ConfigChannelKey ==> Get(EyeTable(r.server.settings), c) == Get(EyeTable(s.settings), c))
  {
    if !EyeTableUsable(s.settings) then Quiet(s.(commandsAlive := false))
    else
      var table := Assign(EyeTable(s.settings), ConfigChannelKey, EyeConfigDefaults);
      Outcome(s.(settings := Put(s.settings, "eye_servos", Object(table))), [], [], true)
  }

  /** What `load_eye_config` looks up: channel 0's calibration, or the
      defaults when none is saved; `None` when the table is not a dict. */
  function EyeConfigOf(settings: Dict<Value>): (r: Option<Value>)
    ensures r.Some? <==> EyeTableUsable(settings)
    ensures r.Some? && !Has(EyeTable(settings), ConfigChannelKey) ==> r.value == EyeConfigDefaults
    ensures r.Some? && Has(EyeTable(settings), ConfigChannelKey) ==>
      r == Get(EyeTable(settings), ConfigChannelKey)
  {
    if EyeTableUsable(settings) then Some(GetOr(EyeTable(settings), ConfigChannelKey, EyeConfigDefaults)) else None
  }

  /** `load_eye_config` as evidently intended: channel 0's calibration is
      sent to the page. A table that is not a dict still raises outside
      any `try`, ending the loop. */
  function RunLoadEyeConfig(s: Server): (r: Outcome)
    ensures r.writes == [] && !r.save
    ensures EyeTableUsable(s.settings) ==>
      r.server == s && r.events == [EyeConfigLoaded(EyeConfigOf(s.settings).value)]
    ensures !EyeTableUsable(s.settings) ==> r == Quiet(s.(commandsAlive := false))
  {
    match EyeConfigOf(s.settings)
    case Some(config) => Outcome(s, [], [EyeConfigLoaded(config)], false)
    case None => Quiet(s.(commandsAlive := false))
  }

  /** `load_eye_config` as written: after the lookup, the branch emits
      through a name the server never binds, so a `NameError` escapes the
      loop; a table that is not a dict raises before that. Either way
      nothing reaches the page and the loop ends. */
  function RunLoadEyeConfigAsWritten(s: Server): (r: Outcome)
    ensures r.events == [] && r.writes == [] && !r.save
    ensures r.server == s.(commandsAlive := false)
  {
    match EyeConfigOf(s.settings)
    case Some(_) => Quiet(s.(commandsAlive := false))
    case None => Quiet(s.(commandsAlive := false))
  }

  /** The discrepancy: with no calibration saved the intended command
      reports the defaults and the loop goes on, while the code as written
      reports nothing and ends the loop. */
  lemma LoadAsWrittenEndsLoop(s: Server)
    requires s.commandsAlive && !Has(s.settings, "eye_servos")
    ensures RunLoadEyeConfigAsWritten(s).events == [] && !RunLoadEyeConfigAsWritten(s).server.commandsAlive
    ensures RunLoadEyeConfig(s).events == [EyeConfigLoaded(EyeConfigDefaults)] && RunLoadEyeConfig(s).server.commandsAlive
  {
  }

  /** Saving and then loading reports the calibration just saved. */
  lemma SaveThenLoad(s: Server)
    requires Valid(s.settings) && EyeTableUsable(s.settings)
    ensures RunLoadEyeConfig(RunSaveEyeConfig(s).server).events == [EyeConfigLoaded(EyeConfigDefaults)]
  {
  }

  /** Saving changes only channel 0's calibration: the centre angle of
      every other channel, and so `center_all_eyes`, is unaffected. */
  lemma SaveKeepsOtherCentres(s: Server, channel: nat)
    requires Valid(s.settings) && EyeTableUsable(s.settings) && channel != 0
    ensures CenterAngle(RunSaveEyeConfig(s).server.settings, channel) == CenterAngle(s.settings, channel)
  {
    assert Dec(channel) != ConfigChannelKey by {
      DecRoundTrip(channel);
      DecRoundTrip(TestChannel);
    }
  }

  // ---------------------------------------------------------------------
  // Face tracking

  /** The eye controller's angle table, when there is one, is a dict. */
  predicate EyesValid(s: Server)
  {
    s.tracking.eyes.Some? ==> Valid(s.tracking.eyes.value.currentAngles)
  }

  /** Whether `start_face_tracking` succeeds: the camera opens and, with
      the servo available, the configured rig name is a string. */
  predicate StartSucceeds(s: Server, cameraStarts: bool)
  {
    cameraStarts && (!s.jaw.available || GetOr(s.settings, "servo_config", Str("inmoov")).Str?)
  }

  /** What the command loop relies on from `start_face_tracking`: whether
      it succeeds, that it touches only the tracking globals and installs
      a fresh tracker, that success enables tracking and that failure
      changes nothing else. */
  method StartTracking(s: Server, cameraStarts: bool) returns (r: Started)
    requires EyesValid(s)
    ensures r.ok == StartSucceeds(s, cameraStarts)
    ensures r.outcome.server == s.(tracking := r.outcome.server.tracking)
    ensures r.outcome.server.tracking.tracker == Some(InitialTracker)
    ensures r.ok ==> r.outcome.server.tracking.enabled
    ensures !r.ok ==> r.outcome.server.tracking == s.tracking.(tracker := Some(InitialTracker))
    ensures EyesValid(r.outcome.server) && !r.outcome.save
  {
    r := StartFaceTracking(s, cameraStarts);
  }

  /** `toggle_face_tracking` with a truthy value: tracking is started; on
      success the setting is turned on and saved and the page told so, on
      failure only the page is told, and whether tracking counts as
      enabled is left as it was. */
  method ToggleOn(s: Server, cameraStarts: bool) returns (r: Outcome)
    requires Valid(s.settings) && EyesValid(s)
    ensures Valid(r.server.settings) && EyesValid(r.server)
    ensures r.server == s.(tracking := r.server.tracking, settings := r.server.settings)
    ensures |r.events| > 0 && r.events[|r.events| - 1] == FaceTrackingStatus(StartSucceeds(s, cameraStarts))
    ensures r.save <==> StartSucceeds(s, cameraStarts)
    ensures r.save ==> r.server.settings == Put(s.settings, "face_tracking_enabled", Bool(true)) && r.server.tracking.enabled
    ensures !r.save ==> r.server.settings == s.settings && r.server.tracking.enabled == s.tracking.enabled
  {
    var started := StartTracking(s, cameraStarts);
    var o := started.outcome;
    var settings := if started.ok then Put(s.settings, "face_tracking_enabled", Bool(true)) else s.settings;
    r := Outcome(o.server.(settings := settings), o.writes, o.events + UpdateFaceTrackingStatus(started.ok), started.ok);
  }

  /** `toggle_face_tracking` with any other value: tracking is stopped,
      the setting turned off and saved, and the page told. */
  function ToggleOff(s: Server): (r: Outcome)
    requires Valid(s.settings) && EyesValid(s)
    ensures Valid(r.server.settings)
    ensures r.server == s.(tracking := s.tracking.(enabled := false, tracker := None, eyes := None),
                           settings := Put(s.settings, "face_tracking_enabled", Bool(false)))
    ensures |r.events| > 0 && r.events[|r.events| - 1] == FaceTrackingStatus(false)
    ensures r.save
  {
    var o := StopFaceTracking(s);
    Outcome(o.server.(settings := Put(s.settings, "face_tracking_enabled", Bool(false))), o.writes,
            o.events + UpdateFaceTrackingStatus(false), true)
  }

  /** The saved setting agrees with the tracking state after a toggle
      that saved: tracking comes back on at start-up exactly when it is on
      now. */
  lemma ToggleOffRemembered(s: Server)
    requires Valid(s.settings) && EyesValid(s)
    ensures var r := ToggleOff(s);
      !Truthy(GetOr(r.server.settings, "face_tracking_enabled", Bool(false))) && !r.server.tracking.enabled
  {
  }

  /** The restart after `set_servo_config` or `set_camera_index`: when
      tracking is enabled it is stopped and started again with the new
      settings; whether the start succeeded is not reported. */
  method RunRestart(s: Server, cameraStarts: bool) returns (r: Outcome)
    requires EyesValid(s)
    ensures EyesValid(r.server)
    ensures !s.tracking.enabled ==> r == Quiet(s)
    ensures r.server == s.(tracking := r.server.tracking) && !r.save
    ensures s.tracking.enabled ==>
      && r.server.tracking.tracker == Some(InitialTracker)
      && (r.server.tracking.enabled <==> StartSucceeds(s, cameraStarts))
      && (!StartSucceeds(s, cameraStarts) ==> r.server.tracking.eyes.None?)
  {
    if !s.tracking.enabled {
      r := Quiet(s);
    } else {
      var stop := StopFaceTracking(s);
      var started := StartTracking(stop.server, cameraStarts);
      var o := started.outcome;
      r := Outcome(o.server, stop.writes + o.writes, stop.events + o.events, false);
    }
  }

  // ---------------------------------------------------------------------
  // One command

  /** The hardware during one command: where the servo bus raises within
      the command's write sequence, which eye channels raise when centred,
      and whether the camera opens. */
  datatype Hardware = Hardware(fault: BusFault, failingChannels: set<nat>, cameraStarts: bool)

  /** The branches that neither change nor save the settings. */
  predicate KeepsSettings(a: Action)
  {
    SettingKey(a).None? && a != SaveEyeConfig && a != ToggleFaceTracking
  }

  /** What every command keeps: the settings and the eye controller's
      angle table stay proper dicts, the queue and the envelope tracker are
      untouched, the servo flag can only turn off, only the two calibration
      branches can end the loop, and the branches that keep the settings do
      not save them. */
  predicate CommandEffect(s: Server, a: Action, r: Outcome)
  {
    && Valid(r.server.settings) && EyesValid(r.server)
    && r.server.ui == s.ui && r.server.mouth == s.mouth
    && (r.server.jaw.available ==> s.jaw.available)
    && (r.server.commandsAlive ==> s.commandsAlive)
    && (s.commandsAlive && !r.server.commandsAlive ==> a == SaveEyeConfig || a == LoadEyeConfig)
    && (KeepsSettings(a) ==> r.server.settings == s.settings && !r.save)
  }

  /** The branches that act on the assistant itself, and the fall-through
      for an unrecognised action. */
  function ExecuteVoice(s: Server, a: Action, value: Value): (r: Outcome)
    requires Valid(s.settings) && EyesValid(s)
    requires a == Start || a == Stop || a == Mute || a == Unrecognized
    ensures r.server == s.(running := r.server.running, muted := r.server.muted, monitorAlive := r.server.monitorAlive)
    ensures r.writes == [] && r.events == [] && !r.save
    ensures a == Mute ==> r.server.muted == value
    ensures a == Unrecognized ==> r == Quiet(s)
    ensures CommandEffect(s, a, r)
  {
    match a
    case Start => StartVoice(s)
    case Stop => StopVoice(s)
    case Mute => Quiet(s.(muted := value))
    case _ => Quiet(s)
  }

  predicate ServoAction(a: Action)
  {
    a == TestJaw || a == TestEyeServo || a == CenterAllEyes || a == SweepEyeServo
  }

  /** The hardware tests: only the servo flag can change. */
  function ExecuteServos(s: Server, a: Action, hw: Hardware): (r: Outcome)
    requires Valid(s.settings) && EyesValid(s) && ServoAction(a)
    ensures r.server == s.(jaw := r.server.jaw)
    ensures r.server.jaw.position == s.jaw.position
    ensures r.events == [] && !r.save
    ensures CommandEffect(s, a, r)
  {
    match a
    case TestJaw => RunTestJaw(s, hw.fault)
    case TestEyeServo => RunTestEyeServo(s, hw.fault)
    case CenterAllEyes => RunCenterAll(s, hw.failingChannels)
    case _ => RunSweep(s, hw.fault)
  }

  /** The calibration commands: no servo moves. */
  function ExecuteCalibration(s: Server, a: Action): (r: Outcome)
    requires Valid(s.settings) && EyesValid(s) && (a == SaveEyeConfig || a == LoadEyeConfig)
    ensures r.writes == [] && r.server == s.(settings := r.server.settings, commandsAlive := r.server.commandsAlive)
    ensures CommandEffect(s, a, r)
  {
    if a == SaveEyeConfig then RunSaveEyeConfig(s) else RunLoadEyeConfig(s)
  }

  /** Storing a setting keeps what every command keeps. */
  lemma SetValueEffect(s: Server, a: Action, value: Value)
    requires Valid(s.settings) && EyesValid(s) && SettingKey(a).Some?
    ensures CommandEffect(s, a, SetValue(s, a, value))
    ensures SetValue(s, a, value).server.settings == Put(s.settings, SettingKey(a).value, value)
  {
    var r := SetValue(s, a, value);
    assert r.server.mouth == s.mouth && r.server.ui == s.ui && r.server.tracking == s.tracking;
    SetValueStores(s, a, value);
  }

  /** The stored settings are the old ones with the action's key set. */
  lemma SetValueStores(s: Server, a: Action, value: Value)
    requires Valid(s.settings) && SettingKey(a).Some?
    ensures SetValue(s, a, value).server.settings == Put(s.settings, SettingKey(a).value, value)
  {
    match a
    case SetVoice =>
    case SetMicrophone =>
    case SetSpeaker =>
    case SetSpeechSpeed =>
    case _ =>
  }

  /** Tracking restarted after a setting was stored: the outcome keeps
      what every command keeps, saves, and holds the stored settings. */
  method Retrack(s: Server, a: Action, changed: Outcome, cameraStarts: bool) returns (r: Outcome)
    requires CommandEffect(s, a, changed) && !KeepsSettings(a)
    ensures CommandEffect(s, a, r)
    ensures r.save && r.server.settings == changed.server.settings
  {
    var restarted := RunRestart(changed.server, cameraStarts);
    r := restarted.(save := true);
  }

  /** A `set_*` branch; `set_servo_config` and `set_camera_index` also
      restart enabled tracking with the new setting. */
  method ExecuteSetting(s: Server, a: Action, value: Value, cameraStarts: bool) returns (r: Outcome)
    requires Valid(s.settings) && EyesValid(s) && SettingKey(a).Some?
    ensures CommandEffect(s, a, r)
    ensures r.save && r.server.settings == Put(s.settings, SettingKey(a).value, value)
    ensures a != SetServoConfig && a != SetCameraIndex ==> r == SetValue(s, a, value)
  {
    var changed := SetValue(s, a, value);
    SetValueEffect(s, a, value);
    if a == SetServoConfig || a == SetCameraIndex {
      r := Retrack(s, a, changed, cameraStarts);
    } else {
      r := changed;
    }
  }

  /** `toggle_face_tracking`. */
  method ExecuteToggle(s: Server, value: Value, cameraStarts: bool) returns (r: Outcome)
    requires Valid(s.settings) && EyesValid(s)
    ensures CommandEffect(s, ToggleFaceTracking, r)
    ensures |r.events| > 0 && r.events[|r.events| - 1] == FaceTrackingStatus(Truthy(value) && StartSucceeds(s, cameraStarts))
    ensures !Truthy(value) ==> r == ToggleOff(s)
  {
    if Truthy(value) {
      r := ToggleOn(s, cameraStarts);
    } else {
      r := ToggleOff(s);
    }
  }

  /** One command carried out, its action already parsed. The `set_*`
      branches store and save their value. */
  method Execute(s: Server, a: Action, value: Value, hw: Hardware) returns (r: Outcome)
    requires Valid(s.settings) && EyesValid(s)
    ensures CommandEffect(s, a, r)
    ensures SettingKey(a).Some? ==> r.save && r.server.settings == Put(s.settings, SettingKey(a).value, value)
  {
    match a {
      case SetVoice | SetMicrophone | SetSpeaker | SetSpeechSpeed
        | SetJawStopAngle | SetJawOpenAngle | SetJawCloseAngle | SetJawPulseDuration
        | SetServoConfig | SetCameraIndex =>
        r := ExecuteSetting(s, a, value, hw.cameraStarts);
      case ToggleFaceTracking =>
        r := ExecuteToggle(s, value, hw.cameraStarts);
      case TestJaw | TestEyeServo | CenterAllEyes | SweepEyeServo =>
        r := ExecuteServos(s, a, hw);
      case SaveEyeConfig | LoadEyeConfig =>
        r := ExecuteCalibration(s, a);
      case Start | Stop | Mute | Unrecognized =>
        r := ExecuteVoice(s, a, value);
    }
  }

  /** One pass of the command loop: once the loop has ended nothing
      happens; an empty queue is a timeout; otherwise the oldest command
      leaves the queue and is carried out. */
  method CommandStep(s: Server, hw: Hardware) returns (r: Outcome)
    requires Valid(s.settings) && EyesValid(s)
    ensures Valid(r.server.settings) && EyesValid(r.server)
    ensures r.server.mouth == s.mouth && Sound(r.server)
    ensures !s.commandsAlive || |s.ui.queue| == 0 ==> r == Quiet(s)
    ensures s.commandsAlive && |s.ui.queue| > 0 ==>
      && r.server.ui == s.ui.(queue := s.ui.queue[1..])
      && CommandEffect(s.(ui := r.server.ui), ParseAction(s.ui.queue[0].action), r)
      && (SettingKey(ParseAction(s.ui.queue[0].action)).Some? ==>
            r.save && Get(r.server.settings, SettingKey(ParseAction(s.ui.queue[0].action)).value) == Some(s.ui.queue[0].value))
  {
    if !s.commandsAlive {
      r := Quiet(s);
    } else {
      var got := GetControlCommand(s.ui);
      match got.0 {
        case None => r := Quiet(s);
        case Some(cmd) =>
          r := Execute(s.(ui := got.1), ParseAction(cmd.action), cmd.value, hw);
      }
    }
  }
}

=== FILE: common.dfy ===
/** Small shared vocabulary: optional values, real clamping and the string
    helpers (ASCII lower-casing, substring search, decimal rendering) that
    several components of the head controller use. */
module Common {

  datatype Option<+T> = None | Some(value: T)

  /** One command on the servo bus: move `channel` to `angle` degrees. */
  datatype ServoWrite = ServoWrite(channel: nat, angle: real)

  function Min(a: real, b: real): (r: real)
    ensures r <= a && r <= b
    ensures r == a || r == b
  {
    if a <= b then a else b
  }

  function Max(a: real, b: real): (r: real)
    ensures r >= a && r >= b
    ensures r == a || r == b
  {
    if a >= b then a else b
  }

  /** Python's `max(lo, min(hi, x))`, the clamping idiom every servo write
      goes through. When `lo > hi` the outer `max` wins and the result is `lo`. */
  function Clamp(lo: real, hi: real, x: real): (r: real)
    ensures lo <= hi ==> lo <= r <= hi
    ensures lo <= x <= hi ==> r == x
    ensures x < lo ==> r == lo
    ensures lo <= hi && hi < x ==> r == hi
  {
    Max(lo, Min(hi, x))
  }

  /** Clamping is monotone in the clamped value. */
  lemma ClampMonotone(lo: real, hi: real, x: real, y: real)
    requires x <= y
    ensures Clamp(lo, hi, x) <= Clamp(lo, hi, y)
  {
  }

  /** Clamping twice to the same range is clamping once. */
  lemma ClampIdempotent(lo: real, hi: real, x: real)
    requires lo <= hi
    ensures Clamp(lo, hi, Clamp(lo, hi, x)) == Clamp(lo, hi, x)
  {
  }

  // ---------------------------------------------------------------------
  // Strings

  function LowerChar(c: char): (r: char)
    ensures 'A' <= c <= 'Z' ==> 'a' <= r <= 'z'
    ensures !('A' <= c <= 'Z') ==> r == c
  {
    if 'A' <= c <= 'Z' then (c as int - 'A' as int + 'a' as int) as char else c
  }

  /** ASCII model of `str.lower()`. */
  function Lower(s: string): (r: string)
    ensures |r| == |s|
    ensures forall i :: 0 <= i < |s| ==> r[i] == LowerChar(s[i])
  {
    if |s| == 0 then "" else [LowerChar(s[0])] + Lower(s[1..])
  }

  /** Lower-casing is idempotent, so a name that is already lower case is
      its own lower-cased form. */
  lemma LowerIdempotent(s: string)
    ensures Lower(Lower(s)) == Lower(s)
  {
    assert forall i :: 0 <= i < |s| ==> LowerChar(LowerChar(s[i])) == LowerChar(s[i]);
  }

  predicate OccursAt(s: string, sub: string, i: int)
  {
    0 <= i <= |s| - |sub| && s[i..i + |sub|] == sub
  }

  /** `sub in s` for Python strings. */
  predicate Contains(s: string, sub: string)
  {
    exists i :: 0 <= i <= |s| && OccursAt(s, sub, i)
  }

  lemma ContainsMiddle(a: string, sub: string, b: string)
    ensures Contains(a + sub + b, sub)
  {
    var s := a + sub + b;
    assert s[|a|..|a| + |sub|] == sub;
    assert OccursAt(s, sub, |a|);
  }

  /** A piece of a piece of `s` is a piece of `s`. */
  lemma ContainsTrans(s: string, t: string, u: string)
    requires Contains(s, t) && Contains(t, u)
    ensures Contains(s, u)
  {
    var i :| 0 <= i <= |s| && OccursAt(s, t, i);
    var j :| 0 <= j <= |t| && OccursAt(t, u, j);
    forall k | 0 <= k < |u| ensures s[i + j + k] == u[k] {
      assert s[i..i + |t|][j + k] == t[j + k];
      assert t[j..j + |u|][k] == u[k];
    }
    assert s[i + j..i + j + |u|] == u;
    assert OccursAt(s, u, i + j);
  }

  /** The pieces of a string built by concatenation, joined in order. */
  function Concat(parts: seq<string>): (r: string)
    ensures |parts| == 1 ==> r == parts[0]
  {
    if |parts| == 0 then "" else parts[0] + Concat(parts[1..])
  }

  /** A concatenation splits around any of its pieces. */
  lemma {:induction false} ConcatSplit(parts: seq<string>, k: nat)
    requires k < |parts|
    ensures Concat(parts) == Concat(parts[..k]) + parts[k] + Concat(parts[k + 1..])
    decreases k
  {
    if k > 0 {
      var t := parts[1..];
      ConcatSplit(t, k - 1);
      assert t[..k - 1] == parts[1..k] && t[k..] == parts[k + 1..] && t[k - 1] == parts[k];
      var a, b, c := Concat(parts[1..k]), parts[k], Concat(parts[k + 1..]);
      assert Concat(t) == a + b + c;
      assert Concat(parts[..k]) == parts[0] + a by {
        assert parts[..k][1..] == parts[1..k];
      }
      Associate(parts[0], a, b, c);
    } else {
      assert parts[..0] == [];
      assert parts[1..] == parts[k + 1..];
    }
  }

  lemma Associate(w: string, a: string, b: string, c: string)
    ensures w + (a + b + c) == (w + a) + b + c
  {
  }

  /** Every piece occurs in the concatenation. */
  lemma ContainsPart(parts: seq<string>, k: nat)
    requires k < |parts|
    ensures Contains(Concat(parts), parts[k])
  {
    ConcatSplit(parts, k);
    ContainsMiddle(Concat(parts[..k]), parts[k], Concat(parts[k + 1..]));
  }

  function DigitChar(d: nat): (r: char)
    requires d < 10
    ensures '0' <= r <= '9'
  {
    ('0' as int + d) as char
  }

  /** Decimal rendering of a natural number, as `str(n)` or an f-string does. */
  function Dec(n: nat): (r: string)
    ensures 1 <= |r|
    ensures forall i :: 0 <= i < |r| ==> '0' <= r[i] <= '9'
    decreases n
  {
    if n < 10 then [DigitChar(n)] else Dec(n / 10) + [DigitChar(n % 10)]
  }

  function DigitValue(c: char): (d: nat)
    requires '0' <= c <= '9'
    ensures d < 10
  {
    c as int - '0' as int
  }

  /** Reading a string of decimal digits back into a number. */
  function ParseDec(s: string): (n: nat)
    requires forall i :: 0 <= i < |s| ==> '0' <= s[i] <= '9'
  {
    if |s| == 0 then 0 else ParseDec(s[..|s| - 1]) * 10 + DigitValue(s[|s| - 1])
  }

  /** `Dec` is faithful: parsing the rendering gives the number back. */
  lemma {:induction false} DecRoundTrip(n: nat)
    ensures ParseDec(Dec(n)) == n
    decreases n
  {
    if n >= 10 {
      var s := Dec(n);
      assert s[..|s| - 1] == Dec(n / 10);
      DecRoundTrip(n / 10);
    }
  }
}

=== FILE: dict.dfy ===
/** Python's insertion-ordered `dict` with string keys, as an association
    list whose keys are pairwise distinct. Order matters to the controller:
    servo writes follow dict iteration order, and `{**a, **b}` keeps the
    positions of `a`'s keys. */
module Dict {
  import opened Common

  type Dict<V> = seq<(string, V)>

  /** Keys are pairwise distinct, as in any Python dict. */
  predicate Valid<V>(d: Dict<V>)
  {
    forall i, j :: 0 <= i < j < |d| ==> d[i].0 != d[j].0
  }

  function KeySet<V>(d: Dict<V>): set<string>
  {
    set i | 0 <= i < |d| :: d[i].0
  }

  predicate Has<V>(d: Dict<V>, k: string)
  {
    exists i :: 0 <= i < |d| && d[i].0 == k
  }

  lemma HasIffInKeySet<V>(d: Dict<V>, k: string)
    ensures Has(d, k) <==> k in KeySet(d)
  {
  }

  /** A dict is empty exactly when it has no keys. */
  lemma EmptyIffNoKeys<V>(d: Dict<V>)
    ensures |d| == 0 <==> KeySet(d) == {}
  {
    if |d| > 0 {
      assert d[0].0 in KeySet(d);
    }
  }

  /** Strings at distinct positions of `keys` are distinct. */
  predicate DistinctNames(keys: seq<string>)
  {
    forall i, j :: 0 <= i < j < |keys| ==> keys[i] != keys[j]
  }

  function KeysOf<V>(d: Dict<V>): (r: seq<string>)
    ensures |r| == |d| && forall i :: 0 <= i < |d| ==> r[i] == d[i].0
  {
    seq(|d|, i requires 0 <= i < |d| => d[i].0)
  }

  /** A key is present exactly when it occurs in the key list. */
  lemma HasIffInKeys<V>(d: Dict<V>, k: string)
    ensures Has(d, k) <==> k in KeysOf(d)
  {
    if k in KeysOf(d) {
      var i :| 0 <= i < |d| && KeysOf(d)[i] == k;
      assert d[i].0 == k;
    }
  }

  lemma ValidFromNames<V>(d: Dict<V>)
    requires DistinctNames(KeysOf(d))
    ensures Valid(d)
  {
  }

  /** The dict pairing each key with the value at the same position. */
  function Zip<V>(keys: seq<string>, values: seq<V>): (d: Dict<V>)
    requires |keys| == |values|
    ensures |d| == |keys| && forall i :: 0 <= i < |d| ==> d[i] == (keys[i], values[i])
    decreases |keys|
  {
    if |keys| == 0 then [] else [(keys[0], values[0])] + Zip(keys[1..], values[1..])
  }

  /** Position of the first entry with key `k`. */
  function IndexOf<V>(d: Dict<V>, k: string): (i: nat)
    requires Has(d, k)
    ensures i < |d| && d[i].0 == k
    ensures forall j :: 0 <= j < i ==> d[j].0 != k
  {
    if d[0].0 == k then 0
    else
      assert Has(d[1..], k) by {
        var i :| 0 <= i < |d| && d[i].0 == k;
        assert d[1..][i - 1].0 == k;
      }
      1 + IndexOf(d[1..], k)
  }

  lemma IndexOfUnique<V>(d: Dict<V>, i: nat)
    requires Valid(d) && i < |d|
    ensures IndexOf(d, d[i].0) == i
  {
  }

  /** `d.get(k)`. */
  function Get<V>(d: Dict<V>, k: string): (r: Option<V>)
    ensures r.None? <==> !Has(d, k)
    ensures r.Some? ==> exists i :: 0 <= i < |d| && d[i] == (k, r.value)
  {
    if Has(d, k) then Some(d[IndexOf(d, k)].1) else None
  }

  /** `d.get(k, default)`. */
  function GetOr<V>(d: Dict<V>, k: string, default: V): (r: V)
    ensures !Has(d, k) ==> r == default
    ensures Has(d, k) ==> Some(r) == Get(d, k)
  {
    match Get(d, k)
    case Some(v) => v
    case None => default
  }

  lemma GetAt<V>(d: Dict<V>, i: nat)
    requires Valid(d) && i < |d|
    ensures Get(d, d[i].0) == Some(d[i].1)
  {
    IndexOfUnique(d, i);
  }

  /** Two association lists with the same keys at the same positions. */
  predicate SameKeys<V, W>(d: Dict<V>, e: Dict<W>)
  {
    |d| == |e| && forall i :: 0 <= i < |d| ==> d[i].0 == e[i].0
  }

  lemma SameKeysKeySet<V, W>(d: Dict<V>, e: Dict<W>)
    requires SameKeys(d, e)
    ensures KeySet(d) == KeySet(e)
  {
    assert forall k :: k in KeySet(d) ==> k in KeySet(e) by {
      forall k | k in KeySet(d) ensures k in KeySet(e) {
        var i :| 0 <= i < |d| && d[i].0 == k;
        assert e[i].0 == k;
      }
    }
    assert forall k :: k in KeySet(e) ==> k in KeySet(d) by {
      forall k | k in KeySet(e) ensures k in KeySet(d) {
        var i :| 0 <= i < |e| && e[i].0 == k;
        assert d[i].0 == k;
      }
    }
  }

  lemma SameKeysIndex<V, W>(d: Dict<V>, e: Dict<W>, k: string)
    requires SameKeys(d, e)
    ensures Has(d, k) <==> Has(e, k)
    ensures Has(d, k) ==> IndexOf(d, k) == IndexOf(e, k)
  {
    if Has(d, k) {
      assert d[IndexOf(d, k)].0 == e[IndexOf(d, k)].0;
      assert e[IndexOf(e, k)].0 == d[IndexOf(e, k)].0;
    }
  }

  /** A key found in `d` is found at the same place in `d + e`. */
  lemma IndexOfAppend<V>(d: Dict<V>, e: Dict<V>, k: string)
    requires Has(d, k)
    ensures Has(d + e, k) && IndexOf(d + e, k) == IndexOf(d, k)
  {
    var i := IndexOf(d, k);
    assert (d + e)[i] == d[i];
    var j := IndexOf(d + e, k);
    assert j < |d| ==> (d + e)[j] == d[j];
  }

  /** `d[k] = v` on any association list: the first entry for `k` is
      replaced, or a new entry appended. The entry found first for any
      other key is untouched, so reads of other keys are unchanged even in
      a list with repeated keys. */
  function Assign<V>(d: Dict<V>, k: string, v: V): (r: Dict<V>)
    ensures Get(r, k) == Some(v)
    ensures forall k' :: k' != k ==> Get(r, k') == Get(d, k')
    ensures KeySet(r) == KeySet(d) + {k}
    ensures Has(d, k) ==> SameKeys(d, r)
    ensures !Has(d, k) ==> r == d + [(k, v)]
  {
    if Has(d, k) then
      var i := IndexOf(d, k);
      var r := d[i := (k, v)];
      assert SameKeys(d, r);
      assert forall k' :: Has(d, k') <==> Has(r, k') by {
        forall k' { SameKeysIndex(d, r, k'); }
      }
      assert forall k' :: k' != k ==> Get(r, k') == Get(d, k') by {
        forall k' | k' != k { SameKeysIndex(d, r, k'); }
      }
      SameKeysIndex(d, r, k);
      assert KeySet(r) == KeySet(d) by {
        assert forall j :: 0 <= j < |d| ==> r[j].0 == d[j].0;
      }
      r
    else
      var r := d + [(k, v)];
      assert Get(r, k) == Some(v) by {
        assert r[|d|].0 == k;
      }
      assert forall k' :: k' != k ==> Get(r, k') == Get(d, k') by {
        forall k' | k' != k ensures Get(r, k') == Get(d, k') {
          if Has(d, k') {
            IndexOfAppend(d, [(k, v)], k');
          }
        }
      }
      assert KeySet(r) == KeySet(d) + {k} by {
        assert r[|d|].0 == k;
        assert forall j :: 0 <= j < |d| ==> r[j] == d[j];
      }
      r
  }

  /** `d[k] = v` on a dict: an existing key keeps its position, a new key
      is appended, and the keys stay distinct. */
  function Put<V>(d: Dict<V>, k: string, v: V): (r: Dict<V>)
    requires Valid(d)
    ensures Valid(r)
    ensures Get(r, k) == Some(v)
    ensures forall k' :: k' != k ==> Get(r, k') == Get(d, k')
    ensures KeySet(r) == KeySet(d) + {k}
    ensures Has(d, k) ==> SameKeys(d, r)
    ensures !Has(d, k) ==> r == d + [(k, v)]
  {
    Assign(d, k, v)
  }

  /** `{**a, **b}`: every key of `b` overrides or extends `a`. */
  function Overlay<V>(a: Dict<V>, b: Dict<V>): (r: Dict<V>)
    requires Valid(a)
    ensures Valid(r)
    ensures KeySet(r) == KeySet(a) + KeySet(b)
    decreases |b|
  {
    if |b| == 0 then a
    else
      assert KeySet(b) == {b[0].0} + KeySet(b[1..]) by {
        assert forall j :: 0 <= j < |b[1..]| ==> b[j + 1] == b[1..][j];
      }
      Overlay(Put(a, b[0].0, b[0].1), b[1..])
  }

  lemma TailValid<V>(b: Dict<V>)
    requires Valid(b) && |b| > 0
    ensures Valid(b[1..])
  {
    forall i, j | 0 <= i < j < |b[1..]| ensures b[1..][i].0 != b[1..][j].0 {
      assert b[i + 1].0 != b[j + 1].0;
    }
  }

  /** The overlay reads every key from `b` when `b` has it and from `a`
      otherwise: the merge rule of `{**defaults, **loaded}`. */
  lemma {:induction false} OverlayGet<V>(a: Dict<V>, b: Dict<V>, k: string)
    requires Valid(a) && Valid(b)
    ensures Get(Overlay(a, b), k) == if Has(b, k) then Get(b, k) else Get(a, k)
    decreases |b|
  {
    if |b| > 0 {
      var a' := Put(a, b[0].0, b[0].1);
      TailValid(b);
      OverlayGet(a', b[1..], k);
      if b[0].0 == k {
        assert !Has(b[1..], k) by {
          forall i | 0 <= i < |b[1..]| ensures b[1..][i].0 != k { assert b[0].0 != b[i + 1].0; }
        }
      } else {
        assert Has(b, k) <==> Has(b[1..], k) by {
          if Has(b, k) {
            var i :| 0 <= i < |b| && b[i].0 == k;
            assert b[1..][i - 1].0 == k;
          }
          if Has(b[1..], k) {
            var i :| 0 <= i < |b[1..]| && b[1..][i].0 == k;
            assert b[i + 1].0 == k;
          }
        }
        if Has(b, k) {
          GetAt(b, IndexOf(b, k));
          GetAt(b[1..], IndexOf(b, k) - 1);
        }
      }
    }
  }

  /** `{**a, **b}` keeps every key of `a` at its position; `b`'s new keys
      come after them. */
  lemma {:induction false} OverlayKeepsPrefix<V>(a: Dict<V>, b: Dict<V>)
    requires Valid(a)
    ensures |Overlay(a, b)| >= |a|
    ensures KeysOf(Overlay(a, b))[..|a|] == KeysOf(a)
    decreases |b|
  {
    if |b| > 0 {
      var a' := Put(a, b[0].0, b[0].1);
      OverlayKeepsPrefix(a', b[1..]);
      assert KeysOf(a')[..|a|] == KeysOf(a) by {
        if !Has(a, b[0].0) {
          assert a' == a + [(b[0].0, b[0].1)];
        }
      }
      assert KeysOf(Overlay(a, b))[..|a|] == KeysOf(Overlay(a, b))[..|a'|][..|a|];
    }
  }
}

=== FILE: eyes.dfy ===
/** The eye controller: linear mapping of a face position onto gaze angles,
    per-axis inversion and right-eye trim, clamping to the rig's ranges, the
    batched gaze write, centering, and the blink decision with its
    close-then-reopen write sequence.

    The servo bus is represented by the list of writes a call issues, and the
    position callback by the list of angle tables it is handed. The clock and
    the random draw of a blink are inputs. */
module Eyes {
  import opened Common
  import opened Dict
  import opened Rig

  // ---------------------------------------------------------------------
  // Linear mapping

  /** `map_value`: the affine map sending `[inMin, inMax]` onto
      `[outMin, outMax]` (Python true division on the coordinates). */
  function MapValue(value: real, inMin: real, inMax: real, outMin: real, outMax: real): real
    requires inMin != inMax
  {
    (value - inMin) * (outMax - outMin) / (inMax - inMin) + outMin
  }

  lemma MapValueEndpoints(inMin: real, inMax: real, outMin: real, outMax: real)
    requires inMin != inMax
    ensures MapValue(inMin, inMin, inMax, outMin, outMax) == outMin
    ensures MapValue(inMax, inMin, inMax, outMin, outMax) == outMax
  {
    var span := inMax - inMin;
    assert span * (outMax - outMin) / span == outMax - outMin;
  }

  /** The middle of the input interval goes to the middle of the output one. */
  lemma MapValueMidpoint(inMin: real, inMax: real, outMin: real, outMax: real)
    requires inMin != inMax
    ensures MapValue((inMin + inMax) / 2.0, inMin, inMax, outMin, outMax) == (outMin + outMax) / 2.0
  {
    var span := inMax - inMin;
    assert (inMin + inMax) / 2.0 - inMin == span / 2.0;
    assert span / 2.0 * (outMax - outMin) / span == (outMax - outMin) / 2.0;
  }

  /** Mapping back with the intervals swapped recovers the input: the map is
      a bijection whenever the output interval is non-degenerate. */
  lemma MapValueRoundTrip(v: real, a: real, b: real, c: real, d: real)
    requires a != b && c != d
    ensures MapValue(MapValue(v, a, b, c, d), c, d, a, b) == v
  {
    var u := MapValue(v, a, b, c, d);
    assert u - c == (v - a) * (d - c) / (b - a);
    assert (v - a) * (d - c) / (b - a) * (b - a) / (d - c) == v - a;
  }

  lemma DivUnit(a: real, b: real)
    requires 0.0 <= a <= b && 0.0 < b
    ensures 0.0 <= a / b <= 1.0
  {
  }

  lemma DivThenScale(a: real, d: real, s: real)
    requires s != 0.0
    ensures a * d / s == (a / s) * d
  {
    var q := a / s;
    assert q * s == a;
    assert (q * d) * s == (q * s) * d;
  }

  /** The mapped value is the input's share of the way through the input
      interval, scaled to the output interval. */
  lemma MapValueScaled(v: real, inMin: real, inMax: real, outMin: real, outMax: real)
    requires inMin != inMax
    ensures MapValue(v, inMin, inMax, outMin, outMax) == ((v - inMin) / (inMax - inMin)) * (outMax - outMin) + outMin
  {
    DivThenScale(v - inMin, outMax - outMin, inMax - inMin);
  }

  lemma ScaleUnit(t: real, d: real)
    requires 0.0 <= t <= 1.0
    ensures d >= 0.0 ==> 0.0 <= t * d <= d
    ensures d <= 0.0 ==> d <= t * d <= 0.0
  {
    assert t * d - d == (t - 1.0) * d;
  }

  /** Inside the input interval the result lies between the output bounds,
      in whichever order they are given. */
  lemma MapValueBetween(v: real, inMin: real, inMax: real, outMin: real, outMax: real)
    requires inMin < inMax && inMin <= v <= inMax
    ensures Min(outMin, outMax) <= MapValue(v, inMin, inMax, outMin, outMax) <= Max(outMin, outMax)
  {
    var t := (v - inMin) / (inMax - inMin);
    var d := outMax - outMin;
    DivUnit(v - inMin, inMax - inMin);
    ScaleUnit(t, d);
    var m := t * d;
    MapValueScaled(v, inMin, inMax, outMin, outMax);
    assert MapValue(v, inMin, inMax, outMin, outMax) == m + outMin;
    if d >= 0.0 {
      assert 0.0 <= m <= d;
      assert Min(outMin, outMax) == outMin && Max(outMin, outMax) == outMax;
    } else {
      assert d <= m <= 0.0;
      assert Min(outMin, outMax) == outMax && Max(outMin, outMax) == outMin;
    }
  }

  // ---------------------------------------------------------------------
  // Controller state

  const BlinkInterval: real := 5.0
  const BlinkProbability: real := 0.01
  const RightEyeXOffset: real := 0.0
  const RightEyeYOffset: real := 10.0

  /** `kitPresent` is false when the controller was built without a servo
      kit; `hasCallback` says whether a position callback was given. */
  datatype EyeController = EyeController(
    rig: RigConfig,
    kitPresent: bool,
    hasCallback: bool,
    lastBlinkTime: real,
    currentAngles: Dict<real>)

  /** A new controller on `rig`: no angle recorded yet, and no blink so
      far (the blink clock at 0). */
  function NewController(rig: RigConfig, kitPresent: bool, hasCallback: bool): (c: EyeController)
    ensures c.rig == rig && c.kitPresent == kitPresent && c.hasCallback == hasCallback
    ensures Valid(c.currentAngles) && KeySet(c.currentAngles) == {} && c.lastBlinkTime == 0.0
  {
    EyeController(rig, kitPresent, hasCallback, 0.0, [])
  }

  /** What a controller call leaves behind: the new controller, the bus
      writes in order, and the angle tables handed to the callback. */
  datatype EyeOutput = EyeOutput(ctrl: EyeController, writes: seq<ServoWrite>, updates: seq<Dict<real>>)

  function Unchanged(c: EyeController): (o: EyeOutput)
    ensures o.ctrl == c && o.writes == [] && o.updates == []
  {
    EyeOutput(c, [], [])
  }

  /** Clamping of an angle to the range the rig gives `servo`. */
  function ClampTo(rig: RigConfig, servo: string, angle: real): real
  {
    var range := GetAngleRange(rig, servo);
    Clamp(range.lo, range.hi, angle)
  }

  lemma ClampToInRange(rig: RigConfig, servo: string, angle: real)
    requires WellFormed(rig)
    ensures GetAngleRange(rig, servo).Contains(ClampTo(rig, servo, angle))
  {
    RangeOrdered(rig, servo);
  }

  /** `set_servo_angle`: without a kit, or for a servo the rig does not
      list, nothing happens; otherwise the clamped angle is written to the
      servo's channel and recorded. */
  function SetServoAngle(c: EyeController, servo: string, angle: real): (o: EyeOutput)
    requires Valid(c.currentAngles)
    ensures Valid(o.ctrl.currentAngles)
    ensures o.ctrl.rig == c.rig && o.ctrl.kitPresent == c.kitPresent && o.ctrl.hasCallback == c.hasCallback
    ensures o.ctrl.lastBlinkTime == c.lastBlinkTime
    ensures !c.kitPresent || !Has(c.rig.channels, servo) ==> o == Unchanged(c)
    ensures c.kitPresent && Has(c.rig.channels, servo) ==>
      && o.writes == [ServoWrite(GetChannel(c.rig, servo).value, ClampTo(c.rig, servo, angle))]
      && Get(o.ctrl.currentAngles, servo) == Some(ClampTo(c.rig, servo, angle))
      && (forall k :: k != servo ==> Get(o.ctrl.currentAngles, k) == Get(c.currentAngles, k))
      && o.updates == if c.hasCallback then [o.ctrl.currentAngles] else []
  {
    if !c.kitPresent then Unchanged(c)
    else match GetChannel(c.rig, servo)
      case None => Unchanged(c)
      case Some(channel) =>
        var a := ClampTo(c.rig, servo, angle);
        var angles := Put(c.currentAngles, servo, a);
        EyeOutput(c.(currentAngles := angles), [ServoWrite(channel, a)], if c.hasCallback then [angles] else [])
  }

  /** Successive `set_servo_angle` calls, one per entry, in order. */
  function SetAll(c: EyeController, entries: seq<(string, real)>): (o: EyeOutput)
    requires Valid(c.currentAngles)
    ensures Valid(o.ctrl.currentAngles)
    ensures o.ctrl.rig == c.rig && o.ctrl.kitPresent == c.kitPresent && o.ctrl.hasCallback == c.hasCallback
    ensures o.ctrl.lastBlinkTime == c.lastBlinkTime
    ensures !c.kitPresent ==> o == Unchanged(c)
    decreases |entries|
  {
    if |entries| == 0 then Unchanged(c)
    else
      var first := SetServoAngle(c, entries[0].0, entries[0].1);
      var rest := SetAll(first.ctrl, entries[1..]);
      EyeOutput(rest.ctrl, first.writes + rest.writes, first.updates + rest.updates)
  }

  /** The writes a run of `set_servo_angle` calls issues when every servo is
      listed by the rig: each entry's clamped angle on its own channel. */
  function ListedWrites(rig: RigConfig, entries: seq<(string, real)>): (w: seq<ServoWrite>)
    requires forall i :: 0 <= i < |entries| ==> Has(rig.channels, entries[i].0)
    ensures |w| == |entries|
  {
    seq(|entries|, i requires 0 <= i < |entries| =>
      ServoWrite(GetChannel(rig, entries[i].0).value, ClampTo(rig, entries[i].0, entries[i].1)))
  }

  predicate DistinctServos(entries: seq<(string, real)>)
  {
    forall i, j :: 0 <= i < j < |entries| ==> entries[i].0 != entries[j].0
  }

  /** With a kit and only listed, distinct servos, successive writes issue
      one clamped write per entry in order and record each entry's clamped
      angle, leaving every other recorded angle alone. */
  lemma {:induction false} SetAllListed(c: EyeController, entries: seq<(string, real)>)
    requires Valid(c.currentAngles) && c.kitPresent
    requires forall i :: 0 <= i < |entries| ==> Has(c.rig.channels, entries[i].0)
    requires DistinctServos(entries)
    ensures SetAll(c, entries).writes == ListedWrites(c.rig, entries)
    ensures forall i :: 0 <= i < |entries| ==>
      Get(SetAll(c, entries).ctrl.currentAngles, entries[i].0) == Some(ClampTo(c.rig, entries[i].0, entries[i].1))
    ensures forall k :: (forall i :: 0 <= i < |entries| ==> entries[i].0 != k) ==>
      Get(SetAll(c, entries).ctrl.currentAngles, k) == Get(c.currentAngles, k)
  {
    WritesOfListed(c, entries);
    SetAllRecords(c, entries);
    forall k | (forall i :: 0 <= i < |entries| ==> entries[i].0 != k)
      ensures Get(SetAll(c, entries).ctrl.currentAngles, k) == Get(c.currentAngles, k)
    {
      SetAllOthers(c, entries, k);
    }
  }

  /** Every entry's clamped angle is what is recorded for its servo. */
  lemma {:induction false} SetAllRecords(c: EyeController, entries: seq<(string, real)>)
    requires Valid(c.currentAngles) && c.kitPresent
    requires forall i :: 0 <= i < |entries| ==> Has(c.rig.channels, entries[i].0)
    requires DistinctServos(entries)
    ensures forall i :: 0 <= i < |entries| ==>
      Get(SetAll(c, entries).ctrl.currentAngles, entries[i].0) == Some(ClampTo(c.rig, entries[i].0, entries[i].1))
    decreases |entries|
  {
    if |entries| > 0 {
      var first := SetServoAngle(c, entries[0].0, entries[0].1);
      var tail := entries[1..];
      assert forall j :: 0 <= j < |tail| ==> tail[j] == entries[j + 1];
      SetAllRecords(first.ctrl, tail);
      assert forall j :: 0 <= j < |tail| ==> tail[j].0 != entries[0].0;
      SetAllOthers(first.ctrl, tail, entries[0].0);
      forall i | 0 < i < |entries|
        ensures Get(SetAll(c, entries).ctrl.currentAngles, entries[i].0) == Some(ClampTo(c.rig, entries[i].0, entries[i].1))
      {
        assert entries[i] == tail[i - 1];
      }
    }
  }

  /** A servo no entry names keeps its recorded angle. */
  lemma {:induction false} SetAllOthers(c: EyeController, entries: seq<(string, real)>, k: string)
    requires Valid(c.currentAngles)
    requires forall i :: 0 <= i < |entries| ==> entries[i].0 != k
    ensures Get(SetAll(c, entries).ctrl.currentAngles, k) == Get(c.currentAngles, k)
    decreases |entries|
  {
    if |entries| > 0 {
      var first := SetServoAngle(c, entries[0].0, entries[0].1);
      var tail := entries[1..];
      assert forall j :: 0 <= j < |tail| ==> tail[j] == entries[j + 1];
      SetAllOthers(first.ctrl, tail, k);
    }
  }

  // ---------------------------------------------------------------------
  // Centering

  /** Every listed servo paired with its default angle, in channel order. */
  function DefaultEntries(rig: RigConfig): (e: seq<(string, real)>)
    ensures |e| == |rig.channels|
    ensures forall i :: 0 <= i < |e| ==> e[i].0 == rig.channels[i].0
  {
    seq(|rig.channels|, i requires 0 <= i < |rig.channels| => (rig.channels[i].0, GetDefaultAngle(rig, rig.channels[i].0)))
  }

  /** `center_eyes`: every listed servo to its default, in channel order. */
  function CenterEyes(c: EyeController): (o: EyeOutput)
    requires Valid(c.currentAngles)
    ensures Valid(o.ctrl.currentAngles)
    ensures o.ctrl.rig == c.rig && o.ctrl.kitPresent == c.kitPresent && o.ctrl.hasCallback == c.hasCallback
    ensures o.ctrl.lastBlinkTime == c.lastBlinkTime
    ensures !c.kitPresent ==> o == Unchanged(c)
  {
    if !c.kitPresent then Unchanged(c) else SetAll(c, DefaultEntries(c.rig))
  }

  /** On a well-formed rig with a kit, centering writes each channel its
      default angle unchanged by clamping, once, in channel order, and
      afterwards every listed servo is recorded at its default. */
  lemma CenterWritesDefaults(c: EyeController)
    requires Valid(c.currentAngles) && c.kitPresent && WellFormed(c.rig)
    ensures |CenterEyes(c).writes| == |c.rig.channels|
    ensures forall i :: 0 <= i < |c.rig.channels| ==>
      CenterEyes(c).writes[i] == ServoWrite(c.rig.channels[i].1, GetDefaultAngle(c.rig, c.rig.channels[i].0))
    ensures forall i :: 0 <= i < |c.rig.channels| ==>
      Get(CenterEyes(c).ctrl.currentAngles, c.rig.channels[i].0) == Some(GetDefaultAngle(c.rig, c.rig.channels[i].0))
  {
    var rig := c.rig;
    var e := DefaultEntries(rig);
    assert forall i :: 0 <= i < |e| ==> Has(rig.channels, e[i].0);
    SetAllListed(c, e);
    forall i | 0 <= i < |rig.channels|
      ensures GetChannel(rig, e[i].0).value == rig.channels[i].1
      ensures ClampTo(rig, e[i].0, e[i].1) == e[i].1
    {
      GetAt(rig.channels, i);
      DefaultWithinRange(rig, e[i].0);
    }
  }

  // ---------------------------------------------------------------------
  // Blinking

  /** The blink decision: forced, or the interval has passed and the draw
      fell under the probability. */
  predicate ShouldBlink(c: EyeController, force: bool, now: real, draw: real)
  {
    force || (now - c.lastBlinkTime > BlinkInterval && draw < BlinkProbability)
  }

  /** Closed-eyelid entries followed by the reopening entries. */
  function BlinkEntries(rig: RigConfig): (e: seq<(string, real)>)
    ensures rig.blinkAngles.None? ==> e == []
    ensures rig.blinkAngles.Some? ==> |e| == 2 * |rig.blinkAngles.value|
  {
    match rig.blinkAngles
    case None => []
    case Some(b) =>
      b + seq(|b|, i requires 0 <= i < |b| => (b[i].0, GetDefaultAngle(rig, b[i].0)))
  }

  /** `blink_eyes(force)`: when a blink happens, each eyelid goes to its
      closed angle and then back to its default, and the blink time is
      recorded; otherwise nothing changes. */
  function BlinkEyes(c: EyeController, force: bool, now: real, draw: real): (o: EyeOutput)
    requires Valid(c.currentAngles)
    ensures Valid(o.ctrl.currentAngles)
    ensures o.ctrl.rig == c.rig && o.ctrl.kitPresent == c.kitPresent && o.ctrl.hasCallback == c.hasCallback
    ensures !c.kitPresent || !ShouldBlink(c, force, now, draw) ==> o == Unchanged(c)
    ensures c.kitPresent && ShouldBlink(c, force, now, draw) ==> o.ctrl.lastBlinkTime == now
  {
    if !c.kitPresent || !ShouldBlink(c, force, now, draw) then Unchanged(c)
    else
      var o := SetAll(c, BlinkEntries(c.rig));
      o.(ctrl := o.ctrl.(lastBlinkTime := now))
  }

  /** A rig without a blink table blinks silently: the blink time moves but
      no servo is written. */
  lemma BlinkWithoutTable(c: EyeController, force: bool, now: real, draw: real)
    requires Valid(c.currentAngles) && c.rig.blinkAngles.None?
    ensures BlinkEyes(c, force, now, draw).writes == []
  {
  }

  /** On a well-formed rig a blink writes every eyelid's closed angle, in
      table order, then every eyelid's default angle, all unchanged by
      clamping. */
  lemma BlinkCloseThenReopen(c: EyeController, force: bool, now: real, draw: real)
    requires Valid(c.currentAngles) && c.kitPresent && WellFormed(c.rig)
    requires ShouldBlink(c, force, now, draw) && c.rig.blinkAngles.Some?
    ensures var b := c.rig.blinkAngles.value;
      var w := BlinkEyes(c, force, now, draw).writes;
      && |w| == 2 * |b|
      && (forall i :: 0 <= i < |b| ==>
           GetChannel(c.rig, b[i].0) == Some(w[i].channel) && w[i].angle == b[i].1)
      && (forall i :: 0 <= i < |b| ==>
           GetChannel(c.rig, b[i].0) == Some(w[|b| + i].channel) && w[|b| + i].angle == GetDefaultAngle(c.rig, b[i].0))
  {
    var rig := c.rig;
    var b := rig.blinkAngles.value;
    var e := BlinkEntries(rig);
    BlinkEntriesListed(rig);
    WritesOfListed(c, e);
    var w := ListedWrites(rig, e);
    assert BlinkEyes(c, force, now, draw).writes == w;
    forall i | 0 <= i < |b|
      ensures GetChannel(rig, b[i].0) == Some(w[i].channel) && w[i].angle == b[i].1
      ensures GetChannel(rig, b[i].0) == Some(w[|b| + i].channel) && w[|b| + i].angle == GetDefaultAngle(rig, b[i].0)
    {
      BlinkWithinRange(rig, i);
      DefaultWithinRange(rig, b[i].0);
    }
  }

  /** The blink entries of a well-formed rig name listed servos: the closed
      angles first, then each eyelid's default. */
  lemma BlinkEntriesListed(rig: RigConfig)
    requires WellFormed(rig) && rig.blinkAngles.Some?
    ensures var b := rig.blinkAngles.value;
      var e := BlinkEntries(rig);
      && (forall i :: 0 <= i < |e| ==> Has(rig.channels, e[i].0))
      && (forall i :: 0 <= i < |b| ==> e[i] == b[i] && e[|b| + i] == (b[i].0, GetDefaultAngle(rig, b[i].0)))
  {
    var b := rig.blinkAngles.value;
    var e := BlinkEntries(rig);
    forall i | 0 <= i < |e| ensures Has(rig.channels, e[i].0) {
      var k := if i < |b| then i else i - |b|;
      assert e[i].0 == b[k].0;
      assert b[k].0 in KeySet(b);
      assert b[k].0 in KeySet(rig.channels);
    }
  }

  /** One write of a run of listed servos, without requiring distinct names. */
  lemma ListedWritesAt(c: EyeController, entries: seq<(string, real)>, i: nat)
    requires Valid(c.currentAngles) && c.kitPresent
    requires forall j :: 0 <= j < |entries| ==> Has(c.rig.channels, entries[j].0)
    requires i < |entries|
    ensures |SetAll(c, entries).writes| == |entries|
    ensures SetAll(c, entries).writes[i] ==
      ServoWrite(GetChannel(c.rig, entries[i].0).value, ClampTo(c.rig, entries[i].0, entries[i].1))
  {
    WritesOfListed(c, entries);
  }

  lemma {:induction false} WritesOfListed(c: EyeController, entries: seq<(string, real)>)
    requires Valid(c.currentAngles) && c.kitPresent
    requires forall j :: 0 <= j < |entries| ==> Has(c.rig.channels, entries[j].0)
    ensures SetAll(c, entries).writes == ListedWrites(c.rig, entries)
    decreases |entries|
  {
    if |entries| > 0 {
      var first := SetServoAngle(c, entries[0].0, entries[0].1);
      var tail := entries[1..];
      assert forall j :: 0 <= j < |tail| ==> Has(first.ctrl.rig.channels, tail[j].0) by {
        forall j | 0 <= j < |tail| ensures Has(first.ctrl.rig.channels, tail[j].0) { assert tail[j] == entries[j + 1]; }
      }
      WritesOfListed(first.ctrl, tail);
      ListedWritesCons(c.rig, entries);
    }
  }

  lemma ListedWritesCons(rig: RigConfig, entries: seq<(string, real)>)
    requires |entries| > 0 && forall i :: 0 <= i < |entries| ==> Has(rig.channels, entries[i].0)
    ensures ListedWrites(rig, entries) ==
      [ServoWrite(GetChannel(rig, entries[0].0).value, ClampTo(rig, entries[0].0, entries[0].1))] + ListedWrites(rig, entries[1..])
  {
    var tail := entries[1..];
    assert forall j :: 0 <= j < |tail| ==> tail[j] == entries[j + 1];
  }

  // ---------------------------------------------------------------------
  // Gaze

  /** How one gaze axis is computed. X axes read the face's x coordinate
      across the frame width, Y axes its y coordinate across the height.
      `zeroToHi` says whether coordinate 0 maps to the top of the servo's
      range (the inverted direction); `trim` is the right eye's offset,
      added before the axis is clamped to its range. */
  datatype AxisRule = AxisRule(name: string, readsX: bool, zeroToHi: bool, trim: Option<real>)

  /** The six axes `track_position` looks for, in the order it computes
      them. Only the left eye's Y axis maps the top of the frame to the
      bottom of its range. */
  const GazeRules: seq<AxisRule> := [
    AxisRule("left_eye_x", true, true, None),
    AxisRule("left_eye_y", false, false, None),
    AxisRule("right_eye_x", true, true, Some(RightEyeXOffset)),
    AxisRule("right_eye_y", false, true, Some(RightEyeYOffset)),
    AxisRule("eye_x", true, true, None),
    AxisRule("eye_y", false, true, None)
  ]

  /** The rules whose axis the rig lists, in rule order. */
  function PresentAxes(rig: RigConfig, rules: seq<AxisRule>): (r: seq<AxisRule>)
    ensures forall i :: 0 <= i < |r| ==> Has(rig.channels, r[i].name)
    ensures |r| <= |rules|
  {
    if |rules| == 0 then []
    else (if Has(rig.channels, rules[0].name) then [rules[0]] else []) + PresentAxes(rig, rules[1..])
  }

  function Coordinate(rule: AxisRule, faceX: int, faceY: int): real
  {
    if rule.readsX then faceX as real else faceY as real
  }

  function Extent(rule: AxisRule, width: int, height: int): real
  {
    if rule.readsX then width as real else height as real
  }

  /** The angle of one axis for a face position (before the batch clamp). */
  function AxisAngle(rig: RigConfig, rule: AxisRule, faceX: int, faceY: int, width: int, height: int): real
    requires Extent(rule, width, height) != 0.0
  {
    var range := GetAngleRange(rig, rule.name);
    var extent := Extent(rule, width, height);
    var coordinate := Coordinate(rule, faceX, faceY);
    var mapped :=
      if rule.zeroToHi then MapValue(coordinate, 0.0, extent, range.hi, range.lo)
      else MapValue(coordinate, 0.0, extent, range.lo, range.hi);
    match rule.trim
    case None => mapped
    case Some(t) => Clamp(range.lo, range.hi, mapped + t)
  }

  /** The angles of the given axes, or `None` when one of them needs a zero
      frame dimension, a mapping with no defined value. */
  function AxesBatch(rig: RigConfig, axes: seq<AxisRule>, faceX: int, faceY: int, width: int, height: int): (r: Option<Dict<real>>)
    ensures r.None? <==> exists i :: 0 <= i < |axes| && Extent(axes[i], width, height) == 0.0
    ensures r.Some? ==> |r.value| == |axes|
    ensures r.Some? ==> forall i :: 0 <= i < |axes| ==>
      r.value[i] == (axes[i].name, AxisAngle(rig, axes[i], faceX, faceY, width, height))
  {
    if forall i :: 0 <= i < |axes| ==> Extent(axes[i], width, height) != 0.0 then
      Some(seq(|axes|, i requires 0 <= i < |axes| => (axes[i].name, AxisAngle(rig, axes[i], faceX, faceY, width, height))))
    else None
  }

  /** The batch of gaze angles `track_position` computes before writing any
      of them. A face is never detected in a frame of zero size (the
      detector's smallest face is 30 by 30 pixels); the model leaves that
      unreachable case without a batch (`None`), and so without writes. */
  function GazeBatch(rig: RigConfig, faceX: int, faceY: int, width: int, height: int): Option<Dict<real>>
  {
    AxesBatch(rig, PresentAxes(rig, GazeRules), faceX, faceY, width, height)
  }

  /** The angle the batch loop records for `servo`: clamped to its range
      when the servo has a channel, the computed angle as is otherwise. */
  function Recorded(rig: RigConfig, servo: string, angle: real): real
  {
    if GetChannel(rig, servo).Some? then ClampTo(rig, servo, angle) else angle
  }

  /** Entry `i` is the last one of the batch naming its servo. */
  predicate LastNaming(batch: seq<(string, real)>, i: int)
    requires 0 <= i < |batch|
  {
    forall j :: i < j < |batch| ==> batch[j].0 != batch[i].0
  }

  /** The batch loop of `track_position`: each angle is clamped and written
      when its servo has a channel, and recorded either way. The table ends
      up with the old keys plus the batch's; a servo the batch does not
      name keeps its record, and a named one holds the angle recorded for
      its last entry. */
  function WriteBatch(rig: RigConfig, angles: Dict<real>, batch: seq<(string, real)>): (r: (Dict<real>, seq<ServoWrite>))
    requires Valid(angles)
    ensures Valid(r.0)
    ensures KeySet(r.0) == KeySet(angles) + KeySet(batch)
    ensures forall k :: !Has(batch, k) ==> Get(r.0, k) == Get(angles, k)
    ensures forall i :: 0 <= i < |batch| && LastNaming(batch, i) ==>
      Get(r.0, batch[i].0) == Some(Recorded(rig, batch[i].0, batch[i].1))
    decreases |batch|
  {
    if |batch| == 0 then (angles, [])
    else
      var servo := batch[0].0;
      var a := Recorded(rig, servo, batch[0].1);
      var written := match GetChannel(rig, servo) case Some(channel) => [ServoWrite(channel, a)] case None => [];
      var rest := WriteBatch(rig, Put(angles, servo, a), batch[1..]);
      BatchTail(batch);
      (rest.0, written + rest.1)
  }

  /** How the batch splits at its first entry. */
  lemma BatchTail(batch: seq<(string, real)>)
    requires |batch| > 0
    ensures KeySet(batch) == {batch[0].0} + KeySet(batch[1..])
    ensures forall k :: Has(batch[1..], k) ==> Has(batch, k)
    ensures forall k :: !Has(batch, k) ==> k != batch[0].0
    ensures forall i :: 0 < i < |batch| && LastNaming(batch, i) ==>
      LastNaming(batch[1..], i - 1) && batch[1..][i - 1] == batch[i]
    ensures LastNaming(batch, 0) ==> !Has(batch[1..], batch[0].0)
  {
    assert forall j :: 0 <= j < |batch[1..]| ==> batch[1..][j] == batch[j + 1];
    assert batch[0].0 in KeySet(batch);
  }

  /** `track_position`: compute every axis first, then write the batch and
      hand the (unclamped) batch to the callback once, if it is non-empty. */
  function TrackPosition(c: EyeController, faceX: int, faceY: int, width: int, height: int): (o: EyeOutput)
    requires Valid(c.currentAngles)
    ensures Valid(o.ctrl.currentAngles)
    ensures o.ctrl.rig == c.rig && o.ctrl.kitPresent == c.kitPresent && o.ctrl.hasCallback == c.hasCallback
    ensures o.ctrl.lastBlinkTime == c.lastBlinkTime
    ensures !c.kitPresent || GazeBatch(c.rig, faceX, faceY, width, height).None? ==> o == Unchanged(c)
    ensures c.kitPresent && GazeBatch(c.rig, faceX, faceY, width, height).Some? ==>
      var batch := GazeBatch(c.rig, faceX, faceY, width, height).value;
      && o.updates == (if c.hasCallback && |batch| > 0 then [batch] else [])
      && KeySet(o.ctrl.currentAngles) == KeySet(c.currentAngles) + KeySet(batch)
      && (forall k :: !Has(batch, k) ==> Get(o.ctrl.currentAngles, k) == Get(c.currentAngles, k))
      && (forall i :: 0 <= i < |batch| && LastNaming(batch, i) ==>
            Get(o.ctrl.currentAngles, batch[i].0) == Some(Recorded(c.rig, batch[i].0, batch[i].1)))
  {
    if !c.kitPresent then Unchanged(c)
    else match GazeBatch(c.rig, faceX, faceY, width, height)
      case None => Unchanged(c)
      case Some(batch) =>
        var written := WriteBatch(c.rig, c.currentAngles, batch);
        EyeOutput(c.(currentAngles := written.0), written.1,
                  if c.hasCallback && |batch| > 0 then [batch] else [])
  }

  /** Every name in a gaze batch is listed by the rig. */
  lemma BatchListed(rig: RigConfig, faceX: int, faceY: int, width: int, height: int)
    requires GazeBatch(rig, faceX, faceY, width, height).Some?
    ensures var b := GazeBatch(rig, faceX, faceY, width, height).value;
      forall i :: 0 <= i < |b| ==> Has(rig.channels, b[i].0)
  {
    var axes := PresentAxes(rig, GazeRules);
    var b := GazeBatch(rig, faceX, faceY, width, height).value;
    assert forall i :: 0 <= i < |b| ==> b[i].0 == axes[i].name;
  }

  /** When every batch servo has a channel, the batch loop writes each
      clamped angle on that channel, in batch order, and on a well-formed rig
      every written angle lies in its servo's range. */
  lemma {:induction false} WriteBatchListed(rig: RigConfig, angles: Dict<real>, batch: seq<(string, real)>)
    requires Valid(angles)
    requires forall i :: 0 <= i < |batch| ==> Has(rig.channels, batch[i].0)
    ensures WriteBatch(rig, angles, batch).1 == ListedWrites(rig, batch)
    decreases |batch|
  {
    if |batch| > 0 {
      var servo := batch[0].0;
      var a := ClampTo(rig, servo, batch[0].1);
      WriteBatchCons(rig, angles, batch);
      ListedWritesCons(rig, batch);
      var rest := batch[1..];
      assert forall i :: 0 <= i < |rest| ==> Has(rig.channels, rest[i].0) by {
        assert forall i :: 0 <= i < |rest| ==> rest[i] == batch[i + 1];
      }
      WriteBatchListed(rig, Put(angles, servo, a), rest);
    }
  }

  /** The batch loop's first entry: a listed servo is written its clamped
      angle, which is recorded before the rest of the batch runs. */
  lemma WriteBatchCons(rig: RigConfig, angles: Dict<real>, batch: seq<(string, real)>)
    requires Valid(angles) && |batch| > 0 && Has(rig.channels, batch[0].0)
    ensures var a := ClampTo(rig, batch[0].0, batch[0].1);
      WriteBatch(rig, angles, batch).1 ==
        [ServoWrite(GetChannel(rig, batch[0].0).value, a)] + WriteBatch(rig, Put(angles, batch[0].0, a), batch[1..]).1
  {
  }

  /** Every angle `track_position` sends to the bus lies in the range of the
      servo it is sent to, and there is one write per computed axis. */
  lemma TrackWritesInRange(c: EyeController, faceX: int, faceY: int, width: int, height: int)
    requires Valid(c.currentAngles) && c.kitPresent && WellFormed(c.rig)
    requires GazeBatch(c.rig, faceX, faceY, width, height).Some?
    ensures var b := GazeBatch(c.rig, faceX, faceY, width, height).value;
      var w := TrackPosition(c, faceX, faceY, width, height).writes;
      && |w| == |b|
      && forall i :: 0 <= i < |w| ==>
           w[i].channel == GetChannel(c.rig, b[i].0).value && GetAngleRange(c.rig, b[i].0).Contains(w[i].angle)
  {
    var b := GazeBatch(c.rig, faceX, faceY, width, height).value;
    BatchListed(c.rig, faceX, faceY, width, height);
    WriteBatchListed(c.rig, c.currentAngles, b);
    forall i | 0 <= i < |b| ensures GetAngleRange(c.rig, b[i].0).Contains(ClampTo(c.rig, b[i].0, b[i].1)) {
      ClampToInRange(c.rig, b[i].0, b[i].1);
    }
  }

  lemma PresentAxesStep(rig: RigConfig, rules: seq<AxisRule>)
    requires |rules| > 0
    ensures Has(rig.channels, rules[0].name) ==> PresentAxes(rig, rules) == [rules[0]] + PresentAxes(rig, rules[1..])
    ensures !Has(rig.channels, rules[0].name) ==> PresentAxes(rig, rules) == PresentAxes(rig, rules[1..])
  {
  }

  /** A rig listing the four per-eye axes and neither shared name computes
      those four, in rule order. */
  lemma PerEyeAxes(rig: RigConfig)
    requires Has(rig.channels, "left_eye_x") && Has(rig.channels, "left_eye_y")
    requires Has(rig.channels, "right_eye_x") && Has(rig.channels, "right_eye_y")
    requires !Has(rig.channels, "eye_x") && !Has(rig.channels, "eye_y")
    ensures PresentAxes(rig, GazeRules) == GazeRules[..4]
  {
    var r := GazeRules;
    FourOfSix(rig, r[0], r[1], r[2], r[3], r[4], r[5]);
    assert r == [r[0], r[1], r[2], r[3], r[4], r[5]];
    assert r[..4] == [r[0], r[1], r[2], r[3]];
  }

  /** Keeping the first four of six rules, in order. */
  lemma FourOfSix(rig: RigConfig, a0: AxisRule, a1: AxisRule, a2: AxisRule, a3: AxisRule, a4: AxisRule, a5: AxisRule)
    requires Has(rig.channels, a0.name) && Has(rig.channels, a1.name)
    requires Has(rig.channels, a2.name) && Has(rig.channels, a3.name)
    requires !Has(rig.channels, a4.name) && !Has(rig.channels, a5.name)
    ensures PresentAxes(rig, [a0, a1, a2, a3, a4, a5]) == [a0, a1, a2, a3]
  {
    PresentAxesCons(rig, a5, []);
    PresentAxesCons(rig, a4, [a5]);
    PresentAxesCons(rig, a3, [a4, a5]);
    PresentAxesCons(rig, a2, [a3, a4, a5]);
    PresentAxesCons(rig, a1, [a2, a3, a4, a5]);
    PresentAxesCons(rig, a0, [a1, a2, a3, a4, a5]);
  }

  lemma PresentAxesCons(rig: RigConfig, rule: AxisRule, rest: seq<AxisRule>)
    ensures PresentAxes(rig, [rule] + rest) == (if Has(rig.channels, rule.name) then [rule] else []) + PresentAxes(rig, rest)
  {
    assert ([rule] + rest)[1..] == rest;
  }

  /** The InMoov rig computes exactly the four per-eye axes, in the order
      left X, left Y, right X, right Y. */
  lemma InMoovGazeAxes()
    ensures PresentAxes(InMoov(), GazeRules) == GazeRules[..4]
  {
    var rig := InMoov();
    var ch := rig.channels;
    assert ch[0].0 == "left_eye_x" && ch[1].0 == "left_eye_y";
    assert ch[4].0 == "right_eye_x" && ch[5].0 == "right_eye_y";
    assert forall i :: 0 <= i < |ch| ==> ch[i].0 != "eye_x" && ch[i].0 != "eye_y";
    PerEyeAxes(rig);
  }

  lemma {:induction false} NoRuleListed(rig: RigConfig, rules: seq<AxisRule>)
    requires forall i :: 0 <= i < |rules| ==> !Has(rig.channels, rules[i].name)
    ensures PresentAxes(rig, rules) == []
  {
    if |rules| > 0 {
      assert !Has(rig.channels, rules[0].name);
      NoRuleListed(rig, rules[1..]);
    }
  }

  /** The computed axes are exactly the rules whose servo the rig lists. */
  lemma {:induction false} PresentAxesMembers(rig: RigConfig, rules: seq<AxisRule>, a: AxisRule)
    ensures a in PresentAxes(rig, rules) <==> a in rules && Has(rig.channels, a.name)
  {
    if |rules| > 0 {
      PresentAxesMembers(rig, rules[1..], a);
      assert rules == [rules[0]] + rules[1..];
    }
  }

  /** The rigs with shared axes name them `eyes_x`/`eyes_y` while the gaze
      code looks for `eye_x`/`eye_y`, so they get no gaze angles at all:
      the batch is empty and tracking writes nothing. */
  lemma SharedAxisRigsGetNoGaze(faceX: int, faceY: int, width: int, height: int)
    ensures GazeBatch(Original(), faceX, faceY, width, height) == Some([])
    ensures GazeBatch(Simple(), faceX, faceY, width, height) == Some([])
  {
    var o := Original();
    var s := Simple();
    assert KeysOf(o.channels) == ["eyes_x", "eyes_y", "left_upper_lid", "right_upper_lid",
                                  "left_lower_lid", "right_lower_lid"];
    assert KeysOf(s.channels) == ["eyes_x", "eyes_y"];
    forall i | 0 <= i < |GazeRules| ensures !Has(o.channels, GazeRules[i].name) && !Has(s.channels, GazeRules[i].name) {
      HasIffInKeys(o.channels, GazeRules[i].name);
      HasIffInKeys(s.channels, GazeRules[i].name);
    }
    NoRuleListed(o, GazeRules);
    NoRuleListed(s, GazeRules);
  }

  /** X axes are inverted: a face at the left edge looks to the top of the
      range, one at the right edge to the bottom, one at the centre to the
      middle (untrimmed axes; the right eye's trim is applied on top). */
  lemma XAxisInverted(rig: RigConfig, rule: AxisRule, faceY: int, width: int, height: int)
    requires rule.readsX && rule.zeroToHi && rule.trim.None? && width != 0
    ensures AxisAngle(rig, rule, 0, faceY, width, height) == GetAngleRange(rig, rule.name).hi
    ensures AxisAngle(rig, rule, width, faceY, width, height) == GetAngleRange(rig, rule.name).lo
    ensures width % 2 == 0 ==>
      AxisAngle(rig, rule, width / 2, faceY, width, height) ==
        (GetAngleRange(rig, rule.name).lo + GetAngleRange(rig, rule.name).hi) / 2.0
  {
    var range := GetAngleRange(rig, rule.name);
    MapValueEndpoints(0.0, width as real, range.hi, range.lo);
    if width % 2 == 0 {
      assert (width / 2) as real == (0.0 + width as real) / 2.0;
      MapValueMidpoint(0.0, width as real, range.hi, range.lo);
    }
  }

  /** The left eye's Y axis maps the top of the frame to the bottom of its
      range; the right eye's and the shared Y axis map it to the top. */
  lemma YAxisDirections(rig: RigConfig, faceX: int, width: int, height: int)
    requires height != 0
    ensures AxisAngle(rig, GazeRules[1], faceX, 0, width, height) == GetAngleRange(rig, "left_eye_y").lo
    ensures AxisAngle(rig, GazeRules[1], faceX, height, width, height) == GetAngleRange(rig, "left_eye_y").hi
    ensures AxisAngle(rig, GazeRules[5], faceX, 0, width, height) == GetAngleRange(rig, "eye_y").hi
    ensures AxisAngle(rig, GazeRules[5], faceX, height, width, height) == GetAngleRange(rig, "eye_y").lo
    ensures AxisAngle(rig, GazeRules[3], faceX, 0, width, height) ==
      Clamp(GetAngleRange(rig, "right_eye_y").lo, GetAngleRange(rig, "right_eye_y").hi,
            GetAngleRange(rig, "right_eye_y").hi + RightEyeYOffset)
  {
    var l := GetAngleRange(rig, "left_eye_y");
    var s := GetAngleRange(rig, "eye_y");
    var r := GetAngleRange(rig, "right_eye_y");
    MapValueEndpoints(0.0, height as real, l.lo, l.hi);
    MapValueEndpoints(0.0, height as real, s.hi, s.lo);
    MapValueEndpoints(0.0, height as real, r.hi, r.lo);
  }

  /** The right eye's angle is the mapped angle plus its trim, clamped to
      the range; with the trim of 10 degrees on Y, the trimmed angle never
      leaves the servo's range. */
  lemma RightEyeTrim(rig: RigConfig, faceX: int, faceY: int, width: int, height: int)
    requires WellFormed(rig) && width != 0 && height != 0
    ensures var r := GetAngleRange(rig, "right_eye_x");
      AxisAngle(rig, GazeRules[2], faceX, faceY, width, height) ==
        Clamp(r.lo, r.hi, MapValue(faceX as real, 0.0, width as real, r.hi, r.lo) + RightEyeXOffset)
    ensures var r := GetAngleRange(rig, "right_eye_y");
      AxisAngle(rig, GazeRules[3], faceX, faceY, width, height) ==
        Clamp(r.lo, r.hi, MapValue(faceY as real, 0.0, height as real, r.hi, r.lo) + RightEyeYOffset)
    ensures GetAngleRange(rig, "right_eye_y").Contains(AxisAngle(rig, GazeRules[3], faceX, faceY, width, height))
  {
    RangeOrdered(rig, "right_eye_y");
  }
}

=== FILE: face_loop.dfy ===
/** The server's face-tracking side: starting and stopping tracking, and
    one pass of the tracking loop. A pass tracks the frame, shows a virtual
    gaze on the page, moves the physical eyes when an eye controller
    exists, blinks the virtual eyes now and then, and every thirtieth frame
    closes a jaw left open while the assistant is silent. The camera, the
    clock and the random draws are inputs. */
module FaceLoop {
  import opened Common
  import opened Dict
  import opened Json
  import opened Bus
  import opened Jaw
  import opened Visualizer
  import opened FaceTracking
  import opened Eyes
  import opened Rig
  import opened Server

  /** The events `update_eyes` emits when the eye controller hands it each
      recorded angle table in turn. */
  function CallbackEvents(updates: seq<Dict<real>>): (events: seq<Event>)
    ensures |events| <= |updates|
    ensures forall i :: 0 <= i < |events| ==> events[i].EyePositionUpdate?
    decreases |updates|
  {
    if |updates| == 0 then [] else UpdateEyes(updates[0]) + CallbackEvents(updates[1..])
  }

  // ---------------------------------------------------------------------
  // Virtual gaze

  const GazeAxes: seq<string> := ["left_eye_x", "left_eye_y", "right_eye_x", "right_eye_y"]

  /** The virtual horizontal angle: 120 degrees at the left edge of the
      frame down to 60 at the right (mirrored). */
  function VirtualX(faceX: int, width: int): real
    requires width != 0
  {
    MapValue(faceX as real, 0.0, width as real, 120.0, 60.0)
  }

  /** The virtual vertical angle: 60 degrees at the top of the frame up to
      120 at the bottom. */
  function VirtualY(faceY: int, height: int): real
    requires height != 0
  {
    MapValue(faceY as real, 0.0, height as real, 60.0, 120.0)
  }

  /** The gaze shown on the page for a face at `(faceX, faceY)`: both eyes
      get the same pair. A zero frame size, which a detected face never
      comes with, gives no gaze (`None`). */
  function VirtualGaze(faceX: int, faceY: int, width: int, height: int): (r: Option<Dict<real>>)
    ensures r.Some? <==> width != 0 && height != 0
    ensures r.Some? ==> KeysOf(r.value) == GazeAxes
    ensures r.Some? ==> r.value[0].1 == r.value[2].1 == VirtualX(faceX, width)
    ensures r.Some? ==> r.value[1].1 == r.value[3].1 == VirtualY(faceY, height)
  {
    if width == 0 || height == 0 then None
    else
      var x := VirtualX(faceX, width);
      var y := VirtualY(faceY, height);
      Some(Zip(GazeAxes, [x, y, x, y]))
  }

  /** The frame's edges map to the ends of the virtual range, its centre to
      straight ahead (90 degrees), and every point of the frame stays
      within 60 to 120 degrees. */
  lemma VirtualGazeRange(faceX: int, faceY: int, width: int, height: int)
    requires width > 0 && height > 0
    ensures faceX == 0 ==> VirtualX(faceX, width) == 120.0
    ensures faceX == width ==> VirtualX(faceX, width) == 60.0
    ensures faceY == 0 ==> VirtualY(faceY, height) == 60.0
    ensures faceY == height ==> VirtualY(faceY, height) == 120.0
    ensures 2 * faceX == width ==> VirtualX(faceX, width) == 90.0
    ensures 2 * faceY == height ==> VirtualY(faceY, height) == 90.0
    ensures 0 <= faceX <= width ==> 60.0 <= VirtualX(faceX, width) <= 120.0
    ensures 0 <= faceY <= height ==> 60.0 <= VirtualY(faceY, height) <= 120.0
  {
    MapValueEndpoints(0.0, width as real, 120.0, 60.0);
    MapValueEndpoints(0.0, height as real, 60.0, 120.0);
    MapValueMidpoint(0.0, width as real, 120.0, 60.0);
    MapValueMidpoint(0.0, height as real, 60.0, 120.0);
    assert 2 * faceX == width ==> faceX as real == (0.0 + width as real) / 2.0;
    assert 2 * faceY == height ==> faceY as real == (0.0 + height as real) / 2.0;
    if 0 <= faceX <= width {
      MapValueBetween(faceX as real, 0.0, width as real, 120.0, 60.0);
    }
    if 0 <= faceY <= height {
      MapValueBetween(faceY as real, 0.0, height as real, 60.0, 120.0);
    }
  }

  /** An eye update on the page that puts both eyes at `(x, y)`. */
  predicate ShowsGaze(e: Event, x: real, y: real)
  {
    && e.EyePositionUpdate?
    && Get(e.data, "left_x") == Some(x) && Get(e.data, "right_x") == Some(x)
    && Get(e.data, "left_y") == Some(y) && Get(e.data, "right_y") == Some(y)
  }

  /** An angle table with the same x for both eyes, the same y for both
      eyes and no shared axis is shown as one eye update that puts both
      eyes at that pair. */
  lemma SharedGazeShown(g: Dict<real>, x: real, y: real)
    requires Get(g, "left_eye_x") == Some(x) && Get(g, "right_eye_x") == Some(x)
    requires Get(g, "left_eye_y") == Some(y) && Get(g, "right_eye_y") == Some(y)
    requires !Has(g, "eye_x") && !Has(g, "eye_y")
    ensures AnyEyeAxis(g) && |UpdateEyes(g)| == 1 && ShowsGaze(UpdateEyes(g)[0], x, y)
  {
    EyeDataFields(g);
  }

  /** The page receives the virtual gaze as one eye update that puts both
      eyes at the virtual pair. */
  lemma VirtualGazeShown(faceX: int, faceY: int, width: int, height: int)
    requires width != 0 && height != 0
    ensures var g := VirtualGaze(faceX, faceY, width, height).value;
      |UpdateEyes(g)| == 1 && ShowsGaze(UpdateEyes(g)[0], VirtualX(faceX, width), VirtualY(faceY, height))
  {
    var g := VirtualGaze(faceX, faceY, width, height).value;
    assert Valid(g);
    GetAt(g, 0);
    GetAt(g, 1);
    GetAt(g, 2);
    GetAt(g, 3);
    assert !Has(g, "eye_x") && !Has(g, "eye_y");
    SharedGazeShown(g, VirtualX(faceX, width), VirtualY(faceY, height));
  }

  /** The eye update `update_eyes` emits for the virtual gaze. */
  method ShowVirtualGaze(faceX: int, faceY: int, width: int, height: int) returns (e: Event)
    requires width != 0 && height != 0
    ensures ShowsGaze(e, VirtualX(faceX, width), VirtualY(faceY, height))
  {
    VirtualGazeShown(faceX, faceY, width, height);
    e := UpdateEyes(VirtualGaze(faceX, faceY, width, height).value)[0];
  }

  // ---------------------------------------------------------------------
  // Start and stop

  /** What starting face tracking left, and whether it reports success. */
  datatype Started = Started(outcome: Outcome, ok: bool)

  /** Each channel of the rig written its default angle once, in channel
      order. */
  predicate CentringWrites(writes: seq<ServoWrite>, rig: RigConfig)
  {
    && |writes| == |rig.channels|
    && forall i :: 0 <= i < |rig.channels| ==>
         writes[i] == ServoWrite(rig.channels[i].1, GetDefaultAngle(rig, rig.channels[i].0))
  }

  /** Tracking started on a rig with the servo kit present: a new eye
      controller for the rig, with the page's eye update as its callback,
      centred. Centring writes each channel its default angle once, in
      channel order, and records every listed servo at its default. */
  method StartWithRig(s: Server, t: Tracking, rig: RigConfig) returns (r: Outcome)
    requires WellFormed(rig)
    ensures r.server == s.(tracking := t.(eyes := r.server.tracking.eyes, enabled := true))
    ensures r.server.tracking.eyes.Some?
    ensures var c := r.server.tracking.eyes.value;
      && c.rig == rig && c.kitPresent && c.hasCallback && Valid(c.currentAngles)
      && forall i :: 0 <= i < |rig.channels| ==>
           Get(c.currentAngles, rig.channels[i].0) == Some(GetDefaultAngle(rig, rig.channels[i].0))
    ensures CentringWrites(r.writes, rig)
    ensures GazeOnly(r.events)
    ensures !r.save
  {
    var c := NewController(rig, true, true);
    var centred := CenterEyes(c);
    CenterWritesDefaults(c);
    r := Outcome(s.(tracking := t.(eyes := Some(centred.ctrl), enabled := true)), centred.writes,
                 CallbackEvents(centred.updates), false);
  }

  /** Tracking started on the catalog rig selected by `name`. */
  method StartOnNamedRig(s: Server, t: Tracking, name: string) returns (r: Outcome)
    ensures r.server == s.(tracking := t.(eyes := r.server.tracking.eyes, enabled := true))
    ensures r.server.tracking.eyes.Some?
    ensures var c := r.server.tracking.eyes.value;
      c.rig == GetConfig(name) && c.kitPresent && Valid(c.currentAngles)
    ensures CentringWrites(r.writes, GetConfig(name))
    ensures GazeOnly(r.events)
    ensures !r.save
  {
    GetConfigWellFormed(name);
    r := StartWithRig(s, t, GetConfig(name));
  }

  /** `start_face_tracking`. A fresh tracker is installed first. If the
      camera does not start, the call fails and nothing else changes. With
      the servo available the rig named by `servo_config` (default
      `inmoov`) gets a new eye controller, centred as `StartWithRig`
      describes; a name that is not a string makes the lookup raise and
      the call fail. Without the servo there is no eye controller and
      nothing is written. On success tracking is enabled. The blink clock
      and the frame counter are not touched. */
  method StartFaceTracking(s: Server, cameraStarts: bool) returns (r: Started)
    requires s.tracking.eyes.Some? ==> Valid(s.tracking.eyes.value.currentAngles)
    ensures r.ok <==> cameraStarts && (!s.jaw.available || GetOr(s.settings, "servo_config", Str("inmoov")).Str?)
    ensures r.outcome.server == s.(tracking := r.outcome.server.tracking)
    ensures r.outcome.server.tracking.tracker == Some(InitialTracker)
    ensures r.outcome.server.tracking.lastBlinkTime == s.tracking.lastBlinkTime
    ensures r.outcome.server.tracking.frameCount == s.tracking.frameCount
    ensures !r.ok ==> r.outcome == Quiet(s.(tracking := s.tracking.(tracker := Some(InitialTracker))))
    ensures r.ok ==> r.outcome.server.tracking.enabled
    ensures r.ok && !s.jaw.available ==> r.outcome.server.tracking.eyes.None? && r.outcome.writes == []
    ensures r.ok && s.jaw.available ==>
      var rig := GetConfig(GetOr(s.settings, "servo_config", Str("inmoov")).s);
      && r.outcome.server.tracking.eyes.Some?
      && r.outcome.server.tracking.eyes.value.rig == rig
      && r.outcome.server.tracking.eyes.value.kitPresent
      && CentringWrites(r.outcome.writes, rig)
    ensures r.outcome.server.tracking.eyes.Some? ==> Valid(r.outcome.server.tracking.eyes.value.currentAngles)
    ensures !r.outcome.save
  {
    var t := s.tracking.(tracker := Some(InitialTracker));
    if !cameraStarts {
      r := Started(Quiet(s.(tracking := t)), false);
    } else if s.jaw.available {
      match GetOr(s.settings, "servo_config", Str("inmoov"))
      case Str(name) =>
        var o := StartOnNamedRig(s, t, name);
        r := Started(o, true);
      case _ =>
        r := Started(Quiet(s.(tracking := t)), false);
    } else {
      r := Started(Quiet(s.(tracking := t.(eyes := None, enabled := true))), true);
    }
  }

  /** `stop_face_tracking`: tracking off, the tracker dropped, and an
      existing eye controller centred and dropped. */
  function StopFaceTracking(s: Server): (r: Outcome)
    requires s.tracking.eyes.Some? ==> Valid(s.tracking.eyes.value.currentAngles)
    ensures r.server == s.(tracking := s.tracking.(enabled := false, tracker := None, eyes := None))
    ensures s.tracking.eyes.None? ==> r.writes == [] && r.events == []
    ensures s.tracking.eyes.Some? ==>
      r.writes == CenterEyes(s.tracking.eyes.value).writes && |r.events| <= |CenterEyes(s.tracking.eyes.value).updates|
    ensures !r.save
  {
    var t := s.tracking.(enabled := false, tracker := None, eyes := None);
    match s.tracking.eyes
    case None => Quiet(s.(tracking := t))
    case Some(c) =>
      var centred := CenterEyes(c);
      Outcome(s.(tracking := t), centred.writes, CallbackEvents(centred.updates), false)
  }

  /** Stopping twice is stopping once. */
  lemma StopIdempotent(s: Server)
    requires s.tracking.eyes.Some? ==> Valid(s.tracking.eyes.value.currentAngles)
    ensures StopFaceTracking(StopFaceTracking(s).server) == Quiet(StopFaceTracking(s).server)
  {
  }

  /** Start-up of tracking from the settings: when `face_tracking_enabled`
      is truthy (absent counts as false), tracking is started, and exactly
      a successful start ends with the success reported to the page. */
  method AutoStart(s: Server, cameraStarts: bool) returns (r: Outcome)
    requires s.tracking.eyes.Some? ==> Valid(s.tracking.eyes.value.currentAngles)
    ensures !Truthy(GetOr(s.settings, "face_tracking_enabled", Bool(false))) ==> r == Quiet(s)
    ensures Truthy(GetOr(s.settings, "face_tracking_enabled", Bool(false))) ==>
      && r.server.tracking.tracker == Some(InitialTracker)
      && r.server == s.(tracking := r.server.tracking)
      && ((|r.events| > 0 && r.events[|r.events| - 1] == FaceTrackingStatus(true)) <==>
            cameraStarts && (!s.jaw.available || GetOr(s.settings, "servo_config", Str("inmoov")).Str?))
    ensures !r.save
  {
    if !Truthy(GetOr(s.settings, "face_tracking_enabled", Bool(false))) {
      r := Quiet(s);
    } else {
      var started := StartFaceTracking(s, cameraStarts);
      var o := started.outcome;
      if started.ok {
        r := o.(events := o.events + UpdateFaceTrackingStatus(true));
      } else {
        r := o;
      }
    }
  }

  // ---------------------------------------------------------------------
  // One pass of the tracking loop

  const VirtualBlinkInterval: real := 4.0
  const VirtualBlinkChance: real := 0.5

  /** Frames between safety checks of the jaw. */
  const SafetyPeriod: nat := 30

  /** The virtual eyes blink when more than four seconds passed since the
      last virtual blink and the draw falls under one half. */
  predicate VirtualBlinkDue(lastBlinkTime: real, now: real, draw: real)
  {
    now - lastBlinkTime > VirtualBlinkInterval && draw < VirtualBlinkChance
  }

  /** Only eye-position updates, no blink. */
  predicate GazeOnly(events: seq<Event>)
  {
    forall i :: 0 <= i < |events| ==> events[i].EyePositionUpdate?
  }

  lemma GazeOnlyJoin(a: seq<Event>, b: seq<Event>)
    requires GazeOnly(a) && GazeOnly(b)
    ensures GazeOnly(a + b) && Blink !in a + b
  {
    assert forall i :: 0 <= i < |a + b| ==> (a + b)[i] == if i < |a| then a[i] else b[i - |a|];
  }

  /** The events of a pass followed by the virtual blink when one is due. */
  function WithBlink(events: seq<Event>, due: bool): (r: seq<Event>)
    requires Blink !in events
    ensures |r| >= |events| && r[..|events|] == events
    ensures Blink in r <==> due
  {
    var r := events + (if due then TriggerBlink() else []);
    assert due ==> r[|events|] == Blink;
    assert r[..|events|] == events;
    r
  }

  /** What the eye controller did in one pass: the controller after it, its
      writes and the page updates its callback produced. */
  datatype EyeMove = EyeMove(eyes: Option<EyeController>, writes: seq<ServoWrite>, events: seq<Event>)

  /** The physical eyes follow the face and may blink on their own clock:
      the tracking move comes first, then the blink check on the moved
      controller; the callback's page updates follow the same order. */
  method MoveEyes(eyes: Option<EyeController>, center: Point, width: nat, height: nat, now: real, eyeDraw: real)
    returns (r: EyeMove)
    requires eyes.Some? ==> Valid(eyes.value.currentAngles)
    ensures eyes.None? ==> r == EyeMove(None, [], [])
    ensures eyes.Some? ==> r.eyes.Some? && Valid(r.eyes.value.currentAngles) && r.eyes.value.rig == eyes.value.rig
    ensures GazeOnly(r.events)
  {
    match eyes
    case None =>
      r := EyeMove(None, [], []);
    case Some(c) =>
      var moved := TrackPosition(c, center.x, center.y, width, height);
      var blinked := BlinkEyes(moved.ctrl, false, now, eyeDraw);
      r := EyeMove(Some(blinked.ctrl), moved.writes + blinked.writes, CallbackEvents(moved.updates + blinked.updates));
  }

  /** The reaction to a found face, given the virtual gaze computed for
      it: the gaze shown on the page, the physical eyes tracked and
      possibly blinked (their callback updates follow the gaze), and a
      virtual blink when one is due. */
  method GazeStep(t: Tracking, shown: Event, center: Point, width: nat, height: nat, now: real, eyeDraw: real, blinkDraw: real)
    returns (after: Tracking, writes: seq<ServoWrite>, events: seq<Event>)
    requires shown.EyePositionUpdate?
    requires t.eyes.Some? ==> Valid(t.eyes.value.currentAngles)
    ensures after.eyes.Some? <==> t.eyes.Some?
    ensures after.eyes.Some? ==> Valid(after.eyes.value.currentAngles)
    ensures after == t.(eyes := after.eyes, lastBlinkTime := after.lastBlinkTime)
    ensures t.eyes.None? ==> writes == []
    ensures |events| >= 1 && events[0] == shown
    ensures Blink in events <==> VirtualBlinkDue(t.lastBlinkTime, now, blinkDraw)
    ensures after.lastBlinkTime == if VirtualBlinkDue(t.lastBlinkTime, now, blinkDraw) then now else t.lastBlinkTime
  {
    var moved := MoveEyes(t.eyes, center, width, height, now, eyeDraw);
    GazeOnlyJoin([shown], moved.events);
    var due := VirtualBlinkDue(t.lastBlinkTime, now, blinkDraw);
    events := WithBlink([shown] + moved.events, due);
    after := t.(eyes := moved.eyes, lastBlinkTime := if due then now else t.lastBlinkTime);
    writes := moved.writes;
  }

  /** The safety check is due on every thirtieth frame while the assistant
      is silent and the servo is available with the jaw not closed. */
  predicate SafetyDue(s: Server)
  {
    s.tracking.frameCount % SafetyPeriod == 0 && !s.speaking && s.jaw.available && s.jaw.position > 0.0
  }

  /** The end of a pass: the safety close of the jaw when due, as the jaw
      after it and the writes it made. A failing write is caught by the
      loop and changes nothing. */
  function SafetyClose(s: Server, fault: BusFault): (r: (JawState, seq<ServoWrite>))
    ensures !SafetyDue(s) ==> r == (s.jaw, [])
    ensures SafetyDue(s) && !Hits(fault, 1) ==> r == (s.jaw.(position := 0.0), [ServoWrite(JawChannel, 0.0)])
    ensures SafetyDue(s) && Hits(fault, 1) ==> r == (s.jaw, [])
  {
    if SafetyDue(s) then
      var run := Perform([Write(JawChannel, Some(0.0))], fault);
      assert WriteCount([Write(JawChannel, Some(0.0))]) == 1;
      assert [Write(JawChannel, Some(0.0))][1..] == [];
      assert Intended([Write(JawChannel, Some(0.0))]) == [ServoWrite(JawChannel, 0.0)];
      (if run.failure.None? then s.jaw.(position := 0.0) else s.jaw, run.writes)
    else (s.jaw, [])
  }

  /** The pass ends with the safety check judged on the tracking state
      `t`: the jaw is what the safety check left, and its writes come last. */
  predicate EndsWithSafety(s: Server, t: Tracking, r: Outcome, fault: BusFault)
  {
    var closed := SafetyClose(s.(tracking := t), fault);
    && r.server.jaw == closed.0
    && |closed.1| <= |r.writes|
    && r.writes[|r.writes| - |closed.1|..] == closed.1
  }

  /** A found face in a frame of zero size: a case the detector never
      produces, in which the model skips the rest of the pass. */
  predicate ZeroSizeFound(report: Option<Report>)
  {
    report.Some? && report.value.Found? && (report.value.frameWidth == 0 || report.value.frameHeight == 0)
  }

  /** The part of a pass after a found face in a frame of non-zero size:
      the gaze step, then the safety check. */
  method FoundPass(s: Server, t: Tracking, center: Point, width: nat, height: nat, now: real, eyeDraw: real, blinkDraw: real, fault: BusFault)
    returns (r: Outcome)
    requires width != 0 && height != 0
    requires t.eyes.Some? ==> Valid(t.eyes.value.currentAngles)
    ensures r.server == s.(tracking := r.server.tracking, jaw := r.server.jaw)
    ensures r.server.tracking == t.(eyes := r.server.tracking.eyes, lastBlinkTime := r.server.tracking.lastBlinkTime)
    ensures r.server.tracking.eyes.Some? ==> Valid(r.server.tracking.eyes.value.currentAngles)
    ensures |r.events| >= 1 && ShowsGaze(r.events[0], VirtualX(center.x, width), VirtualY(center.y, height))
    ensures Blink in r.events <==> VirtualBlinkDue(t.lastBlinkTime, now, blinkDraw)
    ensures EndsWithSafety(s, t, r, fault)
    ensures !r.save
  {
    var shown := ShowVirtualGaze(center.x, center.y, width, height);
    var after, writes, events := GazeStep(t, shown, center, width, height, now, eyeDraw, blinkDraw);
    var closed := SafetyClose(s.(tracking := after), fault);
    r := Outcome(s.(tracking := after, jaw := closed.0), writes + closed.1, events, false);
    assert r.writes[|r.writes| - |closed.1|..] == closed.1;
  }

  /** The part of a pass after the frame was tracked, given the tracking
      state with the counter advanced and the tracker updated. */
  method AfterTrack(s: Server, t: Tracking, report: Option<Report>, now: real, eyeDraw: real, blinkDraw: real, fault: BusFault)
    returns (r: Outcome)
    requires t.eyes.Some? ==> Valid(t.eyes.value.currentAngles)
    ensures r.server == s.(tracking := r.server.tracking, jaw := r.server.jaw)
    ensures r.server.tracking == t.(eyes := r.server.tracking.eyes, lastBlinkTime := r.server.tracking.lastBlinkTime)
    ensures r.server.tracking.eyes.Some? ==> Valid(r.server.tracking.eyes.value.currentAngles)
    ensures Blink in r.events ==> VirtualBlinkDue(t.lastBlinkTime, now, blinkDraw)
    ensures ZeroSizeFound(report) ==> r == Quiet(s.(tracking := t))
    ensures !ZeroSizeFound(report) ==> EndsWithSafety(s, t, r, fault)
    ensures report.Some? && report.value.Found? && !ZeroSizeFound(report) ==>
      var c := report.value.center;
      && |r.events| >= 1
      && ShowsGaze(r.events[0], VirtualX(c.x, report.value.frameWidth), VirtualY(c.y, report.value.frameHeight))
      && (Blink in r.events <==> VirtualBlinkDue(t.lastBlinkTime, now, blinkDraw))
    ensures !(report.Some? && report.value.Found?) ==> r.events == []
    ensures !r.save
  {
    match report
    case Some(Found(center, width, height, _, _)) =>
      if width == 0 || height == 0 {
        r := Quiet(s.(tracking := t));
      } else {
        r := FoundPass(s, t, center, width, height, now, eyeDraw, blinkDraw, fault);
      }
    case _ =>
      var closed := SafetyClose(s.(tracking := t), fault);
      r := Outcome(s.(tracking := t, jaw := closed.0), closed.1, [], false);
  }

  /** A frame whose gaze mapping is defined: no frame, no face, or a face
      in a frame of non-zero size (every frame the detector reports a face
      in). */
  predicate MapsSafely(frame: Option<FaceTracking.Frame>)
  {
    frame.None? || |frame.value.faces| == 0 || (frame.value.width != 0 && frame.value.height != 0)
  }

  /** The frame tracked: what the loop needs to know of the report. */
  method TrackFrame(tracker: TrackerState, frame: Option<FaceTracking.Frame>, now: real) returns (r: TrackResult)
    ensures r == TrackFace(tracker, frame, now)
    ensures MapsSafely(frame) ==> !ZeroSizeFound(r.report)
    ensures frame.Some? && |frame.value.faces| > 0 ==>
      && r.report.Some? && r.report.value.Found?
      && r.report.value.frameWidth == frame.value.width && r.report.value.frameHeight == frame.value.height
  {
    r := TrackFace(tracker, frame, now);
  }

  /** One pass of `face_tracking_loop`. Nothing happens unless tracking is
      enabled with a tracker. Otherwise the frame counter advances and the
      frame is tracked; a found face is shown on the page first, as the
      virtual gaze, and drives the physical eyes; a due virtual blink
      happens; then every thirtieth frame a jaw left open while the
      assistant is silent is closed with a write of 0 degrees, the pass's
      last write. While the assistant speaks the jaw is never touched. A
      found face in a frame of zero size cannot occur; the model skips the
      rest of the pass there. */
  method FaceLoopStep(s: Server, frame: Option<FaceTracking.Frame>, now: real, eyeDraw: real, blinkDraw: real, safetyFault: BusFault)
    returns (r: Outcome)
    requires s.tracking.eyes.Some? ==> Valid(s.tracking.eyes.value.currentAngles)
    ensures !s.tracking.enabled || s.tracking.tracker.None? ==> r == Quiet(s)
    ensures s.tracking.enabled && s.tracking.tracker.Some? ==>
      && r.server.tracking.frameCount == s.tracking.frameCount + 1
      && r.server.tracking.tracker == Some(TrackFace(s.tracking.tracker.value, frame, now).state)
      && r.server.tracking.enabled
    ensures r.server.tracking.eyes.Some? ==> Valid(r.server.tracking.eyes.value.currentAngles)
    ensures r.server == s.(tracking := r.server.tracking, jaw := r.server.jaw)
    ensures r.server.jaw == s.jaw || r.server.jaw == s.jaw.(position := 0.0)
    ensures s.speaking ==> r.server.jaw == s.jaw
    ensures s.tracking.enabled && s.tracking.tracker.Some? && MapsSafely(frame)
            && (s.tracking.frameCount + 1) % SafetyPeriod == 0
            && !s.speaking && s.jaw.available && s.jaw.position > 0.0 && !Hits(safetyFault, 1) ==>
      && r.server.jaw == s.jaw.(position := 0.0)
      && |r.writes| > 0 && r.writes[|r.writes| - 1] == ServoWrite(JawChannel, 0.0)
    ensures s.tracking.enabled && s.tracking.tracker.Some? && frame.Some?
            && |frame.value.faces| > 0 && frame.value.width != 0 && frame.value.height != 0 ==>
      var c := TrackFace(s.tracking.tracker.value, frame, now).report.value.center;
      && |r.events| >= 1
      && ShowsGaze(r.events[0], VirtualX(c.x, frame.value.width), VirtualY(c.y, frame.value.height))
      && (VirtualBlinkDue(s.tracking.lastBlinkTime, now, blinkDraw) <==> Blink in r.events)
    ensures Blink in r.events ==> VirtualBlinkDue(s.tracking.lastBlinkTime, now, blinkDraw)
    ensures !r.save
    ensures r.server.mouth == s.mouth && (Sound(s) ==> Sound(r.server))
  {
    if !s.tracking.enabled || s.tracking.tracker.None? {
      r := Quiet(s);
    } else {
      var tracked := TrackFrame(s.tracking.tracker.value, frame, now);
      var t := s.tracking.(frameCount := s.tracking.frameCount + 1, tracker := Some(tracked.state));
      r := AfterTrack(s, t, tracked.report, now, eyeDraw, blinkDraw, safetyFault);
    }
  }
}

=== FILE: face_tracker.dfy ===
/** Face selection and loss tracking: among the detected face boxes the one
    whose centre is nearest the frame centre is followed (the first of equal
    ones), and while no face is seen the tracker reports how long ago the
    face was lost.

    Detection itself is an input: a frame is its size and the boxes the
    cascade found, and the clock reading is a parameter. */
module FaceTracking {
  import opened Common

  /** A detection rectangle `(x, y, w, h)` in pixels. */
  datatype Box = Box(x: int, y: int, w: int, h: int)

  datatype Point = Point(x: int, y: int)

  /** `get_face_center`: `(x + w // 2, y + h // 2)`. Dafny's `/` on a
      positive divisor rounds down, as Python's `//` does. */
  function Center(b: Box): Point
  {
    Point(b.x + b.w / 2, b.y + b.h / 2)
  }

  /** The centre of a box of non-negative size lies inside the box, at most
      half a pixel left of (or above) the true midpoint. */
  lemma CenterInsideBox(b: Box)
    requires b.w >= 0 && b.h >= 0
    ensures b.x <= Center(b).x <= b.x + b.w && b.y <= Center(b).y <= b.y + b.h
    ensures 2 * (Center(b).x - b.x) == b.w || 2 * (Center(b).x - b.x) == b.w - 1
    ensures 2 * (Center(b).y - b.y) == b.h || 2 * (Center(b).y - b.y) == b.h - 1
  {
  }

  /** `(frame_width // 2, frame_height // 2)`. */
  function FrameCenter(width: int, height: int): Point
  {
    Point(width / 2, height / 2)
  }

  /** Squared Euclidean distance. The square root the source takes is
      monotone, so comparing squares orders faces the same way. */
  function SqDist(p: Point, q: Point): (d: int)
    ensures d >= 0
  {
    (p.x - q.x) * (p.x - q.x) + (p.y - q.y) * (p.y - q.y)
  }

  function FaceDist(b: Box, width: int, height: int): int
  {
    SqDist(Center(b), FrameCenter(width, height))
  }

  /** `i` is the face the source's scan keeps: none is nearer, and every
      earlier face is strictly farther (a later face replaces the current
      choice only when strictly nearer). */
  predicate FirstClosest(faces: seq<Box>, width: int, height: int, i: int)
  {
    && 0 <= i < |faces|
    && (forall j :: 0 <= j < |faces| ==> FaceDist(faces[i], width, height) <= FaceDist(faces[j], width, height))
    && (forall j :: 0 <= j < i ==> FaceDist(faces[j], width, height) > FaceDist(faces[i], width, height))
  }

  /** The scan of `get_closest_face` over a non-empty list: the index kept
      after the last face has been compared. */
  function ClosestIndex(faces: seq<Box>, width: int, height: int): (i: nat)
    requires |faces| > 0
    ensures FirstClosest(faces, width, height, i)
    decreases |faces|
  {
    if |faces| == 1 then 0
    else
      var init := faces[..|faces| - 1];
      var k := ClosestIndex(init, width, height);
      assert forall j :: 0 <= j < |init| ==> init[j] == faces[j];
      var last := |faces| - 1;
      if FaceDist(faces[last], width, height) < FaceDist(faces[k], width, height) then last else k
  }

  /** Exactly one index satisfies the selection rule, so the rule alone
      determines the face the tracker follows. */
  lemma FirstClosestUnique(faces: seq<Box>, width: int, height: int, i: int, j: int)
    requires FirstClosest(faces, width, height, i) && FirstClosest(faces, width, height, j)
    ensures i == j
  {
    assert FaceDist(faces[i], width, height) == FaceDist(faces[j], width, height);
  }

  /** `get_closest_face`: `None` for no faces, otherwise the first face
      nearest the frame centre. */
  function ClosestFace(faces: seq<Box>, width: int, height: int): (r: Option<Box>)
    ensures r.None? <==> |faces| == 0
    ensures r.Some? ==> exists i :: FirstClosest(faces, width, height, i) && r.value == faces[i]
  {
    if |faces| == 0 then None else Some(faces[ClosestIndex(faces, width, height)])
  }

  /** The order in which the boxes arrive matters only among equally near
      faces: a face strictly nearer than all the others is chosen wherever
      it sits in the list. */
  lemma StrictlyNearestChosen(faces: seq<Box>, width: int, height: int, i: int)
    requires 0 <= i < |faces|
    requires forall j :: 0 <= j < |faces| && j != i ==> FaceDist(faces[i], width, height) < FaceDist(faces[j], width, height)
    ensures ClosestFace(faces, width, height) == Some(faces[i])
  {
    var k := ClosestIndex(faces, width, height);
    assert FaceDist(faces[k], width, height) <= FaceDist(faces[i], width, height);
  }

  // ---------------------------------------------------------------------
  // Tracking state

  /** Seconds before a lost face counts as truly lost; the tracker records
      it but never consults it. */
  const FaceLostThreshold: real := 2.0

  datatype TrackerState = TrackerState(lastFacePosition: Option<Point>, faceLostTime: Option<real>)

  const InitialTracker := TrackerState(None, None)

  /** One captured frame: its size and the detections in it. */
  datatype Frame = Frame(width: nat, height: nat, faces: seq<Box>)

  /** The tracking report of one frame. */
  datatype Report =
    | Found(center: Point, frameWidth: nat, frameHeight: nat, faceRect: Box, numFaces: nat)
    | Lost(lastPosition: Option<Point>, timeLost: real, frameWidth: nat, frameHeight: nat)

  datatype TrackResult = TrackResult(state: TrackerState, report: Option<Report>)

  /** The time of the first frame of the current loss, or `now` if this
      frame starts one. */
  function LossStart(s: TrackerState, now: real): real
  {
    match s.faceLostTime
    case Some(t) => t
    case None => now
  }

  /** `track_face`. No frame (camera not running or the read failed) gives
      no report and no state change. A frame with a face reports the chosen
      face's centre and forgets any loss; a frame without one starts the
      loss clock if it is not running and reports the time since it started
      together with the last known position. */
  function TrackFace(s: TrackerState, frame: Option<Frame>, now: real): (r: TrackResult)
    ensures frame.None? ==> r == TrackResult(s, None)
    ensures frame.Some? && |frame.value.faces| > 0 ==>
      && r.report.Some? && r.report.value.Found?
      && r.report.value.numFaces == |frame.value.faces|
      && r.report.value.frameWidth == frame.value.width && r.report.value.frameHeight == frame.value.height
      && (exists i :: FirstClosest(frame.value.faces, frame.value.width, frame.value.height, i)
                      && r.report.value.faceRect == frame.value.faces[i])
      && r.report.value.center == Center(r.report.value.faceRect)
      && r.state == TrackerState(Some(r.report.value.center), None)
    ensures frame.Some? && |frame.value.faces| == 0 ==>
      && r.state == TrackerState(s.lastFacePosition, Some(LossStart(s, now)))
      && r.report == Some(Lost(s.lastFacePosition, now - LossStart(s, now), frame.value.width, frame.value.height))
  {
    match frame
    case None => TrackResult(s, None)
    case Some(f) =>
      match ClosestFace(f.faces, f.width, f.height)
      case Some(face) =>
        var c := Center(face);
        TrackResult(TrackerState(Some(c), None), Some(Found(c, f.width, f.height, face, |f.faces|)))
      case None =>
        var lostAt := LossStart(s, now);
        TrackResult(TrackerState(s.lastFacePosition, Some(lostAt)), Some(Lost(s.lastFacePosition, now - lostAt, f.width, f.height)))
  }

  /** The loss clock never started in the future. */
  predicate LossNotAfter(s: TrackerState, t: real)
  {
    s.faceLostTime.None? || s.faceLostTime.value <= t
  }

  /** With a clock that does not run backwards the reported time lost is
      never negative, and the loss clock stays in the past. */
  lemma TimeLostNonNegative(s: TrackerState, frame: Option<Frame>, now: real, later: real)
    requires LossNotAfter(s, now) && now <= later
    ensures var r := TrackFace(s, frame, now);
      && (r.report.Some? && r.report.value.Lost? ==> r.report.value.timeLost >= 0.0)
      && LossNotAfter(r.state, later)
  {
  }

  /** Frames run through the tracker in order, each with its clock reading. */
  function TrackAll(s: TrackerState, frames: seq<(Option<Frame>, real)>): (r: TrackerState)
    decreases |frames|
  {
    if |frames| == 0 then s else TrackAll(TrackFace(s, frames[0].0, frames[0].1).state, frames[1..])
  }

  predicate NoFaceFrames(frames: seq<(Option<Frame>, real)>)
  {
    forall i :: 0 <= i < |frames| ==> frames[i].0.Some? && |frames[i].0.value.faces| == 0
  }

  /** Over a stretch of frames without faces the loss time stays the moment
      the face was first missed, and the last known position is kept. */
  lemma {:induction false} LossClockHolds(s: TrackerState, frames: seq<(Option<Frame>, real)>)
    requires NoFaceFrames(frames) && |frames| > 0
    ensures TrackAll(s, frames) == TrackerState(s.lastFacePosition, Some(LossStart(s, frames[0].1)))
    decreases |frames|
  {
    var s1 := TrackFace(s, frames[0].0, frames[0].1).state;
    if |frames| > 1 {
      assert NoFaceFrames(frames[1..]) by {
        forall i | 0 <= i < |frames[1..]| ensures frames[1..][i].0.Some? && |frames[1..][i].0.value.faces| == 0 {
          assert frames[1..][i] == frames[i + 1];
        }
      }
      LossClockHolds(s1, frames[1..]);
    }
  }
}

=== FILE: jaw.dfy ===
/** The jaw servo: the angle clamp every write goes through, the
    deadbanded direct control driven by the mouth opening, the older
    viseme-driven pulse control, and the closing sequences run when speech
    ends and when a session stops.

    The jaw's calibration lives in the settings table, so a setting that is
    missing or not a number makes the computation raise; where the source
    catches that, the call changes nothing. */
module Jaw {
  import opened Common
  import opened Dict
  import opened Json
  import opened Bus
  import AudioMouth

  /** The jaw's channel on the servo board, outside the eye rig's 0–7. */
  const JawChannel: nat := 8

  /** The deadband used when the settings do not give one. */
  const DefaultMinChange: real := 2.0

  function Abs(x: real): (r: real)
    ensures r >= 0.0 && (r == x || r == -x)
  {
    if x < 0.0 then -x else x
  }

  /** `clamp_angle`: into the servo's 0–180 degree range. An angle already
      in range is written as given. */
  function ClampAngle(a: real): (r: real)
    ensures 0.0 <= r <= 180.0
    ensures r == a <==> 0.0 <= a <= 180.0
    ensures a < 0.0 ==> r == 0.0
    ensures a > 180.0 ==> r == 180.0
  {
    Clamp(0.0, 180.0, a)
  }

  /** `clamp_angle(settings[key])`: `None` when the setting is missing or
      not a number. */
  function SettingAngle(settings: Dict<Value>, key: string): (r: Option<real>)
    ensures r.Some? <==> NumberAt(settings, key).Some?
    ensures r.Some? ==> r.value == ClampAngle(NumberAt(settings, key).value)
  {
    match NumberAt(settings, key)
    case Some(a) => Some(ClampAngle(a))
    case None => None
  }

  /** What the server knows about the jaw: whether the servo board is
      usable, and the last opening (0–100) the jaw was sent to. */
  datatype JawState = JawState(available: bool, position: real)

  datatype JawResult = JawResult(state: JawState, writes: seq<ServoWrite>)

  /** The calibration `control_jaw_servo_direct` reads. */
  datatype Geometry = Geometry(close: real, open: real, minChange: real)

  /** The calibration, or `None` when reading it raises. */
  function ReadGeometry(settings: Dict<Value>): (g: Option<Geometry>)
    ensures g.Some? <==>
      NumberAt(settings, "jaw_close_angle").Some? && NumberAt(settings, "jaw_open_angle").Some?
      && NumberOr(settings, "jaw_servo_min_change", DefaultMinChange).Some?
    ensures g.Some? ==>
      && g.value.close == NumberAt(settings, "jaw_close_angle").value
      && g.value.open == NumberAt(settings, "jaw_open_angle").value
      && g.value.minChange == NumberOr(settings, "jaw_servo_min_change", DefaultMinChange).value
  {
    match (NumberAt(settings, "jaw_close_angle"), NumberAt(settings, "jaw_open_angle"),
           NumberOr(settings, "jaw_servo_min_change", DefaultMinChange))
    case (Some(c), Some(o), Some(m)) => Some(Geometry(c, o, m))
    case _ => None
  }

  /** The servo angle of an opening percentage: linear from the closed
      angle at 0% to the open angle at 100%. */
  function JawAngle(close: real, open: real, percent: real): real
  {
    close + (open - close) * (percent / 100.0)
  }

  /** The mapping hits both calibrated ends and is monotone when the open
      angle lies above the closed one. */
  lemma JawAngleShape(close: real, open: real, p: real, q: real)
    requires p <= q
    ensures JawAngle(close, open, 0.0) == close && JawAngle(close, open, 100.0) == open
    ensures close <= open ==> JawAngle(close, open, p) <= JawAngle(close, open, q)
    ensures JawAngle(close, open, q) - JawAngle(close, open, p) == (open - close) * ((q - p) / 100.0)
  {
    var k, a, b := open - close, p / 100.0, q / 100.0;
    assert a <= b;
    if close <= open {
      ScaleBy(k, a, b);
    }
    Distribute(k, b, a);
    assert (q - p) / 100.0 == b - a;
  }

  lemma Distribute(k: real, a: real, b: real)
    ensures k * a - k * b == k * (a - b)
  {
  }

  lemma ScaleBy(k: real, a: real, b: real)
    requires k >= 0.0 && a <= b
    ensures k * a <= k * b
  {
  }

  /** The availability latch after a sequence ended: a disconnect turns
      servo control off for good; anything else leaves it as it was. */
  function AfterFailure(st: JawState, failure: Option<Failure>): (r: JawState)
    ensures r.position == st.position
    ensures r.available <==> st.available && failure != Some(Disconnected)
  {
    st.(available := st.available && failure != Some(Disconnected))
  }

  // ---------------------------------------------------------------------
  // Direct control

  /** `control_jaw_servo_direct(percent)`. With the servo unavailable,
      nothing. Otherwise the target angle is written, clamped, only when it
      differs from the angle of the last accepted opening by more than the
      deadband; a written opening becomes the new position. A disconnect
      latches the servo off; any other error is swallowed. */
  function JawDirect(st: JawState, settings: Dict<Value>, percent: real, fault: BusFault): (r: JawResult)
    ensures !st.available ==> r == JawResult(st, [])
    ensures r.state.available ==> st.available
    ensures WritesOn(r.writes, JawChannel, 0.0, 180.0) && |r.writes| <= 1
    ensures r.state.position == st.position || (r.state.position == percent && |r.writes| == 1)
    ensures st.available && ReadGeometry(settings).None? ==> r == JawResult(st, [])
    ensures st.available && ReadGeometry(settings).Some? ==>
      var g := ReadGeometry(settings).value;
      var target := JawAngle(g.close, g.open, percent);
      && (Abs(target - JawAngle(g.close, g.open, st.position)) <= g.minChange ==> r == JawResult(st, []))
      && (Abs(target - JawAngle(g.close, g.open, st.position)) > g.minChange ==>
            if fault.FaultAt? && fault.index == 0
            then r == JawResult(st.(available := !fault.disconnect), [])
            else r == JawResult(st.(position := percent), [ServoWrite(JawChannel, ClampAngle(target))]))
  {
    if !st.available then JawResult(st, [])
    else match ReadGeometry(settings)
      case None => JawResult(st, [])
      case Some(g) =>
        var target := JawAngle(g.close, g.open, percent);
        if Abs(target - JawAngle(g.close, g.open, st.position)) > g.minChange then
          var run := Perform([Write(JawChannel, Some(ClampAngle(target)))], fault);
          assert WriteCount([Write(JawChannel, Some(ClampAngle(target)))]) == 1;
          JawResult(if run.failure.None? then st.(position := percent) else AfterFailure(st, run.failure), run.writes)
        else JawResult(st, [])
  }

  /** Successive direct requests, each with its own bus fault. */
  function DirectRun(st: JawState, settings: Dict<Value>, requests: seq<(real, BusFault)>): (r: JawResult)
    decreases |requests|
  {
    if |requests| == 0 then JawResult(st, [])
    else
      var first := JawDirect(st, settings, requests[0].0, requests[0].1);
      var rest := DirectRun(first.state, settings, requests[1..]);
      JawResult(rest.state, first.writes + rest.writes)
  }

  /** Once the servo has been found disconnected, no later request writes
      anything or moves the tracked position: the latch holds until
      restart. */
  lemma {:induction false} UnavailableLatches(st: JawState, settings: Dict<Value>, requests: seq<(real, BusFault)>)
    requires !st.available
    ensures DirectRun(st, settings, requests) == JawResult(st, [])
    decreases |requests|
  {
    if |requests| > 0 {
      UnavailableLatches(st, settings, requests[1..]);
    }
  }

  /** Every direct write, over any run of requests, is a jaw write within
      the servo's range. */
  lemma {:induction false} DirectRunWritesOn(st: JawState, settings: Dict<Value>, requests: seq<(real, BusFault)>)
    ensures WritesOn(DirectRun(st, settings, requests).writes, JawChannel, 0.0, 180.0)
    ensures |DirectRun(st, settings, requests).writes| <= |requests|
    decreases |requests|
  {
    if |requests| > 0 {
      var first := JawDirect(st, settings, requests[0].0, requests[0].1);
      DirectRunWritesOn(first.state, settings, requests[1..]);
      var w := DirectRun(st, settings, requests).writes;
      assert w == first.writes + DirectRun(first.state, settings, requests[1..]).writes;
    }
  }

  /** The deadband is measured from the last accepted write, not from the
      last request: after a write for `a`, a request `b` within the deadband
      of `a` writes nothing, and a request `c` beyond the deadband of `a`
      writes, however close `c` is to `b`. */
  lemma DeadbandFromLastWrite(st: JawState, settings: Dict<Value>, a: real, b: real, c: real)
    requires st.available && ReadGeometry(settings).Some?
    requires var g := ReadGeometry(settings).value;
      && Abs(JawAngle(g.close, g.open, a) - JawAngle(g.close, g.open, st.position)) > g.minChange
      && Abs(JawAngle(g.close, g.open, b) - JawAngle(g.close, g.open, a)) <= g.minChange
      && Abs(JawAngle(g.close, g.open, c) - JawAngle(g.close, g.open, a)) > g.minChange
    ensures var r := DirectRun(st, settings, [(a, NoFault), (b, NoFault), (c, NoFault)]);
      var g := ReadGeometry(settings).value;
      && r.writes == [ServoWrite(JawChannel, ClampAngle(JawAngle(g.close, g.open, a))),
                      ServoWrite(JawChannel, ClampAngle(JawAngle(g.close, g.open, c)))]
      && r.state == st.(position := c)
  {
    var reqs := [(a, NoFault), (b, NoFault), (c, NoFault)];
    var s1 := JawDirect(st, settings, a, NoFault);
    var s2 := JawDirect(s1.state, settings, b, NoFault);
    var s3 := JawDirect(s2.state, settings, c, NoFault);
    assert s2.state == s1.state && s2.writes == [];
    assert reqs[1..] == [(b, NoFault), (c, NoFault)];
    assert reqs[1..][1..] == [(c, NoFault)];
    assert DirectRun(s2.state, settings, [(c, NoFault)]) == JawResult(s3.state, s3.writes);
  }

  // ---------------------------------------------------------------------
  // Viseme pulse control

  /** The opening each viseme name asks for; an unknown name asks for a
      closed jaw. */
  function VisemePosition(viseme: string): (p: real)
    ensures 0.0 <= p <= 65.0
    ensures p == 0.0 <== viseme == "CLOSED"
  {
    if viseme == "CLOSED" then 0.0
    else if viseme == "NARROW" then 15.0
    else if viseme == "ROUNDED" then 20.0
    else if viseme == "MEDIUM" then 30.0
    else if viseme == "MEDIUM_OPEN" then 45.0
    else if viseme == "WIDE" then 65.0
    else 0.0
  }

  /** The position table follows the viseme ladder: a wider viseme never
      asks for a smaller opening, and only the closed viseme asks for none. */
  lemma VisemePositionMonotone(v: AudioMouth.Viseme, w: AudioMouth.Viseme)
    requires AudioMouth.Rank(v) <= AudioMouth.Rank(w)
    ensures VisemePosition(AudioMouth.VisemeName(v)) <= VisemePosition(AudioMouth.VisemeName(w))
    ensures VisemePosition(AudioMouth.VisemeName(v)) == 0.0 <==> v == AudioMouth.Closed
  {
  }

  /** A drive pulse: the drive angle, a pause of the pulse length, the stop
      angle. The pulse length is computed before the first write, so a
      duration that is missing or not a number writes nothing. The target
      becomes the position only when the whole pulse ran. */
  function Pulse(st: JawState, settings: Dict<Value>, factor: real, drive: string, target: real, fault: BusFault): (r: JawResult)
    ensures NumberAt(settings, "jaw_pulse_duration").None? ==> r == JawResult(st, [])
  {
    match NumberAt(settings, "jaw_pulse_duration")
    case None => JawResult(st, [])
    case Some(d) =>
      var run := Perform(PulseSteps(settings, d * factor, drive), fault);
      JawResult(if run.failure.None? then st.(position := target) else AfterFailure(st, run.failure), run.writes)
  }

  function PulseSteps(settings: Dict<Value>, seconds: real, drive: string): seq<Step>
  {
    [Write(JawChannel, SettingAngle(settings, drive)), Pause(seconds),
     Write(JawChannel, SettingAngle(settings, "jaw_stop_angle"))]
  }

  /** A pulse writes the jaw twice, within range. */
  lemma PulseShape(settings: Dict<Value>, seconds: real, drive: string)
    ensures WriteCount(PulseSteps(settings, seconds, drive)) == 2
    ensures StepsOn(PulseSteps(settings, seconds, drive), JawChannel, 0.0, 180.0)
  {
    var s := PulseSteps(settings, seconds, drive);
    assert s[1..][1..][1..] == [];
    assert WriteCount(s[1..][1..]) == 1;
    assert WriteCount(s[1..]) == 1;
  }

  /** With both angles available and a non-negative pause, a pulse asks for
      exactly the drive write and the stop write. */
  lemma PulseIntended(settings: Dict<Value>, seconds: real, drive: string)
    requires NumberAt(settings, drive).Some? && NumberAt(settings, "jaw_stop_angle").Some? && seconds >= 0.0
    ensures Evaluates(PulseSteps(settings, seconds, drive))
    ensures Intended(PulseSteps(settings, seconds, drive)) ==
      [ServoWrite(JawChannel, SettingAngle(settings, drive).value),
       ServoWrite(JawChannel, SettingAngle(settings, "jaw_stop_angle").value)]
  {
    var s := PulseSteps(settings, seconds, drive);
    assert s[1..][1..][1..] == [];
    assert Intended(s[1..][1..]) == [ServoWrite(JawChannel, SettingAngle(settings, "jaw_stop_angle").value)];
    assert Intended(s[1..]) == Intended(s[1..][1..]);
  }

  /** A negative pause ends a pulse after its drive write. */
  lemma PulseNegativePause(settings: Dict<Value>, seconds: real, drive: string)
    requires NumberAt(settings, drive).Some? && seconds < 0.0
    ensures Perform(PulseSteps(settings, seconds, drive), NoFault) ==
      Run([ServoWrite(JawChannel, SettingAngle(settings, drive).value)], Some(OtherError))
  {
    var s := PulseSteps(settings, seconds, drive);
    assert Perform(s[1..], NoFault) == Run([], Some(OtherError));
  }

  /** The settings a complete pulse toward `drive` needs are numbers and the
      duration is not negative. */
  predicate PulseReady(settings: Dict<Value>, drive: string)
  {
    && NumberAt(settings, "jaw_pulse_duration").Some? && NumberAt(settings, "jaw_pulse_duration").value >= 0.0
    && NumberAt(settings, drive).Some? && NumberAt(settings, "jaw_stop_angle").Some?
  }

  /** A pulse on a working bus with its settings in place runs whole and
      moves the position to the target. */
  lemma PulseCompletes(st: JawState, settings: Dict<Value>, factor: real, drive: string, target: real)
    requires PulseReady(settings, drive) && factor >= 0.0
    ensures Pulse(st, settings, factor, drive, target, NoFault) ==
      JawResult(st.(position := target),
                [ServoWrite(JawChannel, SettingAngle(settings, drive).value),
                 ServoWrite(JawChannel, SettingAngle(settings, "jaw_stop_angle").value)])
  {
    var d := NumberAt(settings, "jaw_pulse_duration").value;
    assert d * factor >= 0.0 by { ScaleBy(d, 0.0, factor); }
    PulseShape(settings, d * factor, drive);
    PulseIntended(settings, d * factor, drive);
  }

  /** A pulse whose length comes out negative stops after the drive write
      and keeps the position. */
  lemma PulseHalts(st: JawState, settings: Dict<Value>, factor: real, drive: string, target: real)
    requires NumberAt(settings, drive).Some? && factor > 0.0
    requires NumberAt(settings, "jaw_pulse_duration").Some? && NumberAt(settings, "jaw_pulse_duration").value < 0.0
    ensures Pulse(st, settings, factor, drive, target, NoFault) ==
      JawResult(st, [ServoWrite(JawChannel, SettingAngle(settings, drive).value)])
  {
    var d := NumberAt(settings, "jaw_pulse_duration").value;
    assert d * factor < 0.0 by { NegativeTimesPositive(d, factor); }
    PulseNegativePause(settings, d * factor, drive);
    PulseUnfold(st, settings, factor, drive, target, NoFault);
    assert AfterFailure(st, Some(OtherError)) == st;
  }

  lemma PulseUnfold(st: JawState, settings: Dict<Value>, factor: real, drive: string, target: real, fault: BusFault)
    requires NumberAt(settings, "jaw_pulse_duration").Some?
    ensures var run := Perform(PulseSteps(settings, NumberAt(settings, "jaw_pulse_duration").value * factor, drive), fault);
      Pulse(st, settings, factor, drive, target, fault) ==
        JawResult(if run.failure.None? then st.(position := target) else AfterFailure(st, run.failure), run.writes)
  {
  }

  /** A closed viseme with the jaw more than 5% open closes it. */
  predicate LegacyCloses(st: JawState, viseme: string)
  {
    viseme == "CLOSED" && st.position > 5.0
  }

  /** Otherwise a move of under 3% only sends the stop angle. */
  predicate LegacyHolds(st: JawState, viseme: string)
  {
    !LegacyCloses(st, viseme) && Abs(VisemePosition(viseme) - st.position) < 3.0
  }

  /** The drive angle the legacy control pulses toward, when it pulses. */
  function LegacyDrive(st: JawState, viseme: string): string
  {
    if LegacyCloses(st, viseme) then "jaw_close_angle"
    else if VisemePosition(viseme) - st.position > 0.0 then "jaw_open_angle" else "jaw_close_angle"
  }

  /** The pulse length as a share of `jaw_pulse_duration`: half the opening
      when closing, 45% of the move otherwise. */
  function LegacyFactor(st: JawState, viseme: string): real
  {
    if LegacyCloses(st, viseme) then (st.position / 100.0) * 0.5
    else (Abs(VisemePosition(viseme) - st.position) / 100.0) * 0.45
  }

  /** The position a completed legacy pulse records. */
  function LegacyTarget(st: JawState, viseme: string): real
  {
    if LegacyCloses(st, viseme) then 0.0 else VisemePosition(viseme)
  }

  /** `control_jaw_servo(viseme)`: a closed viseme with the jaw more than 5%
      open closes it with a pulse proportional to the opening; a move of
      under 3% only sends the stop angle; otherwise a pulse toward the open
      or the closed angle, proportional to the move. */
  function ControlJawServo(st: JawState, settings: Dict<Value>, viseme: string, fault: BusFault): (r: JawResult)
    ensures !st.available ==> r == JawResult(st, [])
    ensures r.state.available ==> st.available
  {
    if !st.available then JawResult(st, [])
    else if LegacyHolds(st, viseme) then
      var run := Perform([Write(JawChannel, SettingAngle(settings, "jaw_stop_angle"))], fault);
      JawResult(AfterFailure(st, run.failure), run.writes)
    else
      Pulse(st, settings, LegacyFactor(st, viseme), LegacyDrive(st, viseme), LegacyTarget(st, viseme), fault)
  }

  /** The legacy control only ever writes the jaw within range, at most
      twice, and leaves the jaw either where it was or at the viseme's
      opening. */
  lemma LegacyBounds(st: JawState, settings: Dict<Value>, viseme: string, fault: BusFault)
    ensures var r := ControlJawServo(st, settings, viseme, fault);
      && WritesOn(r.writes, JawChannel, 0.0, 180.0) && |r.writes| <= 2
      && (r.state.position == st.position || r.state.position == VisemePosition(viseme))
  {
    if st.available {
      var stop := [Write(JawChannel, SettingAngle(settings, "jaw_stop_angle"))];
      assert WriteCount(stop) == 1;
      PerformWritesOn(stop, fault, JawChannel, 0.0, 180.0);
      forall f: real, drive: string
        ensures WritesOn(Perform(PulseSteps(settings, f, drive), fault).writes, JawChannel, 0.0, 180.0)
        ensures |Perform(PulseSteps(settings, f, drive), fault).writes| <= 2
      {
        PulseShape(settings, f, drive);
        PerformWritesOn(PulseSteps(settings, f, drive), fault, JawChannel, 0.0, 180.0);
      }
    }
  }

  /** With a complete calibration and a working bus, the legacy control
      does what its three cases promise: the closing pulse, the bare stop,
      or a pulse in the direction of the move, each ending on the stop
      angle. */
  lemma LegacyCompletes(st: JawState, settings: Dict<Value>, viseme: string)
    requires st.available && PulseReady(settings, LegacyDrive(st, viseme))
    ensures var r := ControlJawServo(st, settings, viseme, NoFault);
      var stop := ServoWrite(JawChannel, SettingAngle(settings, "jaw_stop_angle").value);
      var drive := ServoWrite(JawChannel, SettingAngle(settings, LegacyDrive(st, viseme)).value);
      var move := VisemePosition(viseme) - st.position;
      && (viseme == "CLOSED" && st.position > 5.0 ==> r == JawResult(st.(position := 0.0), [drive, stop]))
      && (!(viseme == "CLOSED" && st.position > 5.0) && Abs(move) < 3.0 ==> r == JawResult(st, [stop]))
      && (!(viseme == "CLOSED" && st.position > 5.0) && Abs(move) >= 3.0 ==>
            r == JawResult(st.(position := VisemePosition(viseme)), [drive, stop]))
  {
    if LegacyHolds(st, viseme) {
      var s := [Write(JawChannel, SettingAngle(settings, "jaw_stop_angle"))];
      assert WriteCount(s) == 1;
      assert Evaluates(s);
    } else {
      PulseCompletes(st, settings, LegacyFactor(st, viseme), LegacyDrive(st, viseme), LegacyTarget(st, viseme));
    }
  }

  /** `time.sleep` rejects a negative length, so with a negative pulse
      duration a pulse stops after its drive write: the jaw is left driven
      toward the open or closed angle without the stop angle, and the
      position is not updated. */
  lemma NegativeDurationStopsHalfway(st: JawState, settings: Dict<Value>, viseme: string)
    requires st.available && NumberAt(settings, LegacyDrive(st, viseme)).Some?
    requires NumberAt(settings, "jaw_pulse_duration").Some? && NumberAt(settings, "jaw_pulse_duration").value < 0.0
    requires (viseme == "CLOSED" && st.position > 5.0) || Abs(VisemePosition(viseme) - st.position) >= 3.0
    ensures ControlJawServo(st, settings, viseme, NoFault) ==
      JawResult(st, [ServoWrite(JawChannel, SettingAngle(settings, LegacyDrive(st, viseme)).value)])
  {
    PulseHalts(st, settings, LegacyFactor(st, viseme), LegacyDrive(st, viseme), LegacyTarget(st, viseme));
  }

  lemma NegativeTimesPositive(a: real, b: real)
    requires a < 0.0 && b > 0.0
    ensures a * b < 0.0
  {
  }

  // ---------------------------------------------------------------------
  // Closing sequences

  const RampSteps: nat := 10

  const HoldWrites: nat := 5

  /** The closing ramp run when speech ends: ten angles from the current
      angle to the target in equal steps. */
  function Ramp(current: real, target: real): (r: seq<real>)
    ensures |r| == RampSteps
  {
    seq(RampSteps, i requires 0 <= i < RampSteps => RampAngle(current, target, i))
  }

  /** Angle `i` of the ramp. */
  function RampAngle(current: real, target: real, i: nat): real
  {
    Lerp(current, target, RampFraction(i))
  }

  /** The point a share `t` of the way from `current` to `target`. */
  function Lerp(current: real, target: real, t: real): real
  {
    current + (target - current) * t
  }

  /** The share of the way covered after step `i` of the ramp. */
  function RampFraction(i: nat): (t: real)
    ensures i < RampSteps ==> 0.0 < t <= 1.0
  {
    (i + 1) as real / RampSteps as real
  }

  /** The ramp ends exactly on the target, every angle lies between the
      current angle and the target, and the angles move monotonically
      toward the target. */
  lemma RampShape(current: real, target: real)
    ensures Ramp(current, target)[RampSteps - 1] == target
    ensures forall i :: 0 <= i < RampSteps ==>
      Min(current, target) <= Ramp(current, target)[i] <= Max(current, target)
    ensures forall i, j :: 0 <= i <= j < RampSteps ==>
      Abs(Ramp(current, target)[j] - target) <= Abs(Ramp(current, target)[i] - target)
  {
    var r := Ramp(current, target);
    assert RampFraction(RampSteps - 1) == 1.0;
    forall i | 0 <= i < RampSteps
      ensures Min(current, target) <= r[i] <= Max(current, target)
    {
      RampWithin(current, target, i);
    }
    forall i, j | 0 <= i <= j < RampSteps
      ensures Abs(r[j] - target) <= Abs(r[i] - target)
    {
      RampCloser(current, target, i, j);
    }
  }

  lemma RampCloser(current: real, target: real, i: nat, j: nat)
    requires i <= j < RampSteps
    ensures Abs(RampAngle(current, target, j) - target) <= Abs(RampAngle(current, target, i) - target)
  {
    FractionGrows(i, j);
    LerpCloser(current, target, RampFraction(i), RampFraction(j));
  }

  /** Further along a straight line toward the target is no further from
      it. */
  lemma LerpCloser(current: real, target: real, earlier: real, later: real)
    requires 0.0 <= earlier <= later <= 1.0
    ensures Abs(Lerp(current, target, later) - target) <= Abs(Lerp(current, target, earlier) - target)
  {
    RampPoint(current, target, earlier);
    RampPoint(current, target, later);
    ShrinkingGap(Abs(current + (target - current) * later - target), Abs(current + (target - current) * earlier - target),
                 Abs(target - current), later, earlier);
  }

  lemma ShrinkingGap(a: real, b: real, k: real, later: real, earlier: real)
    requires k >= 0.0 && earlier <= later
    requires a == k * (1.0 - later) && b == k * (1.0 - earlier)
    ensures a <= b
  {
    ScaleBy(k, 1.0 - later, 1.0 - earlier);
  }

  lemma FractionGrows(i: nat, j: nat)
    requires i <= j
    ensures RampFraction(i) <= RampFraction(j)
  {
  }

  lemma RampWithin(current: real, target: real, i: nat)
    requires i < RampSteps
    ensures Min(current, target) <= RampAngle(current, target, i) <= Max(current, target)
  {
    RampPoint(current, target, RampFraction(i));
  }

  lemma RampPoint(current: real, target: real, t: real)
    requires 0.0 <= t <= 1.0
    ensures var a := current + (target - current) * t;
      && Min(current, target) <= a <= Max(current, target)
      && Abs(a - target) == Abs(target - current) * (1.0 - t)
  {
    var gap := target - current;
    var p := gap * t;
    var q := gap * (1.0 - t);
    assert p + q == gap;
    if gap >= 0.0 {
      MulNonNegative(gap, t);
      MulNonNegative(gap, 1.0 - t);
    } else {
      var m := -gap;
      MulNonNegative(m, t);
      MulNonNegative(m, 1.0 - t);
      NegateFactor(m, t);
      NegateFactor(m, 1.0 - t);
      assert Abs(gap) == m;
    }
  }

  lemma MulNonNegative(a: real, b: real)
    requires a >= 0.0 && b >= 0.0
    ensures a * b >= 0.0
  {
  }

  lemma NegateFactor(a: real, b: real)
    ensures (-a) * b == -(a * b)
  {
  }

  /** The writes of the speech-end close: the ramp, then the target held
      five times, every angle clamped. */
  function CloseSteps(current: real, target: real): (s: seq<Step>)
    ensures |s| == RampSteps + HoldWrites
    ensures forall i :: 0 <= i < |s| ==> s[i].Write? && s[i].channel == JawChannel && s[i].angle.Some?
    ensures forall i :: 0 <= i < RampSteps ==> s[i].angle.value == ClampAngle(Ramp(current, target)[i])
    ensures forall i :: RampSteps <= i < |s| ==> s[i].angle.value == ClampAngle(target)
    ensures StepsOn(s, JawChannel, 0.0, 180.0)
  {
    var ramp := Ramp(current, target);
    seq(RampSteps, i requires 0 <= i < RampSteps => Write(JawChannel, Some(ClampAngle(ramp[i]))))
    + seq(HoldWrites, i requires 0 <= i < HoldWrites => Write(JawChannel, Some(ClampAngle(target))))
  }

  /** What the speech-end close leaves: the jaw, and whether the watcher
      thread survived (an exception there is not caught and ends it). */
  datatype CloseResult = CloseResult(jaw: JawResult, watcherAlive: bool)

  /** The servo part of the speech-end watcher. With the servo available,
      the ramp from the current opening's angle to the closed angle and
      five holds, after which the position is closed; a setting that is not
      a number or a failing write ends the watcher. Without the servo, only
      the tracked position is reset. */
  function SpeechEndClose(st: JawState, settings: Dict<Value>, fault: BusFault): (r: CloseResult)
    ensures !st.available ==> r == CloseResult(JawResult(st.(position := 0.0), []), true)
    ensures r.jaw.state.available == st.available
    ensures r.watcherAlive ==> r.jaw.state.position == 0.0
    ensures !r.watcherAlive ==> r.jaw.state == st
    ensures WritesOn(r.jaw.writes, JawChannel, 0.0, 180.0)
  {
    if !st.available then
      var direct := JawDirect(st, settings, 0.0, fault);
      CloseResult(JawResult(direct.state.(position := 0.0), direct.writes), true)
    else match (NumberAt(settings, "jaw_close_angle"), NumberAt(settings, "jaw_open_angle"))
      case (Some(c), Some(o)) =>
        var steps := CloseSteps(JawAngle(c, o, st.position), c);
        var run := Perform(steps, fault);
        PerformWritesOn(steps, fault, JawChannel, 0.0, 180.0);
        if run.failure.None? then CloseResult(JawResult(st.(position := 0.0), run.writes), true)
        else CloseResult(JawResult(st, run.writes), false)
      case _ => CloseResult(JawResult(st, []), false)
  }

  /** On a working bus the speech-end close writes the ramp toward the
      closed angle and then holds it five times; the last write is the
      closed angle itself (clamped). */
  lemma SpeechEndRamps(st: JawState, settings: Dict<Value>)
    requires st.available
    requires NumberAt(settings, "jaw_close_angle").Some? && NumberAt(settings, "jaw_open_angle").Some?
    ensures var c := NumberAt(settings, "jaw_close_angle").value;
      var o := NumberAt(settings, "jaw_open_angle").value;
      var r := SpeechEndClose(st, settings, NoFault);
      var ramp := Ramp(JawAngle(c, o, st.position), c);
      && r.watcherAlive && r.jaw.state == st.(position := 0.0)
      && |r.jaw.writes| == RampSteps + HoldWrites
      && (forall i :: 0 <= i < RampSteps ==> r.jaw.writes[i] == ServoWrite(JawChannel, ClampAngle(ramp[i])))
      && (forall i :: RampSteps <= i < RampSteps + HoldWrites ==> r.jaw.writes[i] == ServoWrite(JawChannel, ClampAngle(c)))
      && r.jaw.writes[RampSteps - 1] == r.jaw.writes[RampSteps + HoldWrites - 1]
  {
    var c := NumberAt(settings, "jaw_close_angle").value;
    var o := NumberAt(settings, "jaw_open_angle").value;
    var steps := CloseSteps(JawAngle(c, o, st.position), c);
    AllWritesIntended(steps);
    RampShape(JawAngle(c, o, st.position), c);
  }

  /** The jaw part of stopping a session: a direct request to close, then,
      if the servo is still available, ten raw writes of 0 degrees after
      which the position is closed. A failing raw write is caught by the
      session's general handler, which neither latches the servo off nor
      moves the position. */
  function SessionStopClose(st: JawState, settings: Dict<Value>, directFault: BusFault, holdFault: BusFault): (r: JawResult)
    ensures !st.available ==> r == JawResult(st, [])
    ensures r.state.available <==> JawDirect(st, settings, 0.0, directFault).state.available
    ensures WritesOn(r.writes, JawChannel, 0.0, 180.0)
    ensures r.state.available && !Hits(holdFault, 10) ==> r.state.position == 0.0
    ensures Hits(holdFault, 10) ==> r.state == JawDirect(st, settings, 0.0, directFault).state
    ensures |JawDirect(st, settings, 0.0, directFault).writes| <= |r.writes|
    ensures r.writes[..|JawDirect(st, settings, 0.0, directFault).writes|] == JawDirect(st, settings, 0.0, directFault).writes
    ensures forall i :: |JawDirect(st, settings, 0.0, directFault).writes| <= i < |r.writes| ==>
      r.writes[i] == ServoWrite(JawChannel, 0.0)
    ensures JawDirect(st, settings, 0.0, directFault).state.available && !Hits(holdFault, 10) ==>
      |r.writes| == |JawDirect(st, settings, 0.0, directFault).writes| + 10
  {
    var direct := JawDirect(st, settings, 0.0, directFault);
    var r := ForceClose(direct, holdFault);
    assert WritesOn(direct.writes, JawChannel, 0.0, 180.0);
    assert forall i :: 0 <= i < |r.writes| ==> r.writes[i] == if i < |direct.writes| then direct.writes[i] else ServoWrite(JawChannel, 0.0);
    r
  }

  /** After the direct request `direct`: when the servo is still available,
      the ten raw 0-degree writes follow the request's own writes, and a
      complete run records the jaw closed. */
  function ForceClose(direct: JawResult, holdFault: BusFault): (r: JawResult)
    ensures !direct.state.available ==> r == direct
    ensures r.state.available == direct.state.available
    ensures |direct.writes| <= |r.writes| && r.writes[..|direct.writes|] == direct.writes
    ensures forall i :: |direct.writes| <= i < |r.writes| ==> r.writes[i] == ServoWrite(JawChannel, 0.0)
    ensures direct.state.available && !Hits(holdFault, 10) ==>
      |r.writes| == |direct.writes| + 10 && r.state == direct.state.(position := 0.0)
    ensures Hits(holdFault, 10) ==> r.state == direct.state
  {
    if !direct.state.available then direct
    else
      var run := Perform(ZeroHolds, holdFault);
      ZeroHoldWrites(holdFault);
      var writes := direct.writes + run.writes;
      assert writes[..|direct.writes|] == direct.writes;
      JawResult(if run.failure.None? then direct.state.(position := 0.0) else direct.state, writes)
  }

  /** The ten raw writes of 0 degrees that force the jaw shut on stop. */
  const ZeroHold: Step := Write(JawChannel, Some(0.0))

  const ZeroHolds: seq<Step> :=
    [ZeroHold, ZeroHold, ZeroHold, ZeroHold, ZeroHold, ZeroHold, ZeroHold, ZeroHold, ZeroHold, ZeroHold]

  /** Whatever fails, the forced close writes only 0 degrees on the jaw
      channel, all ten of them when no write fails. */
  lemma ZeroHoldWrites(fault: BusFault)
    ensures forall i :: 0 <= i < |Perform(ZeroHolds, fault).writes| ==>
      Perform(ZeroHolds, fault).writes[i] == ServoWrite(JawChannel, 0.0)
    ensures Perform(ZeroHolds, fault).failure.None? <==> !Hits(fault, 10)
    ensures !Hits(fault, 10) ==> |Perform(ZeroHolds, fault).writes| == 10
  {
    AllWritesIntended(ZeroHolds);
    var run := Perform(ZeroHolds, fault);
    assert run.writes <= Intended(ZeroHolds);
    forall i | 0 <= i < |run.writes| ensures run.writes[i] == ServoWrite(JawChannel, 0.0) {
      assert run.writes[i] == Intended(ZeroHolds)[i];
    }
  }
}

=== FILE: json.dfy ===
/** The values that travel through the settings file and the control
    channel: JSON documents as Python sees them after `json.load` or a
    socket message, with the two Python behaviours the controller relies
    on, truthiness and arithmetic on booleans. */
module Json {
  import opened Common
  import opened Dict

  datatype Value =
    | Null
    | Bool(b: bool)
    | Int(i: int)
    | Real(r: real)
    | Str(s: string)
    | Object(fields: seq<(string, Value)>)
    | Array(items: seq<Value>)

  /** Python truthiness: `None`, `False`, zero and empty containers are
      false. */
  predicate Truthy(v: Value)
  {
    match v
    case Null => false
    case Bool(b) => b
    case Int(i) => i != 0
    case Real(r) => r != 0.0
    case Str(s) => |s| > 0
    case Object(f) => |f| > 0
    case Array(a) => |a| > 0
  }

  /** The value as an operand of `+`, `-`, `*` and the comparisons: `bool`
      is a subclass of `int`, so `True` counts as 1; anything else that is
      not a number raises `TypeError` (here `None`). */
  function AsNumber(v: Value): (r: Option<real>)
    ensures r.Some? <==> v.Bool? || v.Int? || v.Real?
    ensures v.Int? ==> r == Some(v.i as real)
    ensures v.Real? ==> r == Some(v.r)
    ensures v.Bool? ==> r == Some(if v.b then 1.0 else 0.0)
  {
    match v
    case Bool(b) => Some(if b then 1.0 else 0.0)
    case Int(i) => Some(i as real)
    case Real(r) => Some(r)
    case _ => None
  }

  /** For a number, truthiness is being non-zero. */
  lemma TruthyNumber(v: Value)
    requires AsNumber(v).Some?
    ensures Truthy(v) <==> AsNumber(v).value != 0.0
  {
  }

  /** `d[key]` used as a number: a missing key (`KeyError`) and a
      non-number (`TypeError`) both give `None`. */
  function NumberAt(d: Dict<Value>, key: string): (r: Option<real>)
    ensures !Has(d, key) ==> r.None?
    ensures Has(d, key) ==> r == AsNumber(Get(d, key).value)
  {
    match Get(d, key)
    case None => None
    case Some(v) => AsNumber(v)
  }

  /** `d.get(key, default)` used as a number: a missing key gives the
      default, a present non-number gives `None`. */
  function NumberOr(d: Dict<Value>, key: string, default: real): (r: Option<real>)
    ensures !Has(d, key) ==> r == Some(default)
    ensures Has(d, key) ==> r == AsNumber(Get(d, key).value)
  {
    match Get(d, key)
    case None => Some(default)
    case Some(v) => AsNumber(v)
  }
}

=== FILE: platform.dfy ===
/** Platform detection and the per-platform decision table: which camera
    source, backend and frame rate to use, and which I2C bus the servo
    driver sits on.

    The facts detection reads from the host are inputs: the operating
    system name, whether the Tegra release file exists, and the contents of
    the CPU information file (`None` when it cannot be read). */
module Platform {
  import opened Common

  datatype PlatformKind = RaspberryPi | JetsonNano | Mac | Linux | Unknown

  /** The platform names the configuration reports. */
  function PlatformName(k: PlatformKind): string
  {
    match k
    case RaspberryPi => "raspberry_pi"
    case JetsonNano => "jetson_nano"
    case Mac => "mac"
    case Linux => "linux"
    case Unknown => "unknown"
  }

  function ParsePlatformName(s: string): Option<PlatformKind>
  {
    if s == "raspberry_pi" then Some(RaspberryPi)
    else if s == "jetson_nano" then Some(JetsonNano)
    else if s == "mac" then Some(Mac)
    else if s == "linux" then Some(Linux)
    else if s == "unknown" then Some(Unknown)
    else None
  }

  /** Every platform has its own name, and the name identifies it. */
  lemma PlatformNameRoundTrip(k: PlatformKind)
    ensures ParsePlatformName(PlatformName(k)) == Some(k)
  {
  }

  /** The CPU information identifies a Raspberry Pi. */
  predicate MentionsPi(cpuinfo: Option<string>)
  {
    cpuinfo.Some? && (Contains(cpuinfo.value, "Raspberry Pi") || Contains(cpuinfo.value, "BCM"))
  }

  /** `_detect_platform`: Darwin first, then the Tegra release file, then
      the CPU information, then a generic Linux; anything else is unknown. */
  function Detect(system: string, tegraExists: bool, cpuinfo: Option<string>): (k: PlatformKind)
    ensures k == Mac <==> system == "Darwin"
    ensures k == JetsonNano <==> system != "Darwin" && tegraExists
    ensures k == RaspberryPi <==> system != "Darwin" && !tegraExists && MentionsPi(cpuinfo)
    ensures k == Linux <==> system != "Darwin" && !tegraExists && !MentionsPi(cpuinfo) && system == "Linux"
    ensures k == Unknown <==> system != "Darwin" && !tegraExists && !MentionsPi(cpuinfo) && system != "Linux"
  {
    if system == "Darwin" then Mac
    else if tegraExists then JetsonNano
    else if MentionsPi(cpuinfo) then RaspberryPi
    else if system == "Linux" then Linux
    else Unknown
  }

  /** A Linux host whose CPU information names a BCM chip anywhere is taken
      for a Raspberry Pi, whatever surrounds the mention. */
  lemma BcmMeansPi(before: string, after: string)
    ensures Detect("Linux", false, Some(before + "BCM" + after)) == RaspberryPi
  {
    ContainsMiddle(before, "BCM", after);
  }

  // ---------------------------------------------------------------------
  // Camera

  datatype CameraDevice = DeviceIndex(index: nat) | DevicePath(path: string)

  datatype CameraConfig = CameraConfig(
    device: CameraDevice,
    backend: Option<string>,
    useGstreamer: bool,
    width: nat,
    height: nat,
    fps: nat)

  const SourceHead: string := "nvarguscamerasrc ! video/x-raw(memory:NVMM), "

  function WidthField(width: nat): string { "width=(int)" + Dec(width) }

  function HeightField(height: nat): string { "height=(int)" + Dec(height) }

  const CaptureFormat: string := ", format=(string)NV12, "

  function CaptureTail(height: nat): string { ", " + HeightField(height) + CaptureFormat }

  function RateField(framerate: nat): string { "framerate=(fraction)" + Dec(framerate) + "/1" }

  const ConvertPart: string := " ! nvvidconv "

  function FlipField(flipMethod: nat): string { "flip-method=" + Dec(flipMethod) }

  /** The display caps' size fields. */
  function SizeFields(width: nat, height: nat): string
  {
    WidthField(width) + ", " + HeightField(height)
  }

  const DisplayHead: string := " ! video/x-raw, "

  const DisplayTail: string := ", format=(string)BGRx ! videoconvert ! video/x-raw, format=(string)BGR ! appsink"

  function DisplayPart(width: nat, height: nat): string
  {
    DisplayHead + SizeFields(width, height) + DisplayTail
  }

  /** The pieces of the CSI camera pipeline, in order. */
  function SourceParts(captureWidth: nat, captureHeight: nat, displayWidth: nat, displayHeight: nat,
                       framerate: nat, flipMethod: nat): seq<string>
  {
    [SourceHead, WidthField(captureWidth), CaptureTail(captureHeight), RateField(framerate),
     ConvertPart, FlipField(flipMethod), DisplayPart(displayWidth, displayHeight)]
  }

  /** `_get_jetson_gstreamer_source` with all its parameters. */
  function GstreamerSource(captureWidth: nat, captureHeight: nat, displayWidth: nat, displayHeight: nat,
                           framerate: nat, flipMethod: nat): string
  {
    Concat(SourceParts(captureWidth, captureHeight, displayWidth, displayHeight, framerate, flipMethod))
  }

  /** The pipeline with its default arguments: 640x480 capture and display,
      20 frames per second, no flip. */
  function JetsonSource(): string
  {
    GstreamerSource(640, 480, 640, 480, 20, 0)
  }

  /** The pipeline carries the requested capture size, display size, frame
      rate and flip method, and starts with the CSI camera source element. */
  lemma GstreamerSourceCarriesSettings(cw: nat, ch: nat, dw: nat, dh: nat, framerate: nat, flip: nat)
    ensures var src := GstreamerSource(cw, ch, dw, dh, framerate, flip);
      && Contains(src, "framerate=(fraction)" + Dec(framerate) + "/1")
      && Contains(src, "flip-method=" + Dec(flip))
      && Contains(src, "width=(int)" + Dec(cw))
      && Contains(src, "height=(int)" + Dec(ch))
      && Contains(src, "width=(int)" + Dec(dw) + ", height=(int)" + Dec(dh))
      && OccursAt(src, "nvarguscamerasrc", 0)
  {
    var p := SourceParts(cw, ch, dw, dh, framerate, flip);
    ContainsPart(p, 1);
    ContainsPart(p, 2);
    ContainsPart(p, 3);
    ContainsPart(p, 5);
    ContainsPart(p, 6);
    CaptureHeightIn(Concat(p), ch);
    DisplaySizeIn(Concat(p), dw, dh);
    assert Concat(p)[0..16] == SourceHead[0..16];
  }

  /** A string holding the capture tail holds the capture height. */
  lemma CaptureHeightIn(src: string, ch: nat)
    requires Contains(src, CaptureTail(ch))
    ensures Contains(src, "height=(int)" + Dec(ch))
  {
    ContainsMiddle(", ", HeightField(ch), CaptureFormat);
    ContainsTrans(src, CaptureTail(ch), HeightField(ch));
  }

  /** A string holding the display part holds the display size. */
  lemma DisplaySizeIn(src: string, dw: nat, dh: nat)
    requires Contains(src, DisplayPart(dw, dh))
    ensures Contains(src, "width=(int)" + Dec(dw) + ", height=(int)" + Dec(dh))
  {
    ContainsMiddle(DisplayHead, SizeFields(dw, dh), DisplayTail);
    ContainsTrans(src, DisplayPart(dw, dh), SizeFields(dw, dh));
    assert ", " + "height=(int)" == ", height=(int)";
    assert SizeFields(dw, dh) == "width=(int)" + Dec(dw) + ", height=(int)" + Dec(dh);
  }

  lemma DefaultNumerals()
    ensures Dec(640) == "640" && Dec(480) == "480" && Dec(20) == "20" && Dec(0) == "0"
  {
    assert Dec(6) == "6" && Dec(4) == "4" && Dec(2) == "2";
    assert Dec(64) == "64" && Dec(48) == "48";
  }

  lemma DefaultFields()
    ensures "width=(int)" + Dec(640) == "width=(int)640"
    ensures "height=(int)" + Dec(480) == "height=(int)480"
    ensures "width=(int)" + Dec(640) + ", height=(int)" + Dec(480) == "width=(int)640, height=(int)480"
    ensures "framerate=(fraction)" + Dec(20) + "/1" == "framerate=(fraction)20/1"
    ensures "flip-method=" + Dec(0) == "flip-method=0"
  {
    DefaultNumerals();
  }

  /** The default pipeline: 640 by 480 capture and display, 20 frames per
      second, no flip. */
  lemma JetsonSourceDefaults()
    ensures var src := JetsonSource();
      && Contains(src, "width=(int)640") && Contains(src, "height=(int)480")
      && Contains(src, "width=(int)640, height=(int)480")
      && Contains(src, "framerate=(fraction)20/1") && Contains(src, "flip-method=0")
  {
    DefaultFields();
    GstreamerSourceCarriesSettings(640, 480, 640, 480, 20, 0);
  }

  /** `_get_camera_config`: the row of the decision table for a platform. */
  function CameraConfigFor(k: PlatformKind): (c: CameraConfig)
    ensures c.width == 640 && c.height == 480
    ensures c.useGstreamer <==> k == JetsonNano
    ensures c.fps == (if k == JetsonNano || k == RaspberryPi then 20 else 30)
    ensures c.backend.None? <==> k in {Mac, Linux, Unknown}
    ensures k == JetsonNano ==> c.device == DevicePath(JetsonSource()) && c.backend == Some("CAP_GSTREAMER")
    ensures k == RaspberryPi ==> c.device == DevicePath("/dev/video0") && c.backend == Some("CAP_V4L2")
    ensures k in {Mac, Linux, Unknown} ==> c.device == DeviceIndex(0)
  {
    match k
    case Mac => CameraConfig(DeviceIndex(0), None, false, 640, 480, 30)
    case JetsonNano => CameraConfig(DevicePath(JetsonSource()), Some("CAP_GSTREAMER"), true, 640, 480, 20)
    case RaspberryPi => CameraConfig(DevicePath("/dev/video0"), Some("CAP_V4L2"), false, 640, 480, 20)
    case _ => CameraConfig(DeviceIndex(0), None, false, 640, 480, 30)
  }

  /** The GStreamer pipeline the Jetson row uses runs at the frame rate the
      row reports. */
  lemma JetsonRowConsistent()
    ensures CameraConfigFor(JetsonNano).useGstreamer
    ensures var c := CameraConfigFor(JetsonNano);
      c.device.DevicePath? && Contains(c.device.path, "framerate=(fraction)" + Dec(c.fps) + "/1")
  {
    GstreamerSourceCarriesSettings(640, 480, 640, 480, 20, 0);
  }

  // ---------------------------------------------------------------------
  // I2C and the platform predicates

  /** `get_i2c_bus`: a USB adapter on a Mac needs no bus number; every
      other platform uses bus 1. */
  function I2cBus(k: PlatformKind): (bus: Option<nat>)
    ensures bus.None? <==> k == Mac
    ensures bus.Some? ==> bus.value == 1
  {
    if k == Mac then None else Some(1)
  }

  predicate IsJetson(k: PlatformKind) { k == JetsonNano }

  predicate IsRaspberryPi(k: PlatformKind) { k == RaspberryPi }

  predicate IsMac(k: PlatformKind) { k == Mac }

  /** `is_linux` counts the two boards as Linux too. */
  predicate IsLinux(k: PlatformKind) { k in {Linux, JetsonNano, RaspberryPi} }

  /** The platform predicates partition the known platforms: a Mac is never
      Linux, each board is Linux, and only an unknown platform satisfies
      none of them. */
  lemma PlatformPredicatesPartition(k: PlatformKind)
    ensures IsMac(k) ==> !IsLinux(k)
    ensures IsJetson(k) || IsRaspberryPi(k) ==> IsLinux(k)
    ensures !(IsJetson(k) && IsRaspberryPi(k))
    ensures k == Unknown <==> !IsMac(k) && !IsLinux(k)
  {
  }

  /** Every host with a Tegra release file or a Pi CPU is a Linux host with
      an I2C bus numbered 1, unless it reports itself as Darwin. */
  lemma BoardsUseBusOne(system: string, tegraExists: bool, cpuinfo: Option<string>)
    requires system != "Darwin" && (tegraExists || MentionsPi(cpuinfo))
    ensures IsLinux(Detect(system, tegraExists, cpuinfo))
    ensures I2cBus(Detect(system, tegraExists, cpuinfo)) == Some(1)
    ensures CameraConfigFor(Detect(system, tegraExists, cpuinfo)).fps == 20
  {
  }
}

=== FILE: rig.dfy ===
/** Rig configurations: the named servo layouts of the supported robot heads
    (channel numbers, default angles, legal angle ranges and closed-eyelid
    angles), the lookups with their defaults, and the catalog selected by name. */
module Rig {
  import opened Common
  import opened Dict

  datatype AngleRange = AngleRange(lo: real, hi: real)
  {
    predicate Contains(a: real) { lo <= a <= hi }
  }

  /** A servo layout. `blinkAngles` is `None` for a rig class that defines no
      blink table at all (the source tests for it with `hasattr`). */
  datatype RigConfig = RigConfig(
    name: string,
    servoCount: nat,
    channels: Dict<nat>,
    defaultAngles: Dict<real>,
    angleRanges: Dict<AngleRange>,
    blinkAngles: Option<Dict<real>>)

  /** Angle range used for a servo the rig does not list. */
  const FullRange := AngleRange(0.0, 180.0)

  /** Default angle used for a servo the rig does not list. */
  const FallbackDefault: real := 90.0

  function GetChannel(rig: RigConfig, servo: string): (r: Option<nat>)
    ensures r.Some? <==> Has(rig.channels, servo)
    ensures r.Some? ==> exists i :: 0 <= i < |rig.channels| && rig.channels[i] == (servo, r.value)
  {
    Get(rig.channels, servo)
  }

  function GetDefaultAngle(rig: RigConfig, servo: string): (r: real)
    ensures !Has(rig.defaultAngles, servo) ==> r == FallbackDefault
    ensures Has(rig.defaultAngles, servo) ==>
      exists i :: 0 <= i < |rig.defaultAngles| && rig.defaultAngles[i] == (servo, r)
  {
    GetOr(rig.defaultAngles, servo, FallbackDefault)
  }

  function GetAngleRange(rig: RigConfig, servo: string): (r: AngleRange)
    ensures !Has(rig.angleRanges, servo) ==> r == FullRange
    ensures Has(rig.angleRanges, servo) ==>
      exists i :: 0 <= i < |rig.angleRanges| && rig.angleRanges[i] == (servo, r)
  {
    GetOr(rig.angleRanges, servo, FullRange)
  }

  // ---------------------------------------------------------------------
  // Well-formedness of a rig

  predicate DistinctChannels(rig: RigConfig)
  {
    forall i, j :: 0 <= i < j < |rig.channels| ==> rig.channels[i].1 != rig.channels[j].1
  }

  predicate RangesOrdered(rig: RigConfig)
  {
    forall i :: 0 <= i < |rig.angleRanges| ==> rig.angleRanges[i].1.lo <= rig.angleRanges[i].1.hi
  }

  /** Every angle of `table` lies in the range the rig gives the same servo. */
  predicate WithinRanges(rig: RigConfig, table: Dict<real>)
  {
    forall i, j :: 0 <= i < |table| && 0 <= j < |rig.angleRanges| && table[i].0 == rig.angleRanges[j].0 ==>
      rig.angleRanges[j].1.Contains(table[i].1)
  }

  predicate BlinkWellFormed(rig: RigConfig)
  {
    rig.blinkAngles.Some? ==>
      && Valid(rig.blinkAngles.value)
      && KeySet(rig.blinkAngles.value) <= KeySet(rig.channels)
      && WithinRanges(rig, rig.blinkAngles.value)
  }

  /** The invariants every catalog rig satisfies. */
  predicate WellFormed(rig: RigConfig)
  {
    && Valid(rig.channels) && Valid(rig.defaultAngles) && Valid(rig.angleRanges)
    && |rig.channels| == rig.servoCount
    && DistinctChannels(rig)
    && KeySet(rig.channels) == KeySet(rig.defaultAngles) == KeySet(rig.angleRanges)
    && RangesOrdered(rig)
    && WithinRanges(rig, rig.defaultAngles)
    && BlinkWellFormed(rig)
  }

  /** In a well-formed rig every listed servo has a channel, a range and a
      default, and the looked-up default lies in the looked-up range. */
  lemma DefaultWithinRange(rig: RigConfig, servo: string)
    requires WellFormed(rig)
    requires Has(rig.channels, servo)
    ensures Has(rig.defaultAngles, servo) && Has(rig.angleRanges, servo)
    ensures GetAngleRange(rig, servo).lo <= GetAngleRange(rig, servo).hi
    ensures GetAngleRange(rig, servo).Contains(GetDefaultAngle(rig, servo))
  {
    assert servo in KeySet(rig.channels);
    var i := IndexOf(rig.defaultAngles, servo);
    var j := IndexOf(rig.angleRanges, servo);
    GetAt(rig.defaultAngles, i);
    GetAt(rig.angleRanges, j);
  }

  /** The looked-up range of any servo name, listed or not, is ordered. */
  lemma RangeOrdered(rig: RigConfig, servo: string)
    requires WellFormed(rig)
    ensures GetAngleRange(rig, servo).lo <= GetAngleRange(rig, servo).hi
  {
    if Has(rig.angleRanges, servo) {
      GetAt(rig.angleRanges, IndexOf(rig.angleRanges, servo));
    }
  }

  /** Closed-eyelid angles lie in their servo's range. */
  lemma BlinkWithinRange(rig: RigConfig, i: nat)
    requires WellFormed(rig) && rig.blinkAngles.Some? && i < |rig.blinkAngles.value|
    ensures GetAngleRange(rig, rig.blinkAngles.value[i].0).Contains(rig.blinkAngles.value[i].1)
  {
    var servo := rig.blinkAngles.value[i].0;
    assert servo in KeySet(rig.channels);
    var j := IndexOf(rig.angleRanges, servo);
    GetAt(rig.angleRanges, j);
  }

  // ---------------------------------------------------------------------
  // The catalog

  /** InMoov head: four servos per eye (X, Y, upper and lower lid). */
  function InMoov(): RigConfig
  {
    RigConfig(
      "InMoov Head", 8,
      [("left_eye_x", 0), ("left_eye_y", 1), ("left_upper_lid", 2), ("left_lower_lid", 3),
       ("right_eye_x", 4), ("right_eye_y", 5), ("right_upper_lid", 6), ("right_lower_lid", 7)],
      [("left_eye_x", 90.0), ("left_eye_y", 90.0), ("left_upper_lid", 70.0), ("left_lower_lid", 100.0),
       ("right_eye_x", 90.0), ("right_eye_y", 90.0), ("right_upper_lid", 120.0), ("right_lower_lid", 90.0)],
      [("left_eye_x", AngleRange(57.0, 145.0)), ("left_eye_y", AngleRange(52.0, 112.0)),
       ("left_upper_lid", AngleRange(70.0, 180.0)), ("left_lower_lid", AngleRange(10.0, 100.0)),
       ("right_eye_x", AngleRange(57.0, 145.0)), ("right_eye_y", AngleRange(52.0, 112.0)),
       ("right_upper_lid", AngleRange(10.0, 120.0)), ("right_lower_lid", AngleRange(90.0, 180.0))],
      Some([("left_upper_lid", 180.0), ("left_lower_lid", 10.0),
            ("right_upper_lid", 10.0), ("right_lower_lid", 180.0)]))
  }

  /** Original head: shared X/Y axes for both eyes, separate eyelids. */
  function Original(): RigConfig
  {
    RigConfig(
      "Original (Shared Axes)", 6,
      [("eyes_x", 0), ("eyes_y", 1), ("left_upper_lid", 2), ("right_upper_lid", 3),
       ("left_lower_lid", 4), ("right_lower_lid", 5)],
      [("eyes_x", 100.0), ("eyes_y", 80.0), ("left_upper_lid", 70.0), ("right_upper_lid", 120.0),
       ("left_lower_lid", 100.0), ("right_lower_lid", 90.0)],
      [("eyes_x", AngleRange(57.0, 145.0)), ("eyes_y", AngleRange(52.0, 112.0)),
       ("left_upper_lid", AngleRange(70.0, 180.0)), ("right_upper_lid", AngleRange(10.0, 120.0)),
       ("left_lower_lid", AngleRange(10.0, 100.0)), ("right_lower_lid", AngleRange(90.0, 180.0))],
      Some([("left_upper_lid", 180.0), ("right_upper_lid", 10.0),
            ("left_lower_lid", 10.0), ("right_lower_lid", 180.0)]))
  }

  /** Simple head: X and Y only, no eyelids and no blink table. */
  function Simple(): RigConfig
  {
    RigConfig(
      "Simple (X/Y Only)", 2,
      [("eyes_x", 0), ("eyes_y", 1)],
      [("eyes_x", 90.0), ("eyes_y", 90.0)],
      [("eyes_x", AngleRange(0.0, 180.0)), ("eyes_y", AngleRange(0.0, 180.0))],
      None)
  }

  /** The catalog names, in the order the source lists them. */
  const CatalogNames: seq<string> := ["inmoov", "original", "simple"]

  /** `get_config`: the name is lower-cased; an unknown name selects InMoov. */
  function GetConfig(configName: string): (r: RigConfig)
    ensures Lower(configName) == "original" ==> r == Original()
    ensures Lower(configName) == "simple" ==> r == Simple()
    ensures Lower(configName) !in {"original", "simple"} ==> r == InMoov()
  {
    var key := Lower(configName);
    if key == "inmoov" then InMoov()
    else if key == "original" then Original()
    else if key == "simple" then Simple()
    else InMoov()
  }

  /** When two tables list the same servos in the same order, the pairing of
      their entries is positional. */
  lemma WithinRangesPositional(rig: RigConfig, table: Dict<real>)
    requires SameKeys(table, rig.angleRanges) && Valid(table)
    requires forall i :: 0 <= i < |table| ==> rig.angleRanges[i].1.Contains(table[i].1)
    ensures WithinRanges(rig, table)
  {
    forall i, j | 0 <= i < |table| && 0 <= j < |rig.angleRanges| && table[i].0 == rig.angleRanges[j].0
      ensures rig.angleRanges[j].1.Contains(table[i].1)
    {
      assert table[j].0 == table[i].0;
    }
  }

  lemma CommonWellFormed(rig: RigConfig)
    requires DistinctNames(KeysOf(rig.channels))
    requires SameKeys(rig.channels, rig.defaultAngles) && SameKeys(rig.channels, rig.angleRanges)
    requires |rig.channels| == rig.servoCount
    requires DistinctChannels(rig) && RangesOrdered(rig)
    requires forall i :: 0 <= i < |rig.defaultAngles| ==> rig.angleRanges[i].1.Contains(rig.defaultAngles[i].1)
    requires BlinkWellFormed(rig)
    ensures WellFormed(rig)
  {
    ValidFromNames(rig.channels);
    SameKeysKeySet(rig.channels, rig.defaultAngles);
    SameKeysKeySet(rig.channels, rig.angleRanges);
    WithinRangesPositional(rig, rig.defaultAngles);
  }

  const EyelidNames: seq<string> := ["left_upper_lid", "left_lower_lid", "right_upper_lid", "right_lower_lid"]

  lemma EyelidNamesDistinct()
    ensures DistinctNames(EyelidNames)
  {
  }

  lemma InMoovNames()
    ensures DistinctNames(KeysOf(InMoov().channels))
  {
    var k := KeysOf(InMoov().channels);
    assert k == ["left_eye_x", "left_eye_y", EyelidNames[0], EyelidNames[1],
                 "right_eye_x", "right_eye_y", EyelidNames[2], EyelidNames[3]];
  }

  lemma InMoovSameKeys()
    ensures SameKeys(InMoov().channels, InMoov().defaultAngles)
    ensures SameKeys(InMoov().channels, InMoov().angleRanges)
  {
    var rig := InMoov();
    assert KeysOf(rig.channels) == KeysOf(rig.defaultAngles) == KeysOf(rig.angleRanges);
  }

  lemma InMoovChannels()
    ensures DistinctChannels(InMoov())
  {
    var rig := InMoov();
    assert forall i :: 0 <= i < |rig.channels| ==> rig.channels[i].1 == i;
  }

  lemma InMoovDefaults()
    ensures RangesOrdered(InMoov())
    ensures forall i :: 0 <= i < |InMoov().defaultAngles| ==>
      InMoov().angleRanges[i].1.Contains(InMoov().defaultAngles[i].1)
  {
  }

  lemma InMoovTables()
    ensures SameKeys(InMoov().channels, InMoov().defaultAngles)
    ensures SameKeys(InMoov().channels, InMoov().angleRanges)
    ensures DistinctChannels(InMoov()) && RangesOrdered(InMoov())
    ensures forall i :: 0 <= i < |InMoov().defaultAngles| ==>
      InMoov().angleRanges[i].1.Contains(InMoov().defaultAngles[i].1)
  {
    InMoovSameKeys();
    InMoovChannels();
    InMoovDefaults();
  }

  lemma InMoovBlink()
    ensures BlinkWellFormed(InMoov())
  {
    var rig := InMoov();
    var blink := rig.blinkAngles.value;
    assert KeysOf(blink) == EyelidNames;
    EyelidNamesDistinct();
    ValidFromNames(blink);
    assert KeySet(blink) <= KeySet(rig.channels) by {
      assert blink[0].0 == rig.channels[2].0 && blink[1].0 == rig.channels[3].0;
      assert blink[2].0 == rig.channels[6].0 && blink[3].0 == rig.channels[7].0;
    }
    InMoovNames();
    assert WithinRanges(rig, blink) by {
      forall i, j | 0 <= i < |blink| && 0 <= j < |rig.angleRanges| && blink[i].0 == rig.angleRanges[j].0
        ensures rig.angleRanges[j].1.Contains(blink[i].1)
      {
        var j' := [2, 3, 6, 7][i];
        assert rig.angleRanges[j'].0 == blink[i].0;
        assert j == j';
      }
    }
  }

  lemma InMoovWellFormed()
    ensures WellFormed(InMoov())
  {
    InMoovNames();
    InMoovTables();
    InMoovBlink();
    CommonWellFormed(InMoov());
  }

  lemma OriginalNames()
    ensures DistinctNames(KeysOf(Original().channels))
  {
    var k := KeysOf(Original().channels);
    assert k == ["eyes_x", "eyes_y", EyelidNames[0], EyelidNames[2], EyelidNames[1], EyelidNames[3]];
  }

  lemma OriginalSameKeys()
    ensures SameKeys(Original().channels, Original().defaultAngles)
    ensures SameKeys(Original().channels, Original().angleRanges)
  {
    var rig := Original();
    assert KeysOf(rig.channels) == KeysOf(rig.defaultAngles) == KeysOf(rig.angleRanges);
  }

  lemma OriginalChannels()
    ensures DistinctChannels(Original())
  {
    var rig := Original();
    assert forall i :: 0 <= i < |rig.channels| ==> rig.channels[i].1 == i;
  }

  lemma OriginalDefaults()
    ensures RangesOrdered(Original())
    ensures forall i :: 0 <= i < |Original().defaultAngles| ==>
      Original().angleRanges[i].1.Contains(Original().defaultAngles[i].1)
  {
  }

  lemma OriginalTables()
    ensures SameKeys(Original().channels, Original().defaultAngles)
    ensures SameKeys(Original().channels, Original().angleRanges)
    ensures DistinctChannels(Original()) && RangesOrdered(Original())
    ensures forall i :: 0 <= i < |Original().defaultAngles| ==>
      Original().angleRanges[i].1.Contains(Original().defaultAngles[i].1)
  {
    OriginalSameKeys();
    OriginalChannels();
    OriginalDefaults();
  }

  lemma OriginalBlink()
    ensures BlinkWellFormed(Original())
  {
    var rig := Original();
    var blink := rig.blinkAngles.value;
    assert KeysOf(blink) == [EyelidNames[0], EyelidNames[2], EyelidNames[1], EyelidNames[3]];
    EyelidNamesDistinct();
    ValidFromNames(blink);
    assert KeySet(blink) <= KeySet(rig.channels) by {
      assert blink[0].0 == rig.channels[2].0 && blink[1].0 == rig.channels[3].0;
      assert blink[2].0 == rig.channels[4].0 && blink[3].0 == rig.channels[5].0;
    }
    OriginalNames();
    assert WithinRanges(rig, blink) by {
      forall i, j | 0 <= i < |blink| && 0 <= j < |rig.angleRanges| && blink[i].0 == rig.angleRanges[j].0
        ensures rig.angleRanges[j].1.Contains(blink[i].1)
      {
        var j' := i + 2;
        assert rig.angleRanges[j'].0 == blink[i].0;
        assert j == j';
      }
    }
  }

  lemma OriginalWellFormed()
    ensures WellFormed(Original())
  {
    OriginalNames();
    OriginalTables();
    OriginalBlink();
    CommonWellFormed(Original());
  }

  lemma SimpleWellFormed()
    ensures WellFormed(Simple())
  {
    CommonWellFormed(Simple());
  }

  /** Whatever name is asked for, the selected rig is well-formed. */
  lemma GetConfigWellFormed(configName: string)
    ensures WellFormed(GetConfig(configName))
  {
    InMoovWellFormed();
    OriginalWellFormed();
    SimpleWellFormed();
  }

  /** Selection ignores letter case. */
  lemma GetConfigCaseInsensitive(configName: string)
    ensures GetConfig(configName) == GetConfig(Lower(configName))
  {
    LowerIdempotent(configName);
  }
}

=== FILE: server.dfy ===
/** The voice-assistant server's globals and the steps of its speech side:
    start-up from the settings file, one audio chunk of the assistant's
    voice, one pass of the speech-end watcher, the close when a session
    stops, and starting and stopping the assistant. Each step returns the
    new globals together with the servo writes and the web events it
    produced, in order; threads, sleeps and the voice service itself are
    outside the model. */
module Server {
  import opened Common
  import opened Dict
  import opened Json
  import opened Bus
  import AudioMouth
  import opened Jaw
  import opened Settings
  import opened Visualizer
  import opened FaceTracking
  import opened Eyes

  /** The face-tracking globals: whether tracking is on, the tracker and the
      eye controller (absent when `None`), the time of the last virtual
      blink, and the tracking loop's frame counter. */
  datatype Tracking = Tracking(
    enabled: bool,
    tracker: Option<TrackerState>,
    eyes: Option<EyeController>,
    lastBlinkTime: real,
    frameCount: nat)

  const TrackingOff := Tracking(false, None, None, 0.0, 0)

  /** The server's globals. `jaw.available` is the servo-availability flag,
      which the eye-servo commands consult as well. `monitorAlive` and
      `commandsAlive` record whether the speech-end watcher and the command
      loop are still running: an uncaught exception ends either. */
  datatype Server = Server(
    running: bool,
    muted: Value,
    speaking: bool,
    lastAudioTime: real,
    speechText: string,
    mouth: AudioMouth.MouthState,
    jaw: JawState,
    ui: UiState,
    settings: Dict<Value>,
    voiceId: Value,
    microphoneIndex: Value,
    speakerIndex: Value,
    speechSpeed: Value,
    tracking: Tracking,
    monitorAlive: bool,
    commandsAlive: bool)

  /** The part of the invariant that does not depend on the tracker's
      parameters: the settings and the eye controller's angle table are
      proper dicts. */
  ghost predicate Sound(s: Server)
  {
    && Valid(s.settings)
    && (s.tracking.eyes.Some? ==> Valid(s.tracking.eyes.value.currentAngles))
  }

  /** What every step keeps: the envelope tracker's state fits its
      parameters, and the server is sound. */
  ghost predicate Consistent(p: AudioMouth.MouthParams, s: Server)
  {
    && AudioMouth.ValidParams(p)
    && AudioMouth.ValidState(p, s.mouth)
    && Sound(s)
  }

  /** A step's result: the new globals, the servo writes and web events in
      the order they happened, and whether the settings file is rewritten. */
  datatype Outcome = Outcome(server: Server, writes: seq<ServoWrite>, events: seq<Event>, save: bool)

  function Quiet(s: Server): (r: Outcome)
    ensures r.server == s && r.writes == [] && r.events == [] && !r.save
  {
    Outcome(s, [], [], false)
  }

  // ---------------------------------------------------------------------
  // Start-up

  /** The module-level start-up: settings loaded, the voice, device and
      speed globals read from them, nothing running, the jaw closed, the
      servo flag as the controller's initialisation found it. */
  function Startup(file: SettingsFile, servoAvailable: bool): (s: Server)
    ensures s.settings == LoadSettings(file)
    ensures Some(s.voiceId) == Get(s.settings, "voice_id")
    ensures Some(s.microphoneIndex) == Get(s.settings, "microphone_index")
    ensures Some(s.speakerIndex) == Get(s.settings, "speaker_index")
    ensures Some(s.speechSpeed) == Get(s.settings, "speech_speed")
    ensures !s.running && !s.speaking && s.muted == Bool(false)
    ensures s.jaw == JawState(servoAvailable, 0.0) && s.tracking == TrackingOff
    ensures Status(s.ui) == ("CLOSED", "") && s.ui.queue == []
    ensures s.monitorAlive && s.commandsAlive
  {
    var settings := LoadSettings(file);
    StartupKeysPresent(file);
    Server(false, Bool(false), false, 0.0, "", AudioMouth.Reset(), JawState(servoAvailable, 0.0), InitialUi,
           settings, Get(settings, "voice_id").value, Get(settings, "microphone_index").value,
           Get(settings, "speaker_index").value, Get(settings, "speech_speed").value,
           TrackingOff, true, true)
  }

  lemma StartupConsistent(p: AudioMouth.MouthParams, file: SettingsFile, servoAvailable: bool)
    requires AudioMouth.ValidParams(p)
    ensures Consistent(p, Startup(file, servoAvailable))
  {
    AudioMouth.ResetValid(p);
  }

  /** Without a usable settings file the assistant speaks as Matthew at
      17 characters a second on the default devices. */
  lemma StartupDefaults(file: SettingsFile, servoAvailable: bool)
    requires !(file.Loaded? && file.document.Object?)
    ensures var s := Startup(file, servoAvailable);
      && s.voiceId == Str("matthew") && s.speechSpeed == Int(17)
      && s.microphoneIndex == Null && s.speakerIndex == Null
  {
    DefaultAt(0);
    DefaultAt(1);
    DefaultAt(2);
    DefaultAt(3);
  }

  /** A voice named in the file wins over the default one. */
  lemma StartupVoiceFromFile(fields: Dict<Value>, servoAvailable: bool)
    requires Valid(fields)
    ensures Startup(Loaded(Object(fields)), servoAvailable).voiceId ==
      if Has(fields, "voice_id") then Get(fields, "voice_id").value else Str("matthew")
  {
    LoadedOverridesDefaults(fields, "voice_id");
    DefaultAt(0);
  }

  // ---------------------------------------------------------------------
  // Audio chunks

  /** `on_audio_chunk`: stamp the chunk's arrival, run the envelope
      tracker, call the assistant speaking when the opening exceeds 3, show
      the opening's viseme with the current speech text, and drive the jaw
      directly with the opening. */
  function OnAudioChunk(p: AudioMouth.MouthParams, s: Server, amplitude: real, now: real, fault: BusFault): (r: Outcome)
    requires AudioMouth.ValidParams(p) && AudioMouth.ValidState(p, s.mouth)
    ensures AudioMouth.ValidState(p, r.server.mouth)
    ensures r.server.mouth.history == AudioMouth.Push(p.smoothingWindow, s.mouth.history, amplitude)
    ensures r.server.lastAudioTime == now
    ensures r.server.speaking <==> r.server.mouth.currentOpening > AudioMouth.SpeakingLevel
    ensures r.events == [VisemeUpdate(AudioMouth.VisemeName(AudioMouth.VisemeOf(r.server.mouth.currentOpening)), s.speechText)]
    ensures Status(r.server.ui) == (AudioMouth.VisemeName(AudioMouth.VisemeOf(r.server.mouth.currentOpening)), s.speechText)
    ensures WritesOn(r.writes, JawChannel, 0.0, 180.0) && |r.writes| <= 1
    ensures r.server.jaw.position == s.jaw.position || r.server.jaw.position == r.server.mouth.currentOpening
    ensures r.server.jaw.available ==> s.jaw.available
    ensures r.server.settings == s.settings && r.server.tracking == s.tracking && !r.save
  {
    var step := AudioMouth.Step(p, s.mouth, amplitude);
    var viseme := AudioMouth.VisemeName(AudioMouth.VisemeOf(step.opening));
    var shown := UpdateMouth(s.ui, viseme, s.speechText);
    var jaw := JawDirect(s.jaw, s.settings, step.opening, fault);
    Outcome(s.(lastAudioTime := now, mouth := step.state, speaking := step.opening > 3.0, ui := shown.ui, jaw := jaw.state),
            jaw.writes, shown.events, false)
  }

  // ---------------------------------------------------------------------
  // Speech end

  /** Seconds without a chunk after which speech counts as ended. */
  const SpeechEndGap: real := 0.5

  /** The watcher acts when the assistant is speaking and no chunk arrived
      for more than half a second. */
  predicate SpeechEnded(s: Server, now: real)
  {
    s.speaking && now - s.lastAudioTime > SpeechEndGap
  }

  /** One pass of `monitor_speech_end`. The loop ends once the assistant
      stops running. When speech has ended: not speaking, the tracker
      reset, the mouth shown closed, and the jaw closed along the ramp; an
      exception on the bus ends the watcher with the jaw where it was. */
  function MonitorStep(s: Server, now: real, fault: BusFault): (r: Outcome)
    ensures !s.monitorAlive ==> r == Quiet(s)
    ensures s.monitorAlive && !s.running ==> r == Quiet(s.(monitorAlive := false))
    ensures s.monitorAlive && s.running && !SpeechEnded(s, now) ==> r == Quiet(s)
    ensures s.monitorAlive && s.running && SpeechEnded(s, now) ==>
      && !r.server.speaking
      && r.server.mouth == AudioMouth.Reset()
      && r.events == [VisemeUpdate("CLOSED", "")]
      && Status(r.server.ui) == ("CLOSED", "")
      && r.server.jaw.available == s.jaw.available
      && (r.server.monitorAlive ==> r.server.jaw.position == 0.0)
      && (!r.server.monitorAlive ==> r.server.jaw == s.jaw)
    ensures WritesOn(r.writes, JawChannel, 0.0, 180.0)
    ensures r.server.settings == s.settings && r.server.tracking == s.tracking && !r.save
  {
    if !s.monitorAlive then Quiet(s)
    else if !s.running then Quiet(s.(monitorAlive := false))
    else if !SpeechEnded(s, now) then Quiet(s)
    else
      var shown := UpdateMouth(s.ui, "CLOSED", "");
      var close := SpeechEndClose(s.jaw, s.settings, fault);
      Outcome(s.(speaking := false, mouth := AudioMouth.Reset(), ui := shown.ui, jaw := close.jaw.state,
                 monitorAlive := close.watcherAlive),
              close.jaw.writes, shown.events, false)
  }

  /** A chunk keeps the watcher quiet for half a second: the watcher never
      closes the mouth within 0.5 s of the last chunk. */
  lemma ChunkDefersSpeechEnd(p: AudioMouth.MouthParams, s: Server, amplitude: real, now: real, fault: BusFault,
                             later: real, watchFault: BusFault)
    requires AudioMouth.ValidParams(p) && AudioMouth.ValidState(p, s.mouth)
    requires later <= now + SpeechEndGap
    ensures var after := OnAudioChunk(p, s, amplitude, now, fault).server;
      after.monitorAlive && after.running ==> MonitorStep(after, later, watchFault) == Quiet(after)
  {
  }

  /** The watcher closes the mouth once per end of speech: right after it
      acted, another pass does nothing. */
  lemma SpeechEndOnce(s: Server, now: real, fault: BusFault, later: real, fault2: BusFault)
    requires s.monitorAlive && s.running && SpeechEnded(s, now)
    ensures var after := MonitorStep(s, now, fault).server;
      MonitorStep(after, later, fault2) == Quiet(after)
  {
  }

  /** On a working bus with numeric calibration, the end of speech ramps the
      jaw shut in ten writes, holds it with five more, leaves the jaw
      closed and the watcher running. */
  lemma SpeechEndClosesJaw(s: Server, now: real)
    requires s.monitorAlive && s.running && SpeechEnded(s, now) && s.jaw.available
    requires NumberAt(s.settings, "jaw_close_angle").Some? && NumberAt(s.settings, "jaw_open_angle").Some?
    ensures var r := MonitorStep(s, now, NoFault);
      && r.server.monitorAlive && r.server.jaw == s.jaw.(position := 0.0)
      && |r.writes| == RampSteps + HoldWrites
      && r.writes[RampSteps + HoldWrites - 1] == ServoWrite(JawChannel, ClampAngle(NumberAt(s.settings, "jaw_close_angle").value))
  {
    SpeechEndRamps(s.jaw, s.settings);
  }

  // ---------------------------------------------------------------------
  // Session stop

  /** The end of `run_voice_assistant` after the session returns normally: not
      speaking, the mouth shown closed, a direct close request and, with the
      servo still available, ten raw writes of 0 degrees. */
  function SessionStop(s: Server, directFault: BusFault, holdFault: BusFault): (r: Outcome)
    ensures !r.server.speaking
    ensures r.events == [VisemeUpdate("CLOSED", "")] && Status(r.server.ui) == ("CLOSED", "")
    ensures WritesOn(r.writes, JawChannel, 0.0, 180.0)
    ensures !s.jaw.available ==> r.writes == [] && r.server.jaw == s.jaw
    ensures r.server.jaw.available ==> s.jaw.available
    ensures r.server.jaw.available && !Hits(holdFault, 10) ==> r.server.jaw.position == 0.0
    ensures r.server.settings == s.settings && r.server.tracking == s.tracking && !r.save
  {
    var shown := UpdateMouth(s.ui, "CLOSED", "");
    var jaw := SessionStopClose(s.jaw, s.settings, directFault, holdFault);
    Outcome(s.(speaking := false, ui := shown.ui, jaw := jaw.state), jaw.writes, shown.events, false)
  }

  /** A step that leaves the tracker state alone and the server sound
      keeps the invariant. */
  lemma CoreKeepsConsistent(p: AudioMouth.MouthParams, s: Server, t: Server)
    requires Consistent(p, s)
    requires t.mouth == s.mouth && Sound(t)
    ensures Consistent(p, t)
  {
  }

  /** An audio chunk keeps the invariant. */
  lemma ChunkKeepsConsistent(p: AudioMouth.MouthParams, s: Server, amplitude: real, now: real, fault: BusFault)
    requires Consistent(p, s)
    ensures Consistent(p, OnAudioChunk(p, s, amplitude, now, fault).server)
  {
  }

  /** A pass of the speech-end watcher keeps the invariant: a close
      resets the tracker to a valid state. */
  lemma MonitorKeepsConsistent(p: AudioMouth.MouthParams, s: Server, now: real, fault: BusFault)
    requires Consistent(p, s)
    ensures Consistent(p, MonitorStep(s, now, fault).server)
  {
  }

  /** The session's stop and the start and stop commands keep the
      invariant. */
  lemma StopKeepsConsistent(p: AudioMouth.MouthParams, s: Server, directFault: BusFault, holdFault: BusFault)
    requires Consistent(p, s)
    ensures Consistent(p, SessionStop(s, directFault, holdFault).server)
    ensures Consistent(p, StartVoice(s).server) && Consistent(p, StopVoice(s).server)
  {
  }

  /** After a session stop the watcher has nothing left to close. */
  lemma StopLeavesNothingToClose(s: Server, directFault: BusFault, holdFault: BusFault, now: real, fault: BusFault)
    ensures var after := SessionStop(s, directFault, holdFault).server;
      MonitorStep(after, now, fault).writes == [] && MonitorStep(after, now, fault).events == []
  {
  }

  // ---------------------------------------------------------------------
  // Starting and stopping the assistant

  /** `start_voice_assistant`: ignored when already running; otherwise the
      assistant runs and a fresh watcher starts with it. */
  function StartVoice(s: Server): (r: Outcome)
    ensures r.server.running
    ensures s.running ==> r == Quiet(s)
    ensures !s.running ==> r == Quiet(s.(running := true, monitorAlive := true))
  {
    if s.running then Quiet(s) else Quiet(s.(running := true, monitorAlive := true))
  }

  /** `stop_voice_assistant`: ignored when not running. */
  function StopVoice(s: Server): (r: Outcome)
    ensures !r.server.running
    ensures r == Quiet(s.(running := false))
  {
    Quiet(s.(running := false))
  }

  /** Starting and then stopping returns to the stopped globals, with a
      watcher that will see the stop and end. */
  lemma StartThenStop(s: Server)
    requires !s.running
    ensures StopVoice(StartVoice(s).server).server == s.(monitorAlive := true)
    ensures MonitorStep(StopVoice(StartVoice(s).server).server, 0.0, NoFault).server == s.(monitorAlive := false)
  {
  }
}

=== FILE: settings.dfy ===
/** The server's settings: a flat table of JSON values, the defaults every
    run starts from, and how a settings file found on disk is merged over
    them. Reading and writing the file are left to the caller: loading
    receives what the read produced, and saving is reported as a request. */
module Settings {
  import opened Common
  import opened Dict
  import opened Json

  /** The defaults, in their declared order. */
  const DefaultSettings: Dict<Value> := [
    ("voice_id", Str("matthew")),
    ("microphone_index", Null),
    ("speaker_index", Null),
    ("speech_speed", Int(17)),
    ("jaw_stop_angle", Int(0)),
    ("jaw_open_angle", Int(100)),
    ("jaw_close_angle", Int(0)),
    ("jaw_pulse_duration", Real(0.08)),
    ("jaw_servo_min_change", Int(2)),
    ("face_tracking_enabled", Bool(true)),
    ("servo_config", Str("inmoov")),
    ("camera_index", Int(0))
  ]

  const DefaultKeys: seq<string> := [
    "voice_id", "microphone_index", "speaker_index", "speech_speed",
    "jaw_stop_angle", "jaw_open_angle", "jaw_close_angle", "jaw_pulse_duration",
    "jaw_servo_min_change", "face_tracking_enabled", "servo_config", "camera_index"
  ]

  lemma DefaultKeysListed()
    ensures KeysOf(DefaultSettings) == DefaultKeys
  {
  }

  lemma DefaultKeysDistinct()
    ensures DistinctNames(DefaultKeys)
  {
  }

  lemma DefaultsValid()
    ensures Valid(DefaultSettings)
  {
    DefaultKeysListed();
    DefaultKeysDistinct();
    ValidFromNames(DefaultSettings);
  }

  /** Reading a default by its name gives the value declared for it. */
  lemma DefaultAt(i: nat)
    requires i < |DefaultSettings|
    ensures Get(DefaultSettings, DefaultKeys[i]) == Some(DefaultSettings[i].1)
  {
    DefaultsValid();
    DefaultKeysListed();
    GetAt(DefaultSettings, i);
  }

  /** The defaults are a proper dict whose keys are the twelve setting
      names, and the jaw calibration in them is numeric: closed at 0
      degrees, open at 100, a deadband of 2. */
  lemma DefaultsWellFormed()
    ensures KeysOf(DefaultSettings) == DefaultKeys
    ensures Valid(DefaultSettings)
    ensures NumberAt(DefaultSettings, "jaw_close_angle") == Some(0.0)
    ensures NumberAt(DefaultSettings, "jaw_open_angle") == Some(100.0)
    ensures NumberAt(DefaultSettings, "jaw_servo_min_change") == Some(2.0)
    ensures NumberAt(DefaultSettings, "jaw_stop_angle") == Some(0.0)
  {
    DefaultKeysListed();
    DefaultsValid();
    DefaultNumber(4, 0);
    DefaultNumber(5, 100);
    DefaultNumber(6, 0);
    DefaultNumber(8, 2);
  }

  lemma DefaultNumber(i: nat, n: int)
    requires i < |DefaultSettings| && DefaultSettings[i].1 == Int(n)
    ensures NumberAt(DefaultSettings, DefaultKeys[i]) == Some(n as real)
  {
    DefaultAt(i);
  }

  /** What reading the settings file produced. */
  datatype SettingsFile = Absent | Unreadable | Loaded(document: Value)

  /** `load_settings`: the file's table merged over the defaults. A missing
      file, an unreadable or malformed one, and a document that is not a
      JSON object (the merge raises) all give the defaults. */
  function LoadSettings(file: SettingsFile): (s: Dict<Value>)
    ensures Valid(s)
    ensures KeySet(DefaultSettings) <= KeySet(s)
    ensures !(file.Loaded? && file.document.Object?) ==> s == DefaultSettings
  {
    DefaultsValid();
    match file
    case Loaded(Object(fields)) => Overlay(DefaultSettings, fields)
    case _ => DefaultSettings
  }

  /** A loaded value overrides the default of the same name; everything
      the file does not mention keeps its default. */
  lemma LoadedOverridesDefaults(fields: Dict<Value>, k: string)
    requires Valid(fields)
    ensures Get(LoadSettings(Loaded(Object(fields))), k) ==
      if Has(fields, k) then Get(fields, k) else Get(DefaultSettings, k)
  {
    DefaultsValid();
    OverlayGet(DefaultSettings, fields, k);
  }

  /** The merge keeps the defaults' order: the twelve setting names come
      first, in their declared order, and new names follow. */
  lemma LoadKeepsDefaultOrder(file: SettingsFile)
    ensures |LoadSettings(file)| >= |DefaultSettings|
    ensures KeysOf(LoadSettings(file))[..|DefaultSettings|] == DefaultKeys
  {
    DefaultKeysListed();
    DefaultsValid();
    match file
    case Loaded(Object(fields)) =>
      OverlayKeepsPrefix(DefaultSettings, fields);
    case _ =>
      assert KeysOf(LoadSettings(file))[..|DefaultSettings|] == KeysOf(DefaultSettings);
  }

  /** The startup reads of `voice_id`, `microphone_index`, `speaker_index`
      and `speech_speed` cannot fail: whatever the file held, those keys
      are present. */
  lemma StartupKeysPresent(file: SettingsFile)
    ensures Has(LoadSettings(file), "voice_id") && Has(LoadSettings(file), "microphone_index")
    ensures Has(LoadSettings(file), "speaker_index") && Has(LoadSettings(file), "speech_speed")
  {
    var s := LoadSettings(file);
    DefaultsWellFormed();
    HasIffInKeys(DefaultSettings, "voice_id");
    HasIffInKeys(DefaultSettings, "microphone_index");
    HasIffInKeys(DefaultSettings, "speaker_index");
    HasIffInKeys(DefaultSettings, "speech_speed");
    HasIffInKeySet(DefaultSettings, "voice_id");
    HasIffInKeySet(DefaultSettings, "microphone_index");
    HasIffInKeySet(DefaultSettings, "speaker_index");
    HasIffInKeySet(DefaultSettings, "speech_speed");
    HasIffInKeySet(s, "voice_id");
    HasIffInKeySet(s, "microphone_index");
    HasIffInKeySet(s, "speaker_index");
    HasIffInKeySet(s, "speech_speed");
  }
}

=== FILE: visualizer.dfy ===
/** The web UI side: what the mouth visualizer remembers (the last viseme
    and text), the events it pushes to the browser, the shaping of eye
    angles into the browser's four gaze fields, the timing of a text
    animation, and the queue that carries control commands from the
    browser to the server loop.

    The socket is represented by the list of events a call emits; sleeps
    are represented by the pause each emission is followed by. */
module Visualizer {
  import opened Common
  import opened Dict
  import opened Json

  /** Events pushed to the browser. */
  datatype Event =
    | VisemeUpdate(viseme: string, text: string)
    | EyePositionUpdate(data: Dict<real>)
    | FaceTrackingStatus(enabled: bool)
    | Blink
    | ControlAck(action: Value)
    | EyeConfigLoaded(config: Value)

  /** One queued control command: only the action and value are kept. */
  datatype Command = Command(action: Value, value: Value)

  datatype UiState = UiState(currentViseme: string, currentText: string, queue: seq<Command>)

  const InitialUi := UiState("CLOSED", "", [])

  datatype UiStep = UiStep(ui: UiState, events: seq<Event>)

  // ---------------------------------------------------------------------
  // Mouth

  /** `update_mouth`: remember the viseme and text and push them. */
  function UpdateMouth(s: UiState, viseme: string, text: string): (r: UiStep)
    ensures r.ui.queue == s.queue
    ensures Status(r.ui) == (viseme, text)
    ensures r.events == [VisemeUpdate(viseme, text)]
  {
    UiStep(s.(currentViseme := viseme, currentText := text), [VisemeUpdate(viseme, text)])
  }

  /** `status`: the viseme and text of the last mouth update. */
  function Status(s: UiState): (string, string)
  {
    (s.currentViseme, s.currentText)
  }

  /** The status always reports the most recent mouth update, whatever
      came before it. */
  lemma StatusReportsLastUpdate(s: UiState, v1: string, t1: string, v2: string, t2: string)
    ensures Status(UpdateMouth(UpdateMouth(s, v1, t1).ui, v2, t2).ui) == (v2, t2)
    ensures Status(InitialUi) == ("CLOSED", "")
  {
  }

  // ---------------------------------------------------------------------
  // Eyes

  function PutIfPresent(data: Dict<real>, angles: Dict<real>, from: string, to: string): (r: Dict<real>)
    requires Valid(data)
    ensures Valid(r)
    ensures KeySet(r) == KeySet(data) + (if Has(angles, from) then {to} else {})
  {
    match Get(angles, from)
    case Some(a) => Put(data, to, a)
    case None => data
  }

  lemma PutIfPresentGet(data: Dict<real>, angles: Dict<real>, from: string, to: string, k: string)
    requires Valid(data)
    ensures Get(PutIfPresent(data, angles, from, to), k) ==
      if k == to && Has(angles, from) then Get(angles, from) else Get(data, k)
  {
  }

  /** The shared axis if present, otherwise the per-eye axis. */
  function Preferred(angles: Dict<real>, shared: string, perEye: string): Option<real>
  {
    if Has(angles, shared) then Get(angles, shared) else Get(angles, perEye)
  }

  /** Some axis `update_eyes` recognizes is present. */
  predicate AnyEyeAxis(angles: Dict<real>)
  {
    || Has(angles, "left_eye_x") || Has(angles, "left_eye_y") || Has(angles, "right_eye_x")
    || Has(angles, "right_eye_y") || Has(angles, "eye_x") || Has(angles, "eye_y")
  }

  /** The payload after the per-eye axes have been renamed. */
  function PerEye(angles: Dict<real>): (r: Dict<real>)
    ensures Valid(r)
  {
    var d1 := PutIfPresent([], angles, "left_eye_x", "left_x");
    var d2 := PutIfPresent(d1, angles, "left_eye_y", "left_y");
    var d3 := PutIfPresent(d2, angles, "right_eye_x", "right_x");
    PutIfPresent(d3, angles, "right_eye_y", "right_y")
  }

  /** The payload `update_eyes` builds from a table of servo angles: the
      per-eye axes first, then the shared axes written over both eyes. */
  function EyeData(angles: Dict<real>): (r: Dict<real>)
    ensures Valid(r)
  {
    var d4 := PerEye(angles);
    var d5 := PutIfPresent(d4, angles, "eye_x", "left_x");
    var d6 := PutIfPresent(d5, angles, "eye_x", "right_x");
    var d7 := PutIfPresent(d6, angles, "eye_y", "left_y");
    PutIfPresent(d7, angles, "eye_y", "right_y")
  }

  lemma PerEyeGet(angles: Dict<real>, k: string, from: string)
    requires || (k == "left_x" && from == "left_eye_x") || (k == "left_y" && from == "left_eye_y")
             || (k == "right_x" && from == "right_eye_x") || (k == "right_y" && from == "right_eye_y")
    ensures Get(PerEye(angles), k) == Get(angles, from)
  {
    var d1 := PutIfPresent([], angles, "left_eye_x", "left_x");
    var d2 := PutIfPresent(d1, angles, "left_eye_y", "left_y");
    var d3 := PutIfPresent(d2, angles, "right_eye_x", "right_x");
    PutIfPresentGet([], angles, "left_eye_x", "left_x", k);
    PutIfPresentGet(d1, angles, "left_eye_y", "left_y", k);
    PutIfPresentGet(d2, angles, "right_eye_x", "right_x", k);
    PutIfPresentGet(d3, angles, "right_eye_y", "right_y", k);
  }

  /** Each browser field holds the shared axis when it is present and the
      eye's own axis otherwise. */
  lemma EyeDataGet(angles: Dict<real>, k: string, shared: string, from: string)
    requires || (k == "left_x" && shared == "eye_x" && from == "left_eye_x")
             || (k == "left_y" && shared == "eye_y" && from == "left_eye_y")
             || (k == "right_x" && shared == "eye_x" && from == "right_eye_x")
             || (k == "right_y" && shared == "eye_y" && from == "right_eye_y")
    ensures Get(EyeData(angles), k) == Preferred(angles, shared, from)
  {
    var d4 := PerEye(angles);
    var d5 := PutIfPresent(d4, angles, "eye_x", "left_x");
    var d6 := PutIfPresent(d5, angles, "eye_x", "right_x");
    var d7 := PutIfPresent(d6, angles, "eye_y", "left_y");
    PerEyeGet(angles, k, from);
    PutIfPresentGet(d4, angles, "eye_x", "left_x", k);
    PutIfPresentGet(d5, angles, "eye_x", "right_x", k);
    PutIfPresentGet(d6, angles, "eye_y", "left_y", k);
    PutIfPresentGet(d7, angles, "eye_y", "right_y", k);
  }

  /** `update_eyes` renames the per-eye axes to the browser's fields and lets
      a shared axis override both eyes. */
  lemma EyeDataFields(angles: Dict<real>)
    ensures Get(EyeData(angles), "left_x") == Preferred(angles, "eye_x", "left_eye_x")
    ensures Get(EyeData(angles), "right_x") == Preferred(angles, "eye_x", "right_eye_x")
    ensures Get(EyeData(angles), "left_y") == Preferred(angles, "eye_y", "left_eye_y")
    ensures Get(EyeData(angles), "right_y") == Preferred(angles, "eye_y", "right_eye_y")
  {
    EyeDataGet(angles, "left_x", "eye_x", "left_eye_x");
    EyeDataGet(angles, "right_x", "eye_x", "right_eye_x");
    EyeDataGet(angles, "left_y", "eye_y", "left_eye_y");
    EyeDataGet(angles, "right_y", "eye_y", "right_eye_y");
  }

  /** The browser fields the angles supply: a field is sent when its eye's
      axis or the shared axis is present. */
  function SuppliedFields(angles: Dict<real>): set<string>
  {
    (if Has(angles, "left_eye_x") || Has(angles, "eye_x") then {"left_x"} else {})
    + (if Has(angles, "left_eye_y") || Has(angles, "eye_y") then {"left_y"} else {})
    + (if Has(angles, "right_eye_x") || Has(angles, "eye_x") then {"right_x"} else {})
    + (if Has(angles, "right_eye_y") || Has(angles, "eye_y") then {"right_y"} else {})
  }

  lemma SuppliedFieldsEmpty(angles: Dict<real>)
    ensures SuppliedFields(angles) == {} <==> !AnyEyeAxis(angles)
  {
    if AnyEyeAxis(angles) {
      var k := if Has(angles, "left_eye_x") || Has(angles, "eye_x") then "left_x"
        else if Has(angles, "left_eye_y") || Has(angles, "eye_y") then "left_y"
        else if Has(angles, "right_eye_x") then "right_x" else "right_y";
      assert k in SuppliedFields(angles);
    }
  }

  lemma PerEyeKeys(angles: Dict<real>)
    ensures KeySet(PerEye(angles)) ==
      (if Has(angles, "left_eye_x") then {"left_x"} else {})
      + (if Has(angles, "left_eye_y") then {"left_y"} else {})
      + (if Has(angles, "right_eye_x") then {"right_x"} else {})
      + (if Has(angles, "right_eye_y") then {"right_y"} else {})
  {
  }

  lemma SharedAxesKeys(angles: Dict<real>)
    ensures KeySet(EyeData(angles)) == KeySet(PerEye(angles))
      + (if Has(angles, "eye_x") then {"left_x", "right_x"} else {})
      + (if Has(angles, "eye_y") then {"left_y", "right_y"} else {})
  {
  }

  /** The per-eye fields plus the fields the shared axes cover, as one union
      per browser field. */
  lemma FieldSets(lx: bool, ly: bool, rx: bool, ry: bool, sx: bool, sy: bool)
    ensures (if lx then {"left_x"} else {}) + (if ly then {"left_y"} else {})
      + (if rx then {"right_x"} else {}) + (if ry then {"right_y"} else {})
      + (if sx then {"left_x", "right_x"} else {}) + (if sy then {"left_y", "right_y"} else {})
      == (if lx || sx then {"left_x"} else {}) + (if ly || sy then {"left_y"} else {})
      + (if rx || sx then {"right_x"} else {}) + (if ry || sy then {"right_y"} else {})
  {
  }

  lemma EyeDataKeySet(angles: Dict<real>)
    ensures KeySet(EyeData(angles)) == SuppliedFields(angles)
  {
    PerEyeKeys(angles);
    SharedAxesKeys(angles);
    var lx, ly := Has(angles, "left_eye_x"), Has(angles, "left_eye_y");
    var rx, ry := Has(angles, "right_eye_x"), Has(angles, "right_eye_y");
    var sx, sy := Has(angles, "eye_x"), Has(angles, "eye_y");
    FieldSets(lx, ly, rx, ry, sx, sy);
  }

  /** Only the browser's four fields are ever sent, each exactly when its
      source axis is present, and nothing is sent exactly when none of the
      six axis names is present: eyelids and any other servo are dropped. */
  lemma EyeDataKeys(angles: Dict<real>)
    ensures KeySet(EyeData(angles)) == SuppliedFields(angles)
    ensures |EyeData(angles)| == 0 <==> !AnyEyeAxis(angles)
  {
    EyeDataKeySet(angles);
    EmptyIffNoKeys(EyeData(angles));
    SuppliedFieldsEmpty(angles);
  }

  /** `update_eyes`: one position event with the shaped payload, or none
      when it is empty. */
  function UpdateEyes(angles: Dict<real>): (events: seq<Event>)
    ensures |events| <= 1
    ensures |events| == 1 <==> AnyEyeAxis(angles)
    ensures |events| == 1 ==> events[0] == EyePositionUpdate(EyeData(angles))
  {
    EyeDataKeys(angles);
    var data := EyeData(angles);
    if |data| > 0 then [EyePositionUpdate(data)] else []
  }

  /** `update_face_tracking_status`. */
  function UpdateFaceTrackingStatus(enabled: bool): (events: seq<Event>)
    ensures events == [FaceTrackingStatus(enabled)]
  {
    [FaceTrackingStatus(enabled)]
  }

  /** `trigger_blink`. */
  function TriggerBlink(): (events: seq<Event>)
    ensures events == [Blink]
  {
    [Blink]
  }

  // ---------------------------------------------------------------------
  // Text animation

  /** One emission of a text animation and the pause that follows it. */
  datatype Frame = Frame(event: Event, pause: real)

  /** The caption shown while a phoneme is spoken: `"{text} [{phoneme}]"`. */
  function Caption(text: string, phoneme: string): string
  {
    text + " [" + phoneme + "]"
  }

  /** The pause per phoneme: the given duration, or 1/12 s per phoneme by
      default, shared evenly. */
  function TimePerPhoneme(count: nat, duration: Option<real>): real
    requires count > 0
  {
    var total := match duration
      case Some(d) => d
      case None => count as real / 12.0;
    total / count as real
  }

  /** Without a duration each phoneme is shown for one twelfth of a second,
      however many there are. */
  lemma DefaultPacing(count: nat)
    requires count > 0
    ensures TimePerPhoneme(count, None) == 1.0 / 12.0
  {
    var c := count as real;
    assert c / 12.0 == c * (1.0 / 12.0);
    assert c * (1.0 / 12.0) / c == 1.0 / 12.0;
  }

  /** With a duration the phonemes share it exactly. */
  lemma GivenDurationShared(count: nat, duration: real)
    requires count > 0
    ensures TimePerPhoneme(count, Some(duration)) * count as real == duration
  {
  }

  function PhonemeFrames(text: string, pairs: seq<(string, string)>, pause: real): (r: seq<Frame>)
    ensures |r| == |pairs|
    ensures forall i :: 0 <= i < |pairs| ==>
      r[i] == Frame(VisemeUpdate(pairs[i].1, Caption(text, pairs[i].0)), pause)
  {
    seq(|pairs|, i requires 0 <= i < |pairs| => Frame(VisemeUpdate(pairs[i].1, Caption(text, pairs[i].0)), pause))
  }

  /** The rest pause after the closing update. */
  const RestPause: real := 0.1

  /** The result of `animate_text`: the remembered state, the emissions
      with the pause after each, and whether a pause raised. */
  datatype Animation = Animation(ui: UiState, frames: seq<Frame>, raised: bool)

  /** The shared pause is negative exactly when a negative duration is
      given: the default pacing and an even share keep the sign. */
  lemma PauseSign(count: nat, duration: Option<real>)
    requires count > 0
    ensures TimePerPhoneme(count, duration) < 0.0 <==> duration.Some? && duration.value < 0.0
  {
    var c := count as real;
    match duration
    case None =>
      DefaultPacing(count);
    case Some(d) =>
      GivenDurationShared(count, d);
      assert d == (d / c) * c;
  }

  /** `animate_text`: nothing for no phonemes; otherwise one mouth update
      per (phoneme, viseme) pair in order, then the mouth closes. A
      negative duration makes the first pause raise, so only the first
      update is shown and the mouth is left on it. */
  function AnimateText(s: UiState, text: string, pairs: seq<(string, string)>, duration: Option<real>): (r: Animation)
    ensures |pairs| == 0 ==> r == Animation(s, [], false)
    ensures |pairs| > 0 ==> (r.raised <==> duration.Some? && duration.value < 0.0)
    ensures r.ui.queue == s.queue
    ensures |pairs| > 0 && !r.raised ==>
      && |r.frames| == |pairs| + 1
      && r.frames[|pairs|] == Frame(VisemeUpdate("CLOSED", ""), RestPause)
      && Status(r.ui) == ("CLOSED", "")
      && (forall i :: 0 <= i < |pairs| ==>
            r.frames[i].event == VisemeUpdate(pairs[i].1, Caption(text, pairs[i].0))
            && r.frames[i].pause == TimePerPhoneme(|pairs|, duration))
    ensures |pairs| > 0 && r.raised ==>
      && r.frames == [Frame(VisemeUpdate(pairs[0].1, Caption(text, pairs[0].0)), TimePerPhoneme(|pairs|, duration))]
      && Status(r.ui) == (pairs[0].1, Caption(text, pairs[0].0))
  {
    if |pairs| == 0 then Animation(s, [], false)
    else
      var pause := TimePerPhoneme(|pairs|, duration);
      PauseSign(|pairs|, duration);
      var frames := PhonemeFrames(text, pairs, pause);
      if pause < 0.0 then
        Animation(UpdateMouth(s, pairs[0].1, Caption(text, pairs[0].0)).ui, frames[..1], true)
      else
        Animation(UpdateMouth(s, "CLOSED", "").ui, frames + [Frame(VisemeUpdate("CLOSED", ""), RestPause)], false)
  }

  /** With the default pacing the phonemes of an animation take one twelfth
      of a second each, so the animation lasts |pairs|/12 s before the
      rest pause, and nothing raises. */
  lemma AnimationLength(s: UiState, text: string, pairs: seq<(string, string)>)
    requires |pairs| > 0
    ensures !AnimateText(s, text, pairs, None).raised
    ensures forall i :: 0 <= i < |pairs| ==> AnimateText(s, text, pairs, None).frames[i].pause == 1.0 / 12.0
  {
    DefaultPacing(|pairs|);
  }

  /** A negative duration stops the animation after its first update: the
      closing update is never sent and the status keeps the first viseme. */
  lemma NegativeDurationStopsAnimation(s: UiState, text: string, pairs: seq<(string, string)>, d: real)
    requires |pairs| > 0 && d < 0.0
    ensures var r := AnimateText(s, text, pairs, Some(d));
      r.raised && |r.frames| == 1 && Status(r.ui) != ("CLOSED", "") &&
      forall i :: 0 <= i < |r.frames| ==> r.frames[i].event != VisemeUpdate("CLOSED", "")
  {
    CaptionNotEmpty(text, pairs[0].0);
  }

  /** A caption is never empty: it always carries the bracketed phoneme. */
  lemma CaptionNotEmpty(text: string, phoneme: string)
    ensures Caption(text, phoneme) != ""
  {
    assert |Caption(text, phoneme)| >= 3;
  }

  // ---------------------------------------------------------------------
  // Control queue

  /** `handle_control`: queue `{action, value}` from the message (a missing
      field is `None`) and acknowledge the action. */
  function HandleControl(s: UiState, data: Dict<Value>): (r: UiStep)
    ensures r.ui.queue == s.queue + [Command(GetOr(data, "action", Null), GetOr(data, "value", Null))]
    ensures Status(r.ui) == Status(s)
    ensures r.events == [ControlAck(GetOr(data, "action", Null))]
  {
    var cmd := Command(GetOr(data, "action", Null), GetOr(data, "value", Null));
    UiStep(s.(queue := s.queue + [cmd]), [ControlAck(cmd.action)])
  }

  /** `get_control_command`: the oldest queued command, or `None` when the
      queue is empty (the wait times out). */
  function GetControlCommand(s: UiState): (r: (Option<Command>, UiState))
    ensures |s.queue| == 0 ==> r == (None, s)
    ensures |s.queue| > 0 ==> r.0 == Some(s.queue[0]) && r.1.queue == s.queue[1..]
    ensures Status(r.1) == Status(s)
  {
    if |s.queue| == 0 then (None, s) else (Some(s.queue[0]), s.(queue := s.queue[1..]))
  }

  /** `k` successive reads of the queue. */
  function Drain(s: UiState, k: nat): (r: seq<Option<Command>>)
    ensures |r| == k
    decreases k
  {
    if k == 0 then []
    else
      var got := GetControlCommand(s);
      [got.0] + Drain(got.1, k - 1)
  }

  /** The queue is first in, first out: successive reads return the queued
      commands in the order they were queued, then `None`. */
  lemma {:induction false} DrainInOrder(s: UiState, k: nat, i: nat)
    requires i < k
    ensures Drain(s, k)[i] == if i < |s.queue| then Some(s.queue[i]) else None
    decreases k
  {
    var got := GetControlCommand(s);
    if i > 0 {
      DrainInOrder(got.1, k - 1, i - 1);
      if |s.queue| > 0 {
        assert got.1.queue == s.queue[1..];
      }
    }
  }

  /** Messages handled one after another. */
  function HandleAll(s: UiState, messages: seq<Dict<Value>>): (r: UiState)
    ensures Status(r) == Status(s)
    decreases |messages|
  {
    if |messages| == 0 then s else HandleAll(HandleControl(s, messages[0]).ui, messages[1..])
  }

  /** Handling messages appends their commands to the queue in arrival
      order, after whatever was already waiting. */
  lemma {:induction false} HandleAllAppends(s: UiState, messages: seq<Dict<Value>>)
    ensures |HandleAll(s, messages).queue| == |s.queue| + |messages|
    ensures HandleAll(s, messages).queue[..|s.queue|] == s.queue
    ensures forall i :: 0 <= i < |messages| ==>
      HandleAll(s, messages).queue[|s.queue| + i] ==
        Command(GetOr(messages[i], "action", Null), GetOr(messages[i], "value", Null))
    decreases |messages|
  {
    if |messages| > 0 {
      var s1 := HandleControl(s, messages[0]).ui;
      HandleAllAppends(s1, messages[1..]);
      var r := HandleAll(s, messages);
      assert r == HandleAll(s1, messages[1..]);
      assert r.queue[..|s1.queue|] == s1.queue;
      assert r.queue[..|s.queue|] == s1.queue[..|s.queue|];
      forall i | 0 <= i < |messages|
        ensures r.queue[|s.queue| + i] == Command(GetOr(messages[i], "action", Null), GetOr(messages[i], "value", Null))
      {
        if i > 0 {
          assert messages[1..][i - 1] == messages[i];
          assert r.queue[|s1.queue| + (i - 1)] == r.queue[|s.queue| + i];
        } else {
          assert r.queue[|s.queue|] == s1.queue[|s.queue|];
        }
      }
    }
  }
}
